=== FILE: README.md ===
# action-lite in Dafny

action-lite is a file-based task tracker. A **workspace** is a directory
marked by an `.action-lite` file. Each **project** inside it is a
subdirectory. Each **action** is a markdown file in a project directory:

- a frontmatter block (`id`, `created_at`, `updated_at`);
- a title line and a tag line;
- up to five `## ` content sections (Notes, Statement of Action,
  Statement of Inputs, Statement of Design, Analysis of Impact).

An action moves through a seven-stage lifecycle (discovery → design →
implement → test → document → publish → published). Each stage names the
sections it requires.

This project models the tracker's core as pure functions over immutable
data. The main results:

- the line-scanning markdown parser, as a functional definition and as an
  imperative loop proved equal to it;
- the action writer, and the theorem that every content section survives
  a write followed by a parse;
- the fact that status and priority do not survive such a reload, because
  the writer never records them;
- the template writer and the project README generator, with the section
  set each one produces;
- the name utilities;
- the project and workspace indexes:
  - creation with its duplicate guard;
  - lookups and their not-found errors;
  - the setters, and what they leave unchanged;
  - the filtered, sorted listing;
  - the fail-fast validation, shown equivalent to a declarative
    definition of a valid workspace.

The filesystem is a value `Fs`: a set of directory paths plus a map from
file path to text. A path is its sequence of component names. Clock, fresh
ids, RFC 3339 formatting/parsing and UUID parsing are fields of an `Env`
value. Every operation that writes returns the new `Fs`. Where the source
leaves state changed on an error path, the model returns that state too.
For example, `update_action_status` keeps the new status in memory when
the save fails, and `create_action` keeps a newly made project when the
action cannot be created.

The source's hash-map iteration order is unspecified. `list_actions` and
`validate` therefore take it as an explicit `Order` parameter. The lemmas
show the listing's contents do not depend on it. For validation, they show
that pass/fail does not depend on it, and that the reported violation
always holds.

Files, one module each:

- `outcomes.dfy`: `Option`, `Result`, `Outcome`.
- `strings.dfy`: trim, line splitting, ASCII lowercasing, lexicographic
  order.
- `status.dfy`: the lifecycle.
- `parser.dfy` and `parser_laws.dfy`: `parse` and its laws.
- `layout.dfy`: when a rendered document parses back to its parts.
- `host.dfy`: paths, filesystem, environment, error kinds.
- `action.dfy` and `action_laws.dfy`: the action entity and its round
  trip.
- `template.dfy`: the template writer and the README generator.
- `names.dfy`: the name utilities.
- `project.dfy`: the project index.
- `workspace.dfy` and `workspace_queries.dfy`: the workspace index, the
  listing and validation.

One point where the source disagrees with itself: `validate_action_title`
counts UTF-8 bytes (`str::len`), while its error message speaks of
characters. The model follows the code.

## Model

| member | source | states |
|---|---|---|
| StatusLifecycle.DefaultStatus | src/status.rs:98-101 | the default stage is the first of the lifecycle (Discovery) |
| StatusLifecycle.FromStr | src/status.rs:24-35 | parsing succeeds only when the lowercased input is a stage's display name; a failure carries the input exactly as given |
| StatusLifecycle.RankIsIndex | src/status.rs:7-15 | the seven stages are pairwise distinct: equal rank means equal stage |
| StatusLifecycle.DisplayIsLowercase | src/status.rs:37-39 | display names have no uppercase letter, so `as_tag(s)` is `#` followed by the display name |
| StatusLifecycle.FromStrDisplay | src/status.rs:24-35 | parsing a stage's display name gives that stage back |
| StatusLifecycle.FromStrAccepts | src/status.rs:25-33 | parsing succeeds exactly on strings whose lowercase form is some stage's name |
| StatusLifecycle.FromStrCaseInsensitive | src/status.rs:25-33 | a string and its lowercase form parse alike; the error keeps the original, un-lowercased input |
| StatusLifecycle.NextStepsUp | src/status.rs:41-51 | `next_status` is undefined only at Published, and otherwise moves exactly one stage forward |
| StatusLifecycle.PreviousStepsDown | src/status.rs:53-63 | `previous_status` is undefined only at Discovery, and otherwise moves exactly one stage back |
| StatusLifecycle.NextPreviousInverse | src/status.rs:41-63 | `next` and `previous` undo each other wherever they are defined |
| StatusLifecycle.WalkIsSuffix | src/status.rs:41-51 | following `next` from any stage visits the later stages in declaration order, then stops |
| StatusLifecycle.WalkFromDiscovery | src/status.rs:7-15 | following `next` from Discovery visits all seven stages once each, in order |
| StatusLifecycle.RequiredOutputsTable | src/status.rs:65-81 | the required-outputs table: five names for Discovery (including Title and Statement of Specifications), one each for Design and Document, none otherwise |
| Strings.TrimStart | src/parser.rs:25 | removes exactly the longest all-whitespace prefix |
| Strings.TrimEnd | src/parser.rs:25 | removes exactly the longest all-whitespace suffix |
| Strings.TrimPadded | src/parser.rs:50 | whitespace around an already trimmed text is removed and nothing else |
| Strings.LinesUnlines | src/parser.rs:18 | splitting the newline-joined text of newline-free lines gives those lines back, each without one trailing `\r`, as `str::lines` drops the `\r` of a `\r\n` break |
| Strings.ToLowerNoUpper | src/status.rs:25 | a lowercased string has no uppercase letter, and lowercasing it again changes nothing |
| Strings.LexLeTotal | src/workspace.rs:160-163 | any two strings are comparable in the listing's string order |
| Strings.LexLeTrans | src/workspace.rs:160-163 | the string order is transitive |
| Strings.LexLeAntisym | src/workspace.rs:160-163 | the string order is antisymmetric |
| Parser.SplitOnce | src/parser.rs:26 | no split without a colon; otherwise the part before holds no colon and the parts rebuild the line |
| Parser.CloseIndex | src/parser.rs:24-33 | the frontmatter loop stops at the first closing fence, or at the end when there is none |
| Parser.Parse | src/parser.rs:14-70 | parsing never fails |
| Parser.ScanFrontmatter | src/parser.rs:22-37 | the frontmatter loop computes the fold of its lines and resumes just past the closing fence |
| Parser.ScanSections | src/parser.rs:40-68 | the section loop, with its open-section flag and body buffer, computes the functional section scan |
| Parser.MarkdownParse | src/parser.rs:14-70 | the imperative parser returns Ok with exactly the functional parse of the text's lines |
| ParserLaws.MetadataNeedsOpeningFence | src/parser.rs:22 | metadata is non-empty only when the first line trims to `---` |
| ParserLaws.MetaFoldKeys | src/parser.rs:24-33 | the metadata keys are exactly the trimmed keys of the frontmatter lines that hold a colon |
| ParserLaws.MetaFoldUntouched | src/parser.rs:26-31 | lines that do not define a key leave its value alone |
| ParserLaws.LastKeyWins | src/parser.rs:26-31 | a repeated key keeps the value of its last line |
| ParserLaws.UnclosedFrontmatter | src/parser.rs:24-37 | without a closing fence every remaining line is frontmatter and there are no sections |
| ParserLaws.ScanKeys | src/parser.rs:47-68 | every header line opens a section and nothing else does |
| ParserLaws.SectionKeysAreHeaders | src/parser.rs:47-55 | the section keys are exactly the header names seen, so there are at most as many as header lines |
| ParserLaws.PreambleDiscarded | src/parser.rs:56-60 | lines before the first header contribute nothing |
| ParserLaws.BodyAccumulates | src/parser.rs:56-60 | inside a section each non-header line is appended to the body followed by a newline |
| Layout.ContentBlockValue | src/parser.rs:50 | a trimmed content written as a block is stored verbatim |
| Layout.ScanBlocks | src/parser.rs:43-68 | well-formed blocks become one map entry each, a later block with the same name replacing an earlier one |
| Layout.ParseFramed | src/parser.rs:14-70 | fence, frontmatter, fence, preamble and blocks parse to the frontmatter fold and the block map |
| Layout.ParseUnframed | src/parser.rs:22-68 | a document whose first line is not a fence has empty metadata and the block map |
| Layout.ParseFramedText | src/parser.rs:14-70 | the same for the text of such a document, lines joined with newlines; a `\r` that `lines` drops from a frontmatter or preamble line changes nothing |
| Layout.ParseUnframedText | src/parser.rs:14-68 | the text of a preamble and blocks, with no opening fence, parses to no metadata and the block map |
| Layout.FrontOnlyMetadata | src/parser.rs:22-37 | a text opening with a fenced block of newline-free, fence-free lines has exactly that block's fold as metadata, whatever text follows the closing fence |
| Strings.LinesPrefix | src/parser.rs:18 | the lines of newline-joined lines followed by more text are those lines, each without one trailing `\r`, then the lines of the rest |
| Layout.CrlfInSectionLost | src/parser.rs:18-59 | a section whose lines are `x\r` and `y` is read back as `x`, a newline and `y`: the carriage return is lost |
| Actions.NewAction | src/action.rs:31-48 | a new action is in Discovery, created and updated at the same instant, with no file and no sections |
| Actions.FromFile | src/action.rs:50-97 | loading fails exactly when the file is unreadable; a loaded action records the path it came from |
| Actions.Save | src/action.rs:99-105 | the update time is stamped first and kept even if the write fails; a failed write leaves the filesystem as it was |
| Actions.SetStatus | src/action.rs:175-178 | only the status and the update time change |
| Actions.SetPriority | src/action.rs:180-183 | only the priority flag and the update time change |
| Actions.UpdateSection | src/action.rs:185-195 | the section whose name matches case-insensitively is replaced; an unknown name changes no section; the update time is always stamped |
| Actions.MetaGraphPath | src/action.rs:202-204 | the meta-graph path sits beside the file and is named by the file's stem |
| Actions.MetaGraphOfMarkdownFile | src/action.rs:202-204 | the meta-graph directory of `dir/name.md` is `dir/name` |
| ActionLaws.SectionsTextInOrder | src/action.rs:130-158 | the sections are written in the fixed order Notes, Action, Inputs, Design, Impact, absent ones contributing nothing |
| ActionLaws.MarkdownLayout | src/action.rs:107-161 | the written text is a fence, the three frontmatter lines, a fence, the title and tag lines, then one block per present section |
| ActionLaws.SlugShape | src/action.rs:119-122 | the project slug has the project's length, no space and no uppercase letter |
| ActionLaws.TagLineShape | src/action.rs:119-127 | the tag line starts with `#project #<slug> #<status>` and ends with ` #priority` exactly when the action is a priority |
| ActionLaws.ParseMarkdown | src/action.rs:107-161 | for one-line id, title, project and time texts, parsing the written text gives the frontmatter fold and the map of the written sections, for sections without a `## ` line or a `\r\n` break |
| ActionLaws.ParsedKeysKnown | src/action.rs:130-158 | for one-line id, title, project and time texts and sections without a `## ` line or a `\r\n` break, the section map parsed from a written action holds only the five known section names |
| ActionLaws.SectionReadBack | src/action.rs:91-95 | for one-line id, title, project and time texts and sections that are trimmed, have no `## ` line and no `\r\n` break, each present section is found in the map parsed from the written text under its name with its own content, and an absent one is missing |
| ActionLaws.SectionRoundTrip | src/action.rs:91-161 | writing an action and rebuilding it from the parse gives back all five section fields, for trimmed sections without a `## ` line or a `\r\n` break, and single-line fields |
| ActionLaws.WrittenMetadata | src/action.rs:111-115 | for one-line id and time texts (title, project and sections may be anything), the parsed frontmatter of a written action holds id, created_at and updated_at, each the trimmed text written |
| ActionLaws.ReloadForgetsStatus | src/action.rs:76-81 | for one-line id and time texts (title, project and sections may be anything), the frontmatter has exactly three keys, so a reloaded action is always in Discovery and never a priority |
| ActionLaws.ReloadKeepsIdAndTimes | src/action.rs:71-89 | for one-line id and time texts, id and timestamps survive a reload whenever their written text parses back to them |
| ActionLaws.NameFromPathOnly | src/action.rs:57-68 | title and project come from the path alone, never from the file's content |
| ActionLaws.NameFromMarkdownPath | src/action.rs:57-68 | the file `dir/project/title.md` loads with that title and project |
| ActionLaws.SaveThenLoad | src/action.rs:99-105 | for one-line id, title, project and time texts, after a successful save, loading the file gives back the sections (trimmed, without a `## ` line or a `\r\n` break), but status Discovery and no priority |
| Template.NewTemplate | src/template.rs:15-24 | a new template is in Discovery with the given title, project and priority, a fresh id and the current time |
| Template.ProjectReadme | src/template.rs:82-86 | the project README starts with `# <name>` and a blank line |
| Template.TemplateReadsAsAction | src/template.rs:26-75 | for one-line id, title, project and time texts, the template text parses exactly like the action writer's text for the action prefilled with the hint sections |
| Template.TemplateParse | src/template.rs:26-75 | for one-line id, title, project and time texts, the template parses to its frontmatter and the prefilled sections |
| Template.TemplateSections | src/template.rs:48-72 | for one-line id, title, project and time texts, Notes, Action and Inputs always hold their hints; Design is present iff the stage is past Discovery and starts with its `### Output` sub-heading; Impact is present iff the stage is Document or later |
| Template.NewTemplateSections | src/template.rs:48-66 | for one-line id, title, project and time texts, a new template has exactly the Notes, Action and Inputs sections |
| Template.TemplateMetadata | src/template.rs:30-34 | for one-line id, title, project and time texts, the template's frontmatter holds id and created_at, and an updated_at equal to created_at |
| Template.TemplateReload | src/template.rs:30-34 | for one-line id, title, project and time texts, an action loaded from a template has the hint sections, status Discovery, no priority, and creation and update times that agree exactly when the written time text parses back or the loader's two clock readings coincide |
| Template.TemplateTagShape | src/template.rs:38-46 | the template tag line is `#project #action #<status> #<slug>`, followed by ` #priority` exactly when the flag is set |
| Template.PriorityProjectTag | src/template.rs:38-46 | a project named `priority` makes a non-priority template's tag line end in ` #priority` too |
| Template.TagLinesDiffer | src/template.rs:38-41 | the template's tag line is eight characters longer than the action's, the length of the extra `#action ` tag, so the two never coincide |
| Template.ReadmeParse | src/template.rs:82-86 | for a one-line name, the project README parses to no metadata and exactly the Actions and Meta-graphs sections |
| Names.TitleToFilename | src/utils.rs:5-16 | the file name has the title's length, no space, no path separator and no uppercase letter; kept characters stay in place lowercased, separators become `-`, all else `_` |
| Names.TitleToFilenameIdempotent | src/utils.rs:5-16 | a file name made from a title is its own file name |
| Names.TitleToFilenameAppend | src/utils.rs:6-13 | the mapping works character by character, so it distributes over concatenation |
| Names.TitleToFilenameExamples | src/utils.rs:77-81 | the three unit-test examples hold |
| Names.ValidateProjectName | src/utils.rs:19-33 | a name is accepted iff it is non-empty, has no `/` or `\` and does not start with `.`; the first failing check is reported |
| Names.ValidateProjectNameExamples | src/utils.rs:84-90 | the unit-test examples hold |
| Workspaces.AcceptedNameLoads | src/workspace.rs:65-70 | a directory under the root whose name `validate_project_name` accepts is loaded as a project, and one refused for its leading dot never is |
| Names.Utf8Len | src/utils.rs:41 | the UTF-8 length lies between the number of characters and four times that |
| Names.AsciiLen | src/utils.rs:41 | the byte length equals the character count exactly for ASCII text |
| Names.ValidateActionTitle | src/utils.rs:36-46 | a title is accepted iff it is non-empty and at most 100 UTF-8 bytes; emptiness is reported first |
| Names.TitleBoundIsBytes | src/utils.rs:41-43 | over 100 characters always fails; a non-empty ASCII title of at most 100 characters passes |
| Names.WideTitleRejected | src/utils.rs:41-43 | 34 three-byte characters are rejected although far fewer than 100 characters |
| Names.ValidateActionTitleExamples | src/utils.rs:93-97 | the unit-test examples hold |
| Projects.NewProject | src/project.rs:16-31 | the directory is created when nothing is at the path; failure only when a prefix is a file; the project starts empty |
| Projects.StemsDistinct | src/project.rs:60-63 | distinct markdown files of a directory have distinct stems, so loading loses none |
| Projects.LoadActions | src/project.rs:51-77 | nothing at the path loads nothing; a file cannot be listed; otherwise the keys are exactly the stems of the `.md` files |
| Projects.LoadedUnderStem | src/project.rs:56-64 | every `.md` file is loaded, under its stem, as `from_file` reads it |
| Projects.LoadProject | src/project.rs:33-49 | the project is named by the last path component, `unknown` without one, and holds what `load_actions` found |
| Projects.CreateAction | src/project.rs:79-104 | an existing file refuses the title and changes nothing; otherwise the new action (Discovery, the three fixed texts, no Design or Impact, created at the first clock reading and updated at the save's second one) is written to its file and filed under the raw title |
| Projects.CreateThenGet | src/project.rs:101-108 | the new action is found under its title and every other title is unaffected |
| Projects.CreatedFileKey | src/project.rs:80-101 | a reload keys the action by its file stem, which equals the title only when the title has no space or capital; an empty title gives `.md`, which is never loaded |
| Projects.StemMatchesFilename | src/project.rs:80 | the stem `create_action` uses agrees with `title_to_filename` exactly on titles made of spaces and kept characters |
| Projects.GetAction | src/project.rs:106-108 | found exactly when the title is a key, with the stored action |
| Projects.UpdateActionStatus | src/project.rs:114-123 | an unknown title fails and changes nothing; otherwise the status is set and the action saved, its update time the save's clock reading, the project keeping the change even when the save fails |
| Projects.SetActionPriority | src/project.rs:125-134 | as for the status, with the priority flag |
| Projects.StatusUpdateIsLocal | src/project.rs:114-123 | only that action changes, and only in status and update time |
| Projects.StatusNotPersisted | src/project.rs:114-123 | for one-line id and time texts, the updated status is not what the saved file gives back: a reload reads Discovery and no priority |
| Projects.PriorityNotPersisted | src/project.rs:125-134 | for one-line id and time texts, a priority set and saved reads back as not a priority |
| Projects.ActionsByStatus | src/project.rs:140-145 | exactly the actions in that status, unchanged |
| Projects.PriorityActions | src/project.rs:147-152 | exactly the priority actions, unchanged |
| Projects.PriorityAfterSet | src/project.rs:125-152 | after `set_action_priority` the title is in the priority list iff the flag was set to true, holding the re-flagged action; every other title is in it iff it was before, with its action unchanged |
| WorkspaceQueries.PriorityListing | src/workspace.rs:133-155 | listing one project with only the priority filter lists exactly the values of that project's `priority_actions` |
| Projects.StatusPartition | src/project.rs:140-145 | the per-status lists are disjoint and every action is in its own status's list |
| Projects.CreateMetaGraph | src/project.rs:154-174 | an unknown title fails; a known one succeeds iff something is at the meta-graph path or no prefix of it is a file, giving the action's meta-graph directory, created with exactly its ancestors when nothing was there |
| Projects.CreateMetaGraphIdempotent | src/project.rs:164-171 | creating a meta-graph a second time changes nothing |
| Projects.CreatedMetaGraph | src/project.rs:162 | a created action's meta-graph is the project directory joined with the file stem |
| Workspaces.Init | src/workspace.rs:15-41 | succeeds iff the root can be a directory and the marker path is not one; writes the marker text; writes the README only when nothing is at its path; changes no other file, and adds directories only by creating a missing root with its ancestors |
| Workspaces.Load | src/workspace.rs:43-87 | no marker means not a workspace; otherwise the projects are exactly the subdirectories whose names do not start with `.`, each named by its directory |
| Workspaces.InitThenLoad | src/workspace.rs:15-62 | a freshly initialised workspace loads |
| Workspaces.LoadedActionFile | src/workspace.rs:75-77 | a loaded project holds each of its `.md` files under the file's stem |
| Workspaces.CreateAction | src/workspace.rs:89-101 | the action is created in the named project, which is made under the root when missing and kept even if the action fails; on success the project, file system and action are exactly those of the project's own `create_action` on that project, and on failure its error, with the file system holding the new project's directory; other projects are untouched |
| Workspaces.GetAction | src/workspace.rs:103-109 | a missing project and a missing action give their own errors; otherwise the stored action |
| Workspaces.UpdateActionStatus | src/workspace.rs:111-116 | a missing project fails and changes nothing; otherwise the project's own update |
| Workspaces.SetActionPriority | src/workspace.rs:118-123 | a missing project fails and changes nothing; otherwise the project's own setter |
| Workspaces.UpdateThenGet | src/workspace.rs:111-116 | after the update `get_action` reports the new status, whether or not the save succeeded, and every other lookup is unchanged |
| Workspaces.SetPriorityThenGet | src/workspace.rs:118-123 | the same for the priority flag |
| Workspaces.CreateMetaGraph | src/workspace.rs:195-200 | a missing project fails; a result is always the found action's meta-graph path |
| WorkspaceQueries.CollectTitles | src/workspace.rs:141-156 | the collected actions of a project are exactly those passing the status and priority filters |
| WorkspaceQueries.Collect | src/workspace.rs:133-157 | the collected actions are those of the projects passing the project filter |
| WorkspaceQueries.ActionLeTotal | src/workspace.rs:160-163 | any two actions are comparable by (project, title) |
| WorkspaceQueries.ActionLeTrans | src/workspace.rs:160-163 | the (project, title) order is transitive |
| WorkspaceQueries.SortActions | src/workspace.rs:160-163 | the sorted list is ordered by project then title and is a permutation of its input |
| WorkspaceQueries.ListActions | src/workspace.rs:125-166 | sorted; exactly the actions passing the project, status and priority filters, each as many times as there are (project, title) keys filing it; a bad status text fails iff some action would be filtered by it, and otherwise gives an empty list |
| WorkspaceQueries.CollectCount | src/workspace.rs:133-157 | the collected list holds an action once per (project, title) key that files it and passes the filters |
| WorkspaceQueries.CollectTitlesCount | src/workspace.rs:141-156 | one project's collected list holds an action once per title that files it and passes the filters |
| WorkspaceQueries.CollectListed | src/workspace.rs:133-156 | whatever the iteration order, the collected actions are exactly the listed ones |
| WorkspaceQueries.ListingIgnoresOrder | src/workspace.rs:133-163 | two iteration orders give the same outcome and the same actions with the same multiplicities |
| WorkspaceQueries.FirstLacking | src/workspace.rs:223-241 | the first required output the action lacks, none exactly when it lacks none |
| WorkspaceQueries.Validate | src/workspace.rs:202-247 | passes iff the marker exists, every project directory exists and every action's file and required known sections are present; a reported violation always holds |
| WorkspaceQueries.ActionCheck | src/workspace.rs:217-241 | one action's check passes iff its file exists and no required known section is absent |
| WorkspaceQueries.TitlesCheck | src/workspace.rs:216-243 | a project's action checks pass iff every action passes; a failure names a real missing file or section |
| WorkspaceQueries.CheckProjectsSound | src/workspace.rs:210-244 | every violation the project loop reports holds |
| WorkspaceQueries.CheckProjectsComplete | src/workspace.rs:210-244 | the project loop passes iff every project's directory exists and all its actions pass |
| WorkspaceQueries.DiscoveryChecksThree | src/workspace.rs:222-241 | a Discovery action needs only its file and Notes, Action and Inputs: Title and Statement of Specifications are never checked |
| WorkspaceQueries.PresentSectionsPass | src/workspace.rs:224-240 | only absence fails a requirement: present sections pass even when empty |
| WorkspaceQueries.EmptyWorkspaceValid | src/workspace.rs:202-247 | a marked workspace with no projects passes |
| WorkspaceQueries.CreatedActionOk | src/project.rs:94-100 | an action just created passes validation in the resulting filesystem |

## Left out

- `src/main.rs` (command-line parsing and coloured output) and `src/lib.rs` (re-exports): no core logic.
- `Workspace::edit_action` (src/workspace.rs:168-193): reads environment variables and runs an external editor.
- `extract_tags` and `extract_links` (src/parser.rs:73-87): regular-expression wrappers that nothing else calls.
- `is_subpath` and `format_relative_path` (src/utils.rs:49-70): they depend on path canonicalisation by the operating system.
- `has_meta_graph` (src/action.rs:197-200) and the getters: a filesystem query and plain field reads.
- Real I/O. The filesystem is the value `Fs`. `fs::write` fails unless the parent is a directory and the target is not. `create_dir_all` fails when a prefix is a file. A file in the map is always readable, so the warning branches of `load_actions` and `load_projects` cannot arise.
- Directory-entry errors from `read_dir` and non-UTF-8 file names are not modelled.
- Clock, UUIDs and RFC 3339. These are `Env` fields: the first and the second clock reading of an operation as `nat`s, a fresh id, a renderer, and two parsers returning `Option`. `create_action` and the setters read the clock once in the action and once more in `save`; `from_file` reads it once per missing or unparsable timestamp. The workspace README text bundled with `include_str!` is a parameter of `Workspaces.Init`.
- Unicode case mapping. Lowercasing is exact on ASCII and leaves other characters unchanged. This affects `Names.TitleToFilename`, `Actions.Slug`, `StatusLifecycle.FromStr`, `Actions.UpdateSection` and `Projects.ActionStem`. For `FromStr` and `UpdateSection` the difference matters only for the Kelvin sign, which lowercases to `k`, a letter that no stage or section name contains.
- Names.TitleToFilename: `char::is_alphanumeric` is exact on ASCII. For other characters the Unicode property table is the parameter `unicodeAlnum`, so the contract is stated relative to that table.
- `str::lines` is modelled with its `\r` stripping (`Strings.Lines`). A section holding a `\r\n` break does not read back verbatim (`Layout.CrlfInSectionLost`), so the section round trip is stated for sections without one (`ActionLaws.SectionOk`). A lone `\r` that is not followed by `\n` is kept.
- ActionLaws.ParseMarkdown, ActionLaws.ParsedKeysKnown, ActionLaws.SectionReadBack, ActionLaws.SaveThenLoad, Template.TemplateReadsAsAction, Template.TemplateParse, Template.TemplateSections, Template.NewTemplateSections, Template.TemplateMetadata and Template.TemplateReload are stated only for id, title, project and time texts without a newline, and Template.ReadmeParse only for a name without one. The writers do not check this: a title such as `a\n## Notes` puts a section header into the text and the round trip fails.
- Projects.LoadActions: all files loaded by one call see the same two clock readings and the same fresh id. The source reads the clock and draws an id afresh for each file that needs them.
- Path joining. A path is a sequence of components, and a title or project name is always one component. In the source both go into `Path::join` as given: the title at src/project.rs:79-80 and the project name at src/workspace.rs:94, which is not validated there. A `/` inside a name descends into subdirectories. A name with a leading `/` is absolute, so `join` replaces the project or workspace path entirely. A `..` component climbs out of the project or the workspace. None of these is modelled.
- Error texts. Errors are the kinds in `Host.Error`, without anyhow's message strings.
- Hash-map iteration order. It is the explicit `Order` parameter of `WorkspaceQueries.ListActions` and `WorkspaceQueries.Validate`. A project's `list_actions` (src/project.rs:136-138) is the map itself.
- Actions whose project and title fields are equal keep their enumeration order in the sorted listing. That order is not pinned down by the source either.

=== FILE: action.dfy ===
/**
 * The action entity (src/action.rs): construction, the markdown writer,
 * rebuilding an action from a parsed file, and the setters. The central
 * theorem is that the content sections survive a write followed by a parse.
 */
module Actions {
  import opened Outcomes
  import opened Strings
  import opened StatusLifecycle
  import opened Parser
  import opened ParserLaws
  import opened Layout
  import opened Host

  datatype Action = Action(
    id: string,
    title: string,
    project: string,
    status: Status,
    priority: bool,
    createdAt: nat,
    updatedAt: nat,
    filePath: Path,
    notes: Option<string>,
    statementOfAction: Option<string>,
    statementOfInputs: Option<string>,
    statementOfDesign: Option<string>,
    analysisOfImpact: Option<string>)

  /** The content sections, in the order the writer emits them. */
  const SectionNames: seq<string> :=
    ["Notes", "Statement of Action", "Statement of Inputs", "Statement of Design", "Analysis of Impact"]

  const SectionCount: nat := 5

  /** The content of the `i`-th section, counted in `SectionNames` order. */
  function Section(a: Action, i: nat): Option<string>
    requires i < SectionCount
  {
    if i == 0 then a.notes
    else if i == 1 then a.statementOfAction
    else if i == 2 then a.statementOfInputs
    else if i == 3 then a.statementOfDesign
    else a.analysisOfImpact
  }

  /** `HashMap::get(..).cloned()`. */
  function Get(m: map<string, string>, k: string): Option<string> {
    if k in m then Some(m[k]) else None
  }

  /** `Action::new`: a fresh id, the current time twice, Discovery, no file, no sections. */
  function NewAction(project: string, title: string, priority: bool, env: Env): (a: Action)
    ensures a.title == title && a.project == project && a.priority == priority
    ensures a.status == DefaultStatus() && a.status == Discovery
    ensures a.createdAt == a.updatedAt == env.now
    ensures a.filePath == []
    ensures forall i :: 0 <= i < SectionCount ==> Section(a, i).None?
  {
    Action(env.freshId, title, project, DefaultStatus(), priority, env.now, env.now, [],
           None, None, None, None, None)
  }

  /* ---------- the writer ---------- */

  /** The project as it appears in the tag line: spaces become dashes, then lowercased. */
  function Slug(project: string): string {
    ToLower(ReplaceChar(project, ' ', '-'))
  }

  function TagLine(a: Action): string {
    "#project #" + Slug(a.project) + " #" + Display(a.status) + (if a.priority then " #priority" else "")
  }

  /** One section as written: absent sections write nothing. */
  function SectionText(name: string, content: Option<string>): string {
    match content
    case None => ""
    case Some(c) => HeaderMark + name + "\n\n" + c + "\n\n"
  }

  /** `to_markdown`: the frontmatter, the title and tag lines, then the present sections in fixed order. */
  function ToMarkdown(a: Action, env: Env): string {
    "---\n"
    + "id: " + a.id + "\n"
    + "created_at: " + env.rfc3339(a.createdAt) + "\n"
    + "updated_at: " + env.rfc3339(a.updatedAt) + "\n"
    + "---\n\n"
    + "# " + a.title + "\n\n"
    + TagLine(a) + "\n\n"
    + SectionText("Notes", a.notes)
    + SectionText("Statement of Action", a.statementOfAction)
    + SectionText("Statement of Inputs", a.statementOfInputs)
    + SectionText("Statement of Design", a.statementOfDesign)
    + SectionText("Analysis of Impact", a.analysisOfImpact)
  }

  /** The three frontmatter lines. Status and priority are not among them. */
  function FrontLines(a: Action, env: Env): seq<string> {
    ["id: " + a.id, "created_at: " + env.rfc3339(a.createdAt), "updated_at: " + env.rfc3339(a.updatedAt)]
  }

  function PreambleLines(a: Action): seq<string> {
    ["", "# " + a.title, "", TagLine(a), ""]
  }

  /** The blocks of the sections from the `i`-th on; an absent section has none. */
  function SectionBlocks(a: Action, i: nat): seq<Block>
    requires i <= SectionCount
    decreases SectionCount - i
  {
    if i == SectionCount then [] else OptionalBlock(SectionNames[i], Section(a, i)) + SectionBlocks(a, i + 1)
  }

  /** The text of the sections from the `i`-th on. */
  function SectionsText(a: Action, i: nat): string
    requires i <= SectionCount
    decreases SectionCount - i
  {
    if i == SectionCount then "" else SectionText(SectionNames[i], Section(a, i)) + SectionsText(a, i + 1)
  }

  /* ---------- rebuilding from a parsed file ---------- */

  /** `id`: the frontmatter's id when it parses as a UUID, a fresh one otherwise. */
  function IdOf(meta: map<string, string>, env: Env): string {
    match Get(meta, "id")
    case None => env.freshId
    case Some(s) => match env.parseUuid(s) case Some(u) => u case None => env.freshId
  }

  /** `status`: the frontmatter's status when it parses, Discovery otherwise. */
  function StatusOf(meta: map<string, string>): Status {
    match Get(meta, "status")
    case None => DefaultStatus()
    case Some(s) => match FromStr(s) case Ok(t) => t case Err(_) => DefaultStatus()
  }

  /** `priority`: set exactly when the frontmatter says `true`, in any case. */
  function PriorityOf(meta: map<string, string>): bool {
    match Get(meta, "priority")
    case None => false
    case Some(s) => ToLower(s) == "true"
  }

  /** The frontmatter's timestamp under `key`, when there is one and it parses as RFC 3339. */
  function StoredTime(meta: map<string, string>, key: string, env: Env): Option<nat> {
    match Get(meta, key)
    case None => None
    case Some(s) => env.parseRfc3339(s)
  }

  /** The creation time: the stored one, or the first clock reading. */
  function CreatedOf(meta: map<string, string>, env: Env): nat {
    match StoredTime(meta, "created_at", env) case Some(t) => t case None => env.now
  }

  /**
   * The update time: the stored one, or else a clock reading, which is the
   * second one when the creation time already read the clock.
   */
  function UpdatedOf(meta: map<string, string>, env: Env): nat {
    match StoredTime(meta, "updated_at", env)
    case Some(t) => t
    case None => if StoredTime(meta, "created_at", env).None? then env.later else env.now
  }

  /** The title is the file stem, `untitled` without one. */
  function TitleOf(path: Path): string {
    match FileStem(path) case Some(s) => s case None => "untitled"
  }

  /** The project is the name of the parent directory, `unknown` without one. */
  function ProjectOf(path: Path): string {
    match Parent(path)
    case None => "unknown"
    case Some(dir) => match FileName(dir) case Some(n) => n case None => "unknown"
  }

  /** The pure part of `from_file`: an action from the two parsed maps and the file's path. */
  function FromParsed(doc: Document, path: Path, env: Env): Action {
    Action(
      IdOf(doc.metadata, env),
      TitleOf(path),
      ProjectOf(path),
      StatusOf(doc.metadata),
      PriorityOf(doc.metadata),
      CreatedOf(doc.metadata, env),
      UpdatedOf(doc.metadata, env),
      path,
      Get(doc.sections, "Notes"),
      Get(doc.sections, "Statement of Action"),
      Get(doc.sections, "Statement of Inputs"),
      Get(doc.sections, "Statement of Design"),
      Get(doc.sections, "Analysis of Impact"))
  }

  /** `from_file`: an unreadable file is an error; any readable one gives an action. */
  function FromFile(fs: Fs, path: Path, env: Env): (r: Result<Action, Error>)
    ensures r.Ok? <==> path in fs.files
    ensures r.Err? ==> r.error == IoFailure(path)
    ensures r.Ok? ==> r.value.filePath == path
  {
    if path in fs.files then Ok(FromParsed(Parse(fs.files[path]).value, path, env)) else Err(IoFailure(path))
  }

  /** `save`: stamps the update time, then writes the file; the stamp stays even when the write fails. */
  function Save(a: Action, fs: Fs, env: Env): (r: (Action, Fs, Outcome<Error>))
    ensures r.0 == a.(updatedAt := env.now)
    ensures r.2.Pass? <==> WriteFile(fs, a.filePath, ToMarkdown(r.0, env)).Ok?
    ensures r.2.Pass? ==> r.1.files == fs.files[a.filePath := ToMarkdown(r.0, env)] && r.1.dirs == fs.dirs
    ensures r.2.Fail? ==> r.1 == fs
  {
    var stamped := a.(updatedAt := env.now);
    match WriteFile(fs, a.filePath, ToMarkdown(stamped, env))
    case Ok(fs') => (stamped, fs', Pass)
    case Err(e) => (stamped, fs, Fail(e))
  }

  /* ---------- setters ---------- */

  /** `set_status`: only the status and the update time change. */
  function SetStatus(a: Action, s: Status, now: nat): (r: Action)
    ensures r.status == s && r.updatedAt == now
    ensures r.(status := a.status, updatedAt := a.updatedAt) == a
  {
    a.(status := s, updatedAt := now)
  }

  /** `set_priority`: only the priority flag and the update time change. */
  function SetPriority(a: Action, p: bool, now: nat): (r: Action)
    ensures r.priority == p && r.updatedAt == now
    ensures r.(priority := a.priority, updatedAt := a.updatedAt) == a
  {
    a.(priority := p, updatedAt := now)
  }

  /**
   * `update_section`: the section whose name matches case-insensitively is
   * replaced; an unknown name changes no section. The update time is
   * stamped either way.
   */
  function UpdateSection(a: Action, name: string, content: Option<string>, now: nat): (r: Action)
    ensures r.updatedAt == now
    ensures forall i :: 0 <= i < SectionCount ==>
              Section(r, i) == (if ToLower(name) == ToLower(SectionNames[i]) then content else Section(a, i))
    ensures r.(notes := a.notes, statementOfAction := a.statementOfAction,
               statementOfInputs := a.statementOfInputs, statementOfDesign := a.statementOfDesign,
               analysisOfImpact := a.analysisOfImpact, updatedAt := a.updatedAt) == a
  {
    LowerSectionNames();
    var key := ToLower(name);
    var b :=
      if key == "notes" then a.(notes := content)
      else if key == "statement of action" then a.(statementOfAction := content)
      else if key == "statement of inputs" then a.(statementOfInputs := content)
      else if key == "statement of design" then a.(statementOfDesign := content)
      else if key == "analysis of impact" then a.(analysisOfImpact := content)
      else a;
    b.(updatedAt := now)
  }

  lemma LowerSectionNames()
    ensures ToLower(SectionNames[0]) == "notes"
    ensures ToLower(SectionNames[1]) == "statement of action"
    ensures ToLower(SectionNames[2]) == "statement of inputs"
    ensures ToLower(SectionNames[3]) == "statement of design"
    ensures ToLower(SectionNames[4]) == "analysis of impact"
  {
  }

  /** `meta_graph_path`: the action's file path without its extension. */
  function MetaGraphPath(a: Action): (p: Path)
    ensures |p| == |a.filePath| && Parent(p) == Parent(a.filePath)
    ensures FileName(p) == FileStem(a.filePath)
  {
    WithoutExtension(a.filePath)
  }

  /** The meta-graph directory of `<dir>/<name>.md` is `<dir>/<name>`. */
  lemma MetaGraphOfMarkdownFile(a: Action, dir: Path, name: string)
    requires |name| > 0 && a.filePath == dir + [name + ".md"]
    ensures MetaGraphPath(a) == dir + [name]
  {
    MarkdownName(name);
    assert a.filePath[..|a.filePath| - 1] == dir;
  }
}

=== FILE: action_laws.dfy ===
/**
 * What writing an action and parsing it back preserves and what it loses
 * (src/action.rs `to_markdown` against `from_file`, through src/parser.rs).
 */
module ActionLaws {
  import opened Outcomes
  import opened Strings
  import opened StatusLifecycle
  import opened Parser
  import opened ParserLaws
  import opened Layout
  import opened Host
  import opened Actions

  /* ---------- the written text has the framed layout ---------- */

  lemma Unlines3(x: string, y: string, z: string)
    ensures Unlines([x, y, z]) == x + "\n" + y + "\n" + z + "\n"
  {
    assert [x, y, z][1..] == [y, z];
    assert [y, z][1..] == [z];
    assert [z][1..] == [];
    assert Unlines([z]) == z + "\n" + Unlines([]);
    assert Unlines([y, z]) == y + "\n" + Unlines([z]);
    assert Unlines([x, y, z]) == x + "\n" + Unlines([y, z]);
  }

  lemma Unlines5(v: string, w: string, x: string, y: string, z: string)
    ensures Unlines([v, w, x, y, z]) == v + "\n" + w + "\n" + x + "\n" + y + "\n" + z + "\n"
  {
    assert [v, w, x, y, z] == [v, w] + [x, y, z];
    UnlinesAppend([v, w], [x, y, z]);
    assert [v, w][1..] == [w];
    assert [w][1..] == [];
    assert Unlines([w]) == w + "\n" + Unlines([]);
    assert Unlines([v, w]) == v + "\n" + Unlines([w]);
    Unlines3(x, y, z);
  }

  /** The frontmatter and preamble lines are the text before the first section. */
  lemma HeadText(a: Action, env: Env)
    ensures Unlines([Fence] + FrontLines(a, env) + [Fence] + PreambleLines(a))
         == "---\n"
          + "id: " + a.id + "\n"
          + "created_at: " + env.rfc3339(a.createdAt) + "\n"
          + "updated_at: " + env.rfc3339(a.updatedAt) + "\n"
          + "---\n\n"
          + "# " + a.title + "\n\n"
          + TagLine(a) + "\n\n"
  {
    var front := FrontLines(a, env);
    var pre := PreambleLines(a);
    HeadPieces(front, pre);
    Unlines3(front[0], front[1], front[2]);
    Unlines5(pre[0], pre[1], pre[2], pre[3], pre[4]);
    Regroup(a.id, env.rfc3339(a.createdAt), env.rfc3339(a.updatedAt), a.title, TagLine(a));
  }

  lemma HeadPieces(front: seq<string>, pre: seq<string>)
    ensures Unlines([Fence] + front + [Fence] + pre) == "---\n" + Unlines(front) + "---\n" + Unlines(pre)
  {
    UnlinesAppend([Fence] + front + [Fence], pre);
    UnlinesAppend([Fence] + front, [Fence]);
    UnlinesAppend([Fence], front);
    assert Unlines([Fence]) == Fence + "\n" + Unlines([]);
  }

  lemma Regroup(id: string, c: string, u: string, title: string, tag: string)
    ensures "---\n"
          + (("id: " + id) + "\n" + ("created_at: " + c) + "\n" + ("updated_at: " + u) + "\n")
          + "---\n"
          + ("" + "\n" + ("# " + title) + "\n" + "" + "\n" + tag + "\n" + "" + "\n")
         == "---\n"
          + "id: " + id + "\n"
          + "created_at: " + c + "\n"
          + "updated_at: " + u + "\n"
          + "---\n\n"
          + "# " + title + "\n\n"
          + tag + "\n\n"
  {
  }

  lemma {:induction false} BlocksLinesAppend(x: seq<Block>, y: seq<Block>)
    ensures BlocksLines(x + y) == BlocksLines(x) + BlocksLines(y)
    decreases |x|
  {
    if |x| == 0 {
      assert x + y == y;
    } else {
      assert (x + y)[1..] == x[1..] + y;
      BlocksLinesAppend(x[1..], y);
    }
  }

  /** An optional block reads as the section text the writer emits for it. */
  lemma OptionalText(name: string, content: Option<string>)
    ensures Unlines(BlocksLines(OptionalBlock(name, content))) == SectionText(name, content)
  {
    match content
    case None =>
    case Some(c) =>
      var b := ContentBlock(name, c);
      assert BlocksLines([b]) == BlockLines(b) + BlocksLines([]);
      assert BlockLines(b) + [] == BlockLines(b);
      ContentBlockText(name, c);
  }

  /** The sections' text is the text of their blocks. */
  lemma SectionsAsBlocks(a: Action)
    ensures Unlines(BlocksLines(SectionBlocks(a, 0))) == SectionsText(a, 0)
  {
    assert SectionBlocks(a, SectionCount) == [] && SectionsText(a, SectionCount) == "";
    AsBlocksStep(a, 4);
    AsBlocksStep(a, 3);
    AsBlocksStep(a, 2);
    AsBlocksStep(a, 1);
    AsBlocksStep(a, 0);
  }

  lemma AsBlocksStep(a: Action, i: nat)
    requires i < SectionCount
    requires Unlines(BlocksLines(SectionBlocks(a, i + 1))) == SectionsText(a, i + 1)
    ensures Unlines(BlocksLines(SectionBlocks(a, i))) == SectionsText(a, i)
  {
    var n, c := SectionNames[i], Section(a, i);
    SectionsTextStep(a, i);
    SectionBlocksUnfold(a, i);
    OptionalText(n, c);
    JoinBlocks(OptionalBlock(n, c), SectionBlocks(a, i + 1), SectionText(n, c), SectionsText(a, i + 1));
  }

  lemma SectionBlocksUnfold(a: Action, i: nat)
    requires i < SectionCount
    ensures SectionBlocks(a, i) == OptionalBlock(SectionNames[i], Section(a, i)) + SectionBlocks(a, i + 1)
  {
  }

  /** The text of two runs of blocks, one after the other. */
  lemma JoinBlocks(b: seq<Block>, rest: seq<Block>, tb: string, tr: string)
    requires Unlines(BlocksLines(b)) == tb && Unlines(BlocksLines(rest)) == tr
    ensures Unlines(BlocksLines(b + rest)) == tb + tr
  {
    BlocksLinesAppend(b, rest);
    UnlinesAppend(BlocksLines(b), BlocksLines(rest));
  }

  lemma SectionsTextInOrder(a: Action)
    ensures SectionsText(a, 0)
         == SectionText("Notes", a.notes)
          + SectionText("Statement of Action", a.statementOfAction)
          + SectionText("Statement of Inputs", a.statementOfInputs)
          + SectionText("Statement of Design", a.statementOfDesign)
          + SectionText("Analysis of Impact", a.analysisOfImpact)
  {
    SectionsTextStep(a, 0);
    SectionsTextStep(a, 1);
    SectionsTextStep(a, 2);
    SectionsTextStep(a, 3);
    SectionsTextStep(a, 4);
    Concat5(SectionText("Notes", a.notes),
      SectionText("Statement of Action", a.statementOfAction),
      SectionText("Statement of Inputs", a.statementOfInputs),
      SectionText("Statement of Design", a.statementOfDesign),
      SectionText("Analysis of Impact", a.analysisOfImpact),
      SectionsText(a, 0), SectionsText(a, 1), SectionsText(a, 2), SectionsText(a, 3), SectionsText(a, 4));
  }

  lemma SectionsTextStep(a: Action, i: nat)
    requires i < SectionCount
    ensures SectionsText(a, i) == SectionText(SectionNames[i], Section(a, i)) + SectionsText(a, i + 1)
    ensures i + 1 == SectionCount ==> SectionsText(a, i + 1) == ""
  {
  }

  /** Unfolding a right-nested concatenation of five pieces. */
  lemma Concat5(s0: string, s1: string, s2: string, s3: string, s4: string,
                r0: string, r1: string, r2: string, r3: string, r4: string)
    requires r4 == s4 + "" && r3 == s3 + r4 && r2 == s2 + r3 && r1 == s1 + r2 && r0 == s0 + r1
    ensures r0 == s0 + s1 + s2 + s3 + s4
  {
  }

  /**
   * The writer's text is the framed layout: a fence, the three frontmatter
   * lines, a fence, the blank/title/blank/tag/blank preamble, then one block
   * per present section in the fixed order of `SectionNames`.
   */
  lemma MarkdownLayout(a: Action, env: Env)
    ensures ToMarkdown(a, env) == Unlines(FramedLines(FrontLines(a, env), PreambleLines(a), SectionBlocks(a, 0)))
  {
    var front, pre, bs := FrontLines(a, env), PreambleLines(a), SectionBlocks(a, 0);
    var head := [Fence] + front + [Fence] + pre;
    assert FramedLines(front, pre, bs) == head + BlocksLines(bs);
    UnlinesAppend(head, BlocksLines(bs));
    HeadText(a, env);
    SectionsAsBlocks(a);
    SectionsTextInOrder(a);
    var h := Unlines(head);
    Append6(h,
      SectionText("Notes", a.notes),
      SectionText("Statement of Action", a.statementOfAction),
      SectionText("Statement of Inputs", a.statementOfInputs),
      SectionText("Statement of Design", a.statementOfDesign),
      SectionText("Analysis of Impact", a.analysisOfImpact));
  }

  lemma Append6(h: string, s1: string, s2: string, s3: string, s4: string, s5: string)
    ensures h + s1 + s2 + s3 + s4 + s5 == h + (s1 + s2 + s3 + s4 + s5)
  {
  }

  /* ---------- the layout is one the parser reads back ---------- */

  predicate OneLine(s: string) {
    '\n' !in s
  }

  /**
   * A section the parser gives back verbatim: already trimmed, no line
   * starting with `## `, and no `\r\n` line break, whose `\r` `lines` drops.
   */
  predicate SectionOk(content: Option<string>) {
    content.Some? ==> Trim(content.value) == content.value && HeaderFree(content.value) && CrlfFree(content.value)
  }

  /**
   * The conditions under which a written action reads back: every single-line
   * field stays on one line, and every present section is trimmed, has no
   * header line and no `\r\n` break.
   */
  predicate Reloadable(a: Action, env: Env) {
    && OneLine(a.id) && OneLine(a.title) && OneLine(a.project)
    && OneLine(env.rfc3339(a.createdAt)) && OneLine(env.rfc3339(a.updatedAt))
    && SectionsOk(a)
  }

  /**
   * The condition under which the frontmatter reads back: the id and both
   * rendered timestamps stay on one line. Title, project and sections may be
   * anything, since the closing fence ends the frontmatter.
   */
  predicate FrontOk(a: Action, env: Env) {
    OneLine(a.id) && OneLine(env.rfc3339(a.createdAt)) && OneLine(env.rfc3339(a.updatedAt))
  }

  predicate SectionsOk(a: Action) {
    && SectionOk(a.notes) && SectionOk(a.statementOfAction) && SectionOk(a.statementOfInputs)
    && SectionOk(a.statementOfDesign) && SectionOk(a.analysisOfImpact)
  }

  lemma SectionOkAt(a: Action, j: nat)
    requires j < SectionCount && SectionsOk(a)
    ensures SectionOk(Section(a, j))
  {
    if j == 0 { assert Section(a, j) == a.notes; }
    else if j == 1 { assert Section(a, j) == a.statementOfAction; }
    else if j == 2 { assert Section(a, j) == a.statementOfInputs; }
    else if j == 3 { assert Section(a, j) == a.statementOfDesign; }
    else { assert Section(a, j) == a.analysisOfImpact; }
  }

  /** The slug is as long as the project name, has no space, no uppercase letter and no new newline. */
  lemma SlugShape(project: string)
    ensures |Slug(project)| == |project|
    ensures ' ' !in Slug(project) && !HasUpper(Slug(project))
    ensures '\n' in Slug(project) <==> '\n' in project
  {
    var r := ReplaceChar(project, ' ', '-');
    ToLowerNoUpper(r);
    if '\n' in Slug(project) {
      var i :| 0 <= i < |Slug(project)| && Slug(project)[i] == '\n';
      assert project[i] == '\n';
    }
    if '\n' in project {
      var i :| 0 <= i < |project| && project[i] == '\n';
      assert Slug(project)[i] == '\n';
    }
  }

  /** The tag line names the project slug and the status, and ends in ` #priority` exactly when the flag is set. */
  lemma TagLineShape(a: Action)
    ensures StartsWith(TagLine(a), "#project #" + Slug(a.project) + " #" + Display(a.status))
    ensures a.priority <==> |TagLine(a)| >= 10 && TagLine(a)[|TagLine(a)| - 10..] == " #priority"
  {
    var t := TagLine(a);
    var d := Display(a.status);
    var base := "#project #" + Slug(a.project) + " #" + d;
    assert t[..|base|] == base;
    if !a.priority {
      assert t == base;
      assert |d| >= 4 && d[|d| - 3..] != "ity";
      assert t[|t| - 3..] == d[|d| - 3..];
      assert |t| >= 10 ==> t[|t| - 10..][7..] == t[|t| - 3..];
    }
  }

  lemma NotHeader(line: string)
    requires |line| >= 2 && line[1] != '#'
    ensures !IsHeader(line)
  {
    if |line| >= 3 {
      assert line[..3][1] == line[1];
    }
  }

  lemma PreambleShape(a: Action)
    ensures NoHeaders(PreambleLines(a))
    ensures OneLine(a.title) && OneLine(a.project) ==> NoNewline(PreambleLines(a))
  {
    TagStart(a);
    PreambleNoHeaders(a.title, TagLine(a));
    if OneLine(a.title) && OneLine(a.project) {
      TagOneLine(a);
      PreambleNoNewline(a.title, TagLine(a));
    }
  }

  lemma TagStart(a: Action)
    ensures |TagLine(a)| >= 2 && TagLine(a)[1] == 'p'
  {
    var rest := Slug(a.project) + " #" + Display(a.status) + (if a.priority then " #priority" else "");
    assert TagLine(a) == "#project #" + rest;
  }

  lemma DisplayOneLine(s: Status)
    ensures '\n' !in Display(s)
  {
  }

  lemma TagOneLine(a: Action)
    requires OneLine(a.project)
    ensures '\n' !in TagLine(a)
  {
    SlugShape(a.project);
    DisplayOneLine(a.status);
  }

  /** The blank, title, blank, tag, blank preamble opens no section when the tag line starts with `#p`. */
  lemma PreambleNoHeaders(title: string, tag: string)
    requires |tag| >= 2 && tag[1] != '#'
    ensures NoHeaders(["", "# " + title, "", tag, ""])
  {
    NotHeader("# " + title);
    NotHeader(tag);
  }

  lemma PreambleNoNewline(title: string, tag: string)
    requires '\n' !in title && '\n' !in tag
    ensures NoNewline(["", "# " + title, "", tag, ""])
  {
    assert '\n' !in "# " + title;
  }

  /** A frontmatter key: a non-empty word without whitespace or colons. */
  predicate Word(key: string) {
    |key| > 0 && ':' !in key && forall i :: 0 <= i < |key| ==> !IsWhitespace(key[i])
  }

  /** A `key: value` line defines `key` with the value trimmed. */
  lemma MetaEntryLine(line: string, key: string, x: string)
    requires Word(key) && line == key + ": " + x
    ensures MetaEntry(line) == Some((key, Trim(x)))
  {
    KeyLineTrim(key, x);
    SplitAtKey(key, TrimEnd(" " + x));
    TrimWord(key);
    TrimSpaced(x);
  }

  lemma {:induction false} KeyLineTrim(key: string, x: string)
    requires |key| > 0 && !IsWhitespace(key[0])
    ensures Trim(key + ": " + x) == key + ":" + TrimEnd(" " + x)
  {
    var p := key + ":";
    var y := " " + x;
    assert key + ": " + x == p + y;
    assert (p + y)[0] == key[0];
    assert TrimStart(p + y) == p + y;
    assert p[|p| - 1] == ':';
    TrimEndAfter(p, y);
  }

  lemma {:induction false} SplitAtKey(key: string, rest: string)
    requires ':' !in key
    ensures SplitOnce(key + ":" + rest, ':') == Some((key, rest))
  {
    var t := key + ":" + rest;
    assert t[|key|] == ':';
    var r := SplitOnce(t, ':');
    var r0, r1 := r.value.0, r.value.1;
    assert t == r0 + [':'] + r1;
    assert r0 == t[..|key|] == key;
    assert r1 == t[|key| + 1..] == rest;
  }

  lemma {:induction false} TrimWord(w: string)
    requires |w| > 0
    requires forall i :: 0 <= i < |w| ==> !IsWhitespace(w[i])
    ensures Trim(w) == w
  {
    assert TrimStart(w) == w;
    assert TrimEnd(w) == w;
  }

  lemma {:induction false} TrimSpaced(x: string)
    ensures Trim(TrimEnd(" " + x)) == Trim(x)
  {
    TrimAfterTrimEnd(" " + x);
    assert AllWhitespace(" ");
    TrimStartSkip(" ", x);
  }

  lemma IdEntry(x: string)
    ensures MetaEntry("id: " + x) == Some(("id", Trim(x)))
  {
    assert Word("id");
    assert "id: " + x == "id" + ": " + x;
    MetaEntryLine("id: " + x, "id", x);
  }

  lemma CreatedEntry(x: string)
    ensures MetaEntry("created_at: " + x) == Some(("created_at", Trim(x)))
  {
    assert Word("created_at");
    assert "created_at: " + x == "created_at" + ": " + x;
    MetaEntryLine("created_at: " + x, "created_at", x);
  }

  lemma UpdatedEntry(x: string)
    ensures MetaEntry("updated_at: " + x) == Some(("updated_at", Trim(x)))
  {
    assert Word("updated_at");
    assert "updated_at: " + x == "updated_at" + ": " + x;
    MetaEntryLine("updated_at: " + x, "updated_at", x);
  }

  /** The frontmatter defines exactly `id`, `created_at` and `updated_at`, each with its trimmed value. */
  lemma FrontMetadata(a: Action, env: Env)
    ensures MetaFold(map[], FrontLines(a, env))
         == map["id" := Trim(a.id),
                "created_at" := Trim(env.rfc3339(a.createdAt)),
                "updated_at" := Trim(env.rfc3339(a.updatedAt))]
  {
    var c, u := env.rfc3339(a.createdAt), env.rfc3339(a.updatedAt);
    assert FrontLines(a, env) == ["id: " + a.id, "created_at: " + c, "updated_at: " + u];
    FrontFold(a.id, c, u);
  }

  lemma FrontFold(id: string, c: string, u: string)
    ensures MetaFold(map[], ["id: " + id, "created_at: " + c, "updated_at: " + u])
         == map["id" := Trim(id), "created_at" := Trim(c), "updated_at" := Trim(u)]
  {
    IdEntry(id);
    CreatedEntry(c);
    UpdatedEntry(u);
    MetaFold3("id: " + id, "created_at: " + c, "updated_at: " + u);
  }

  lemma MetaFold3(l0: string, l1: string, l2: string)
    ensures MetaFold(map[], [l0, l1, l2]) == MetaInsert(MetaInsert(MetaInsert(map[], l0), l1), l2)
  {
    var m1 := MetaInsert(map[], l0);
    var m2 := MetaInsert(m1, l1);
    var m3 := MetaInsert(m2, l2);
    assert [l2][1..] == [];
    assert MetaFold(m2, [l2]) == MetaFold(m3, []);
    assert [l1, l2][1..] == [l2];
    assert MetaFold(m1, [l1, l2]) == MetaFold(m2, [l2]);
    assert [l0, l1, l2][1..] == [l1, l2];
    assert MetaFold(map[], [l0, l1, l2]) == MetaFold(m1, [l1, l2]);
  }

  lemma KeyLineNotFence(key: string, x: string)
    requires |key| > 0 && key[0] != '-' && !IsWhitespace(key[0])
    ensures !IsFence(key + ": " + x)
  {
    var l := key + ": " + x;
    assert l[0] == key[0];
    TrimKeepsHead(l);
    assert Trim(l)[0] != Fence[0];
  }

  lemma KeyLineOneLine(key: string, x: string)
    requires '\n' !in key && '\n' !in x
    ensures '\n' !in key + ": " + x
  {
    assert '\n' !in ": ";
  }

  lemma FrontNoFences(a: Action, env: Env)
    ensures NoFences(FrontLines(a, env))
  {
    var f := FrontLines(a, env);
    forall k | 0 <= k < |f| ensures !IsFence(f[k]) {
      if k == 0 {
        KeyLineNotFence("id", a.id);
      } else if k == 1 {
        KeyLineNotFence("created_at", env.rfc3339(a.createdAt));
      } else {
        KeyLineNotFence("updated_at", env.rfc3339(a.updatedAt));
      }
    }
  }

  lemma FrontOneLine(a: Action, env: Env)
    requires OneLine(a.id) && OneLine(env.rfc3339(a.createdAt)) && OneLine(env.rfc3339(a.updatedAt))
    ensures NoNewline(FrontLines(a, env))
  {
    var c, u := env.rfc3339(a.createdAt), env.rfc3339(a.updatedAt);
    assert FrontLines(a, env) == ["id: " + a.id, "created_at: " + c, "updated_at: " + u];
    KeyLineOneLine("id", a.id);
    KeyLineOneLine("created_at", c);
    KeyLineOneLine("updated_at", u);
  }

  lemma TrimmedEnds(w: string)
    requires |w| > 0 && !IsWhitespace(w[0]) && !IsWhitespace(w[|w| - 1])
    ensures Trim(w) == w
  {
    assert TrimStart(w) == w;
    assert TrimEnd(w) == w;
  }

  /** A name a header line gives back unchanged. */
  predicate PlainName(n: string) {
    '\n' !in n && Trim(n) == n
  }

  lemma PlainNameByEnds(n: string)
    requires |n| > 0 && !IsWhitespace(n[0]) && !IsWhitespace(n[|n| - 1]) && '\n' !in n
    ensures PlainName(n)
  {
    TrimmedEnds(n);
  }

  lemma SectionNameShape(i: nat)
    requires i < SectionCount
    ensures PlainName(SectionNames[i])
  {
    PlainNameByEnds(SectionNames[i]);
  }

  lemma WellFormedConcat(x: seq<Block>, y: seq<Block>)
    requires AllWellFormed(x) && AllWellFormed(y)
    ensures AllWellFormed(x + y)
  {
    forall k | 0 <= k < |x + y| ensures WellFormed((x + y)[k]) {
      if k >= |x| { assert (x + y)[k] == y[k - |x|]; }
    }
  }

  lemma OptionalBlockWellFormed(n: string, c: Option<string>)
    requires PlainName(n) && SectionOk(c)
    ensures AllWellFormed(OptionalBlock(n, c))
  {
    if c.Some? {
      ContentBlockWellFormed(n, c.value);
      assert OptionalBlock(n, c) == [ContentBlock(n, c.value)];
    }
  }

  lemma SectionBlockWellFormed(a: Action, i: nat)
    requires i < SectionCount && SectionsOk(a)
    ensures AllWellFormed(OptionalBlock(SectionNames[i], Section(a, i)))
  {
    SectionNameShape(i);
    SectionOkAt(a, i);
    OptionalBlockWellFormed(SectionNames[i], Section(a, i));
  }

  lemma {:induction false} SectionBlocksWellFormed(a: Action, i: nat)
    requires i <= SectionCount
    requires SectionsOk(a)
    ensures AllWellFormed(SectionBlocks(a, i))
    decreases SectionCount - i
  {
    if i < SectionCount {
      SectionBlocksWellFormed(a, i + 1);
      SectionBlocksStep(a, i);
    }
  }

  lemma SectionBlocksStep(a: Action, i: nat)
    requires i < SectionCount && SectionsOk(a)
    requires AllWellFormed(SectionBlocks(a, i + 1))
    ensures AllWellFormed(SectionBlocks(a, i))
  {
    var b := OptionalBlock(SectionNames[i], Section(a, i));
    var rest := SectionBlocks(a, i + 1);
    assert SectionBlocks(a, i) == b + rest;
    SectionBlockWellFormed(a, i);
    WellFormedConcat(b, rest);
  }

  /** Parsing the written text gives the frontmatter's three entries and one entry per present section. */
  lemma ParseMarkdown(a: Action, env: Env)
    requires Reloadable(a, env)
    ensures Parse(ToMarkdown(a, env)).value
         == Parser.Document(MetaFold(map[], FrontLines(a, env)), InsertAll(map[], SectionBlocks(a, 0)))
  {
    MarkdownLayout(a, env);
    FrontNoFences(a, env);
    FrontOneLine(a, env);
    PreambleShape(a);
    SectionBlocksWellFormed(a, 0);
    ParseFramedText(ToMarkdown(a, env), FrontLines(a, env), PreambleLines(a), SectionBlocks(a, 0));
  }

  /* ---------- which sections the parse yields ---------- */

  lemma {:induction false} NamesAppend(x: seq<Block>, y: seq<Block>)
    ensures Names(x + y) == Names(x) + Names(y)
    decreases |x|
  {
    if |x| == 0 {
      assert x + y == y;
    } else {
      assert (x + y)[1..] == x[1..] + y;
      NamesAppend(x[1..], y);
    }
  }

  /** Only the five known names label the written blocks. */
  lemma {:induction false} KnownNames(a: Action, i: nat)
    requires i <= SectionCount
    ensures forall n :: n in Names(SectionBlocks(a, i)) ==> n in SectionNames
    decreases SectionCount - i
  {
    if i < SectionCount {
      var b := OptionalBlock(SectionNames[i], Section(a, i));
      NamesAppend(b, SectionBlocks(a, i + 1));
      KnownNames(a, i + 1);
    }
  }

  /** The map built from the written blocks has no name outside the five known ones. */
  lemma BlockKeysKnown(a: Action)
    ensures forall n :: n in InsertAll(map[], SectionBlocks(a, 0)) ==> n in SectionNames
  {
    InsertAllKeys(map[], SectionBlocks(a, 0));
    KnownNames(a, 0);
  }

  /** The written text parses to a section map with no name outside the five known ones. */
  lemma ParsedKeysKnown(a: Action, env: Env)
    requires Reloadable(a, env)
    ensures forall n :: n in Parse(ToMarkdown(a, env)).value.sections ==> n in SectionNames
  {
    ParseMarkdown(a, env);
    BlockKeysKnown(a);
  }

  /** The blocks from the `i`-th section on carry none of the earlier section names. */
  lemma {:induction false} LaterNames(a: Action, i: nat, j: nat)
    requires j < i <= SectionCount
    ensures SectionNames[j] !in Names(SectionBlocks(a, i))
    decreases SectionCount - i
  {
    if i < SectionCount {
      var b := OptionalBlock(SectionNames[i], Section(a, i));
      NamesAppend(b, SectionBlocks(a, i + 1));
      LaterNames(a, i + 1, j);
      assert SectionNames[j] != SectionNames[i];
    }
  }

  /** What the stored map holds under the `j`-th name after inserting the blocks from the `i`-th on. */
  lemma {:induction false} InsertSections(m: map<string, string>, a: Action, i: nat, j: nat)
    requires i <= j < SectionCount
    ensures Get(InsertAll(m, SectionBlocks(a, i)), SectionNames[j]) == Stored(m, a, j)
    decreases SectionCount - i
  {
    var m' := InsertAll(m, OptionalBlock(SectionNames[i], Section(a, i)));
    InsertFirst(m, a, i);
    if j > i {
      InsertSections(m', a, i + 1, j);
      InsertOther(m, a, i, j);
    } else {
      InsertRest(m', a, i);
      InsertHere(m, a, i);
    }
  }

  /** The blocks after the `i`-th leave the `i`-th name's entry alone. */
  lemma InsertRest(m: map<string, string>, a: Action, i: nat)
    requires i < SectionCount
    ensures Get(InsertAll(m, SectionBlocks(a, i + 1)), SectionNames[i]) == Get(m, SectionNames[i])
  {
    LaterNames(a, i + 1, i);
    InsertAllOthers(m, SectionBlocks(a, i + 1), SectionNames[i]);
  }

  /** The value a present `j`-th section is stored with; the prior entry when it is absent. */
  function Stored(m: map<string, string>, a: Action, j: nat): Option<string>
    requires j < SectionCount
  {
    match Section(a, j)
    case Some(c) => Some(BlockValue(ContentBlock(SectionNames[j], c)))
    case None => Get(m, SectionNames[j])
  }

  lemma InsertFirst(m: map<string, string>, a: Action, i: nat)
    requires i < SectionCount
    ensures InsertAll(m, SectionBlocks(a, i))
         == InsertAll(InsertAll(m, OptionalBlock(SectionNames[i], Section(a, i))), SectionBlocks(a, i + 1))
  {
    var b := OptionalBlock(SectionNames[i], Section(a, i));
    assert SectionBlocks(a, i) == b + SectionBlocks(a, i + 1);
    InsertAllAppend(m, b, SectionBlocks(a, i + 1));
  }

  lemma InsertOther(m: map<string, string>, a: Action, i: nat, j: nat)
    requires i < j < SectionCount
    ensures Stored(InsertAll(m, OptionalBlock(SectionNames[i], Section(a, i))), a, j) == Stored(m, a, j)
  {
    var b := OptionalBlock(SectionNames[i], Section(a, i));
    assert SectionNames[j] != SectionNames[i];
    assert Names(b) <= {SectionNames[i]};
    InsertAllOthers(m, b, SectionNames[j]);
  }

  lemma InsertHere(m: map<string, string>, a: Action, i: nat)
    requires i < SectionCount
    ensures Get(InsertAll(m, OptionalBlock(SectionNames[i], Section(a, i))), SectionNames[i]) == Stored(m, a, i)
  {
    var b := OptionalBlock(SectionNames[i], Section(a, i));
    if Section(a, i).Some? {
      assert b[1..] == [];
      assert InsertAll(m, b) == InsertAll(m[SectionNames[i] := BlockValue(b[0])], []);
    }
  }

  /** The `j`-th present section is in the parsed map as written, and an absent one is missing. */
  lemma SectionReadBack(a: Action, env: Env, j: nat)
    requires j < SectionCount
    requires Reloadable(a, env)
    ensures Get(Parse(ToMarkdown(a, env)).value.sections, SectionNames[j]) == Section(a, j)
  {
    ParseMarkdown(a, env);
    SectionOkAt(a, j);
    BlockReadBack(a, j);
  }

  /** In the map built from the written blocks, the `j`-th present section is stored as written, an absent one not at all. */
  lemma BlockReadBack(a: Action, j: nat)
    requires j < SectionCount
    requires SectionOk(Section(a, j))
    ensures Get(InsertAll(map[], SectionBlocks(a, 0)), SectionNames[j]) == Section(a, j)
  {
    InsertSections(map[], a, 0, j);
    if Section(a, j).Some? {
      ContentBlockValue(SectionNames[j], Section(a, j).value);
    }
  }

  lemma FromParsedSection(doc: Document, path: Path, env: Env, j: nat)
    requires j < SectionCount
    ensures Section(FromParsed(doc, path, env), j) == Get(doc.sections, SectionNames[j])
  {
  }

  /* ---------- the round trip ---------- */

  /**
   * Writing an action and rebuilding it from the parsed text restores all
   * five content sections, whatever the file's path and the environment of
   * the reload.
   */
  lemma SectionRoundTrip(a: Action, env: Env, path: Path, env': Env)
    requires Reloadable(a, env)
    ensures var b := FromParsed(Parse(ToMarkdown(a, env)).value, path, env');
      forall j :: 0 <= j < SectionCount ==> Section(b, j) == Section(a, j)
  {
    var doc := Parse(ToMarkdown(a, env)).value;
    ParseMarkdown(a, env);
    forall j | 0 <= j < SectionCount
      ensures Section(FromParsed(doc, path, env'), j) == Section(a, j)
    {
      SectionOkAt(a, j);
      BlockReadBack(a, j);
      FromParsedSection(doc, path, env', j);
    }
  }

  /** The metadata parsed from a written action: the id and the two timestamps as rendered, trimmed. */
  lemma WrittenMetadata(a: Action, env: Env)
    requires FrontOk(a, env)
    ensures Parse(ToMarkdown(a, env)).value.metadata == FrontMap(a, env)
  {
    var front := FrontLines(a, env);
    MarkdownFront(a, env);
    FrontNoFences(a, env);
    FrontOneLine(a, env);
    FrontOnlyMetadata(front, Unlines(PreambleLines(a) + BlocksLines(SectionBlocks(a, 0))));
    FrontMetadata(a, env);
  }

  /** The writer's text is its frontmatter block followed by everything else. */
  lemma MarkdownFront(a: Action, env: Env)
    ensures ToMarkdown(a, env)
         == Unlines([Fence] + FrontLines(a, env) + [Fence]) + Unlines(PreambleLines(a) + BlocksLines(SectionBlocks(a, 0)))
  {
    var head, tail := [Fence] + FrontLines(a, env) + [Fence], PreambleLines(a) + BlocksLines(SectionBlocks(a, 0));
    MarkdownLayout(a, env);
    assert FramedLines(FrontLines(a, env), PreambleLines(a), SectionBlocks(a, 0)) == head + tail;
    UnlinesAppend(head, tail);
  }

  function FrontMap(a: Action, env: Env): map<string, string> {
    map["id" := Trim(a.id),
        "created_at" := Trim(env.rfc3339(a.createdAt)),
        "updated_at" := Trim(env.rfc3339(a.updatedAt))]
  }

  /**
   * The frontmatter holds only id and timestamps, so a reload always yields
   * status Discovery and no priority, whatever the action had.
   */
  lemma ReloadForgetsStatus(a: Action, env: Env, path: Path, env': Env)
    requires FrontOk(a, env)
    ensures Parse(ToMarkdown(a, env)).value.metadata.Keys == {"id", "created_at", "updated_at"}
    ensures var b := FromParsed(Parse(ToMarkdown(a, env)).value, path, env');
      b.status == Discovery && !b.priority
  {
    var doc := Parse(ToMarkdown(a, env)).value;
    WrittenMetadata(a, env);
    FrontMapKeys(a, env);
    assert StatusOf(doc.metadata) == Discovery;
    assert !PriorityOf(doc.metadata);
  }

  lemma FrontMapKeys(a: Action, env: Env)
    ensures FrontMap(a, env).Keys == {"id", "created_at", "updated_at"}
    ensures Get(FrontMap(a, env), "status").None? && Get(FrontMap(a, env), "priority").None?
  {
    FrontKeys(Trim(a.id), Trim(env.rfc3339(a.createdAt)), Trim(env.rfc3339(a.updatedAt)));
  }

  lemma FrontKeys(x: string, y: string, z: string)
    ensures var m := map["id" := x, "created_at" := y, "updated_at" := z];
      && m.Keys == {"id", "created_at", "updated_at"}
      && "status" !in m && "priority" !in m
  {
    assert "status" != "id" && "status" != "created_at" by { assert "status"[0] != "id"[0] && "status"[0] != "created_at"[0]; }
    assert "status" != "updated_at" by { assert "status"[0] != "updated_at"[0]; }
    assert "priority" != "id" && "priority" != "created_at" by { assert "priority"[0] != "id"[0] && "priority"[0] != "created_at"[0]; }
    assert "priority" != "updated_at" by { assert "priority"[0] != "updated_at"[0]; }
  }

  /**
   * The id and the timestamps come back when the codecs invert the writer's
   * rendering of them.
   */
  lemma ReloadKeepsIdAndTimes(a: Action, env: Env, path: Path, env': Env)
    requires FrontOk(a, env)
    ensures var b := FromParsed(Parse(ToMarkdown(a, env)).value, path, env');
      && (env'.parseUuid(Trim(a.id)) == Some(a.id) ==> b.id == a.id)
      && (env'.parseRfc3339(Trim(env.rfc3339(a.createdAt))) == Some(a.createdAt) ==> b.createdAt == a.createdAt)
      && (env'.parseRfc3339(Trim(env.rfc3339(a.updatedAt))) == Some(a.updatedAt) ==> b.updatedAt == a.updatedAt)
  {
    var doc := Parse(ToMarkdown(a, env)).value;
    WrittenMetadata(a, env);
    FieldsFromFront(doc, path, env', a, env);
  }

  lemma FieldsFromFront(doc: Document, path: Path, env': Env, a: Action, env: Env)
    requires doc.metadata == FrontMap(a, env)
    ensures var b := FromParsed(doc, path, env');
      && (env'.parseUuid(Trim(a.id)) == Some(a.id) ==> b.id == a.id)
      && (env'.parseRfc3339(Trim(env.rfc3339(a.createdAt))) == Some(a.createdAt) ==> b.createdAt == a.createdAt)
      && (env'.parseRfc3339(Trim(env.rfc3339(a.updatedAt))) == Some(a.updatedAt) ==> b.updatedAt == a.updatedAt)
  {
    FrontMapValues(a, env);
  }

  lemma FrontMapValues(a: Action, env: Env)
    ensures Get(FrontMap(a, env), "id") == Some(Trim(a.id))
    ensures Get(FrontMap(a, env), "created_at") == Some(Trim(env.rfc3339(a.createdAt)))
    ensures Get(FrontMap(a, env), "updated_at") == Some(Trim(env.rfc3339(a.updatedAt)))
  {
  }

  /** Title and project come from the path alone: the parsed maps never decide them. */
  lemma NameFromPathOnly(d1: Document, d2: Document, path: Path, e1: Env, e2: Env)
    ensures FromParsed(d1, path, e1).title == FromParsed(d2, path, e2).title
    ensures FromParsed(d1, path, e1).project == FromParsed(d2, path, e2).project
    ensures FromParsed(d1, path, e1).filePath == path
  {
  }

  /** A file `<..>/<project>/<title>.md` loads with that title and project. */
  lemma NameFromMarkdownPath(doc: Document, dir: Path, project: string, title: string, env: Env)
    requires |title| > 0
    ensures var b := FromParsed(doc, dir + [project, title + ".md"], env);
      b.title == title && b.project == project
  {
    var path := dir + [project, title + ".md"];
    MarkdownName(title);
    assert path[..|path| - 1] == dir + [project];
  }

  /** Saving and loading the same file: the sections survive, status and priority do not. */
  lemma SaveThenLoad(a: Action, fs: Fs, env: Env, env': Env)
    requires Save(a, fs, env).2.Pass?
    requires Reloadable(a.(updatedAt := env.now), env)
    ensures var loaded := FromFile(Save(a, fs, env).1, a.filePath, env');
      && loaded.Ok?
      && (forall j :: 0 <= j < SectionCount ==> Section(loaded.value, j) == Section(a, j))
      && loaded.value.status == Discovery && !loaded.value.priority
  {
    var saved := a.(updatedAt := env.now);
    SavedFile(a, fs, env, env');
    ReloadFacts(saved, env, a.filePath, env');
    SameSections(a, saved);
  }

  lemma SameSections(a: Action, b: Action)
    requires b == a.(updatedAt := b.updatedAt)
    ensures forall j :: 0 <= j < SectionCount ==> Section(b, j) == Section(a, j)
  {
  }

  /** The action read back from the markdown written for `a`. */
  function Reload(a: Action, env: Env, path: Path, env': Env): Action {
    FromParsed(Parse(ToMarkdown(a, env)).value, path, env')
  }

  lemma ReloadFacts(a: Action, env: Env, path: Path, env': Env)
    requires Reloadable(a, env)
    ensures forall j :: 0 <= j < SectionCount ==> Section(Reload(a, env, path, env'), j) == Section(a, j)
    ensures Reload(a, env, path, env').status == Discovery && !Reload(a, env, path, env').priority
  {
    SectionRoundTrip(a, env, path, env');
    ReloadForgetsStatus(a, env, path, env');
  }

  /** After a successful save the file holds the stamped action's markdown. */
  lemma SavedFile(a: Action, fs: Fs, env: Env, env': Env)
    requires Save(a, fs, env).2.Pass?
    ensures FromFile(Save(a, fs, env).1, a.filePath, env') == Ok(Reload(a.(updatedAt := env.now), env, a.filePath, env'))
  {
    var saved := a.(updatedAt := env.now);
    var fs' := Save(a, fs, env).1;
    assert fs'.files == fs.files[a.filePath := ToMarkdown(saved, env)];
    assert fs'.files[a.filePath] == ToMarkdown(saved, env);
  }
}

=== FILE: host.dfy ===
/**
 * The capabilities the core consumes from its host, made explicit: paths
 * with Rust's file-name rules, a filesystem as a set of directories and a
 * map from file path to content, and an environment supplying the clock,
 * fresh ids and the RFC 3339 / UUID codecs. Also the error kinds.
 */
module Host {
  import opened Outcomes
  import opened Strings

  /** A path as its sequence of component names. */
  type Path = seq<string>

  /** `Path::file_name`: the last component, if there is one. */
  function FileName(p: Path): Option<string> {
    if |p| == 0 then None else Some(p[|p| - 1])
  }

  /** `Path::parent`: everything but the last component. */
  function Parent(p: Path): Option<Path> {
    if |p| == 0 then None else Some(p[..|p| - 1])
  }

  /** The index of the last `.` of a name. */
  function LastDot(name: string): (r: Option<nat>)
    ensures r.None? <==> '.' !in name
    ensures r.Some? ==> r.value < |name| && name[r.value] == '.' && '.' !in name[r.value + 1..]
  {
    if |name| == 0 then None
    else if name[|name| - 1] == '.' then Some(|name| - 1)
    else
      var r := LastDot(name[..|name| - 1]);
      assert name[..|name| - 1] + [name[|name| - 1]] == name;
      r
  }

  /**
   * Rust's split of a file name into stem and extension: at the last dot,
   * unless that dot is the first character or the name is `..`.
   */
  function SplitExtension(name: string): (string, Option<string>) {
    match LastDot(name)
    case None => (name, None)
    case Some(k) => if k == 0 || name == ".." then (name, None) else (name[..k], Some(name[k + 1..]))
  }

  function FileStem(p: Path): Option<string> {
    match FileName(p)
    case None => None
    case Some(n) => Some(SplitExtension(n).0)
  }

  function Extension(p: Path): Option<string> {
    match FileName(p)
    case None => None
    case Some(n) => SplitExtension(n).1
  }

  /** `PathBuf::with_extension("")`: the last component loses its extension. */
  function WithoutExtension(p: Path): (r: Path)
    ensures |r| == |p| && Parent(r) == Parent(p)
    ensures FileName(r) == FileStem(p)
  {
    if |p| == 0 then p else p[..|p| - 1] + [SplitExtension(p[|p| - 1]).0]
  }

  /** A name followed by `.md` has that name as stem and `md` as extension. */
  lemma MarkdownName(name: string)
    requires |name| > 0
    ensures SplitExtension(name + ".md") == (name, Some("md"))
  {
    var n := name + ".md";
    var n1 := name + ".m";
    var n2 := name + ".";
    assert n[..|n| - 1] == n1 && n[|n| - 1] == 'd';
    assert n1[..|n1| - 1] == n2 && n1[|n1| - 1] == 'm';
    assert n2[|n2| - 1] == '.';
    assert LastDot(n2) == Some(|name|);
    assert LastDot(n1) == LastDot(n2);
    assert LastDot(n) == LastDot(n1);
    assert n[..|name|] == name;
    assert n[|name| + 1..] == "md";
  }

  /** The filesystem: directories, and files with their text. */
  datatype Fs = Fs(files: map<Path, string>, dirs: set<Path>)

  /** `Path::exists`: a file or a directory is there. */
  predicate Exists(fs: Fs, p: Path) {
    p in fs.files || p in fs.dirs
  }

  /** `fs::write`: fails unless the parent is a directory and the target is not one. */
  function WriteFile(fs: Fs, p: Path, content: string): (r: Result<Fs, Error>)
    ensures r.Ok? <==> |p| > 0 && p[..|p| - 1] in fs.dirs && p !in fs.dirs
    ensures r.Ok? ==> r.value.files == fs.files[p := content] && r.value.dirs == fs.dirs
  {
    if |p| > 0 && p[..|p| - 1] in fs.dirs && p !in fs.dirs then
      Ok(Fs(fs.files[p := content], fs.dirs))
    else
      Err(IoFailure(p))
  }

  /** The non-empty prefixes of a path: the directories `create_dir_all` makes. */
  function Ancestors(p: Path): set<Path> {
    set k | 1 <= k <= |p| :: p[..k]
  }

  /** `fs::create_dir_all`: fails when some prefix is a file; otherwise every prefix becomes a directory. */
  function CreateDirAll(fs: Fs, p: Path): (r: Result<Fs, Error>)
    ensures r.Ok? <==> forall k :: 1 <= k <= |p| ==> p[..k] !in fs.files
    ensures r.Ok? ==> r.value.files == fs.files && r.value.dirs == fs.dirs + Ancestors(p)
  {
    if forall k :: 1 <= k <= |p| ==> p[..k] !in fs.files then
      Ok(Fs(fs.files, fs.dirs + Ancestors(p)))
    else
      Err(IoFailure(p))
  }

  /** The names of the entries of directory `dir` that are directories. */
  function ChildDirNames(fs: Fs, dir: Path): set<string> {
    set d | d in fs.dirs && |d| == |dir| + 1 && d[..|dir|] == dir :: d[|dir|]
  }

  /** The names of the entries of directory `dir` that are files. */
  function ChildFileNames(fs: Fs, dir: Path): set<string> {
    set f | f in fs.files && |f| == |dir| + 1 && f[..|dir|] == dir :: f[|dir|]
  }

  /**
   * Clock, id generator and the two text codecs. `now` is the first clock
   * reading an operation makes and `later` the second; no operation here
   * reads the clock more than twice, and nothing orders the two readings.
   * `rfc3339` renders a timestamp, `parseRfc3339` reads one back,
   * `parseUuid` accepts an id and gives its canonical text.
   */
  datatype Env = Env(
    now: nat,
    later: nat,
    freshId: string,
    rfc3339: nat -> string,
    parseRfc3339: string -> Option<nat>,
    parseUuid: string -> Option<string>)

  /** The environment as seen by the second clock reading of an operation. */
  function Reread(env: Env): Env {
    env.(now := env.later)
  }

  /** What a workspace check found wrong. */
  datatype Violation =
    | MissingMarker
    | MissingProjectDir(dir: Path)
    | MissingActionFile(file: Path)
    | MissingSection(project: string, title: string, section: string)

  datatype Error =
    | ProjectNotFound(project: string)
    | ActionNotFound(title: string, inProject: string)
    | AlreadyExists(existing: string, owner: string)
    | BadStatus(input: string)
    | NotAWorkspace(root: Path)
    | ValidationFailure(violation: Violation)
    | IoFailure(path: Path)
}

=== FILE: layout.dfy ===
/**
 * The document layout both serialisers write (src/action.rs `to_markdown`,
 * src/template.rs `to_markdown`): a `---` fenced frontmatter, a preamble of
 * title and tag lines, then `## ` blocks. The central fact here is that
 * `parse` reads such a layout back block by block.
 */
module Layout {
  import opened Outcomes
  import opened Strings
  import opened Parser
  import opened ParserLaws

  /** A section as written: its header name and the lines of its body. */
  datatype Block = Block(name: string, body: seq<string>)

  function BlockLines(b: Block): seq<string> {
    [HeaderMark + b.name] + b.body
  }

  function BlocksLines(bs: seq<Block>): seq<string>
    decreases |bs|
  {
    if |bs| == 0 then [] else BlockLines(bs[0]) + BlocksLines(bs[1..])
  }

  /** The value `parse` stores for a block: its body lines joined, each followed by a newline, trimmed. */
  function BlockValue(b: Block): string {
    Trim(Unlines(b.body))
  }

  /** The section map the blocks `bs` produce on top of `m`, one insertion per block, in order. */
  function InsertAll(m: map<string, string>, bs: seq<Block>): map<string, string>
    decreases |bs|
  {
    if |bs| == 0 then m else InsertAll(m[bs[0].name := BlockValue(bs[0])], bs[1..])
  }

  function Names(bs: seq<Block>): set<string>
    decreases |bs|
  {
    if |bs| == 0 then {} else {bs[0].name} + Names(bs[1..])
  }

  /**
   * A block `parse` reads back as written: a trimmed one-line name, a body
   * without header lines and without a line ending in a carriage return.
   */
  predicate WellFormed(b: Block) {
    && '\n' !in b.name
    && Trim(b.name) == b.name
    && NoNewline(b.body)
    && NoHeaders(b.body)
    && NoCrEnds(b.body)
  }

  predicate AllWellFormed(bs: seq<Block>) {
    forall i :: 0 <= i < |bs| ==> WellFormed(bs[i])
  }

  /** A section holding `content`: a blank line, the content's lines, a blank line. */
  function ContentBlock(name: string, content: string): Block {
    Block(name, [""] + Split(content) + [""])
  }

  /** The block for an optional section: none when the section is absent. */
  function OptionalBlock(name: string, content: Option<string>): seq<Block> {
    match content
    case None => []
    case Some(c) => [ContentBlock(name, c)]
  }

  /** No line of `content` starts with `## `, so none of them is read as a header. */
  predicate HeaderFree(content: string) {
    NoHeaders(Split(content))
  }

  /** No line of `content` ends in a carriage return: no `\r\n` inside, no `\r` at the end. */
  predicate CrlfFree(content: string) {
    NoCrEnds(Split(content))
  }

  /** A first line without a final carriage return, a blank line, then `\r\n`-free text: still `\r\n`-free. */
  lemma CrlfFreePara(x: string, y: string)
    requires '\n' !in x && !EndsInCr(x) && CrlfFree(y)
    ensures CrlfFree(x + "\n\n" + y) && CrlfFree(x)
  {
    CrlfFreeLine(x);
    CrlfFreeCons("", y);
    CrlfFreeCons(x, "" + "\n" + y);
    assert x + "\n\n" + y == x + "\n" + ("" + "\n" + y);
  }

  lemma CrlfFreeLine(x: string)
    requires '\n' !in x && !EndsInCr(x)
    ensures CrlfFree(x)
  {
    assert Split(x) == [x];
  }

  lemma CrlfFreeCons(x: string, y: string)
    requires '\n' !in x && !EndsInCr(x) && CrlfFree(y)
    ensures CrlfFree(x + "\n" + y)
  {
    SplitCons(x, y);
    assert NoCrEnds([x]);
    NoCrEndsConcat([x], Split(y));
  }

  /** The text of a content block is `## <name>`, a blank line, the content and a blank line. */
  lemma ContentBlockText(name: string, content: string)
    ensures Unlines(BlockLines(ContentBlock(name, content)))
         == HeaderMark + name + "\n\n" + content + "\n\n"
  {
    var b := ContentBlock(name, content);
    var h := HeaderMark + name;
    assert BlockLines(b) == [h] + b.body;
    UnlinesCons(h, b.body);
    ContentBody(content);
    HeadedText(h, content);
  }

  lemma UnlinesCons(h: string, rest: seq<string>)
    ensures Unlines([h] + rest) == h + "\n" + Unlines(rest)
  {
    assert ([h] + rest)[1..] == rest;
  }

  lemma HeadedText(h: string, content: string)
    ensures h + "\n" + ("\n" + content + "\n\n") == h + "\n\n" + content + "\n\n"
  {
  }

  /** A trimmed, header-free content is what `parse` stores for its block. */
  lemma ContentBlockValue(name: string, content: string)
    requires Trim(content) == content
    ensures BlockValue(ContentBlock(name, content)) == content
  {
    var body := ContentBlock(name, content).body;
    ContentBody(content);
    TrimBlockText(Unlines(body), content);
  }

  lemma TrimBlockText(t: string, content: string)
    requires t == "\n" + content + "\n\n" && Trim(content) == content
    ensures Trim(t) == content
  {
    assert AllWhitespace("\n") && AllWhitespace("\n\n");
    TrimPadded("\n", content, "\n\n");
  }

  lemma ContentBody(content: string)
    ensures Unlines([""] + Split(content) + [""]) == "\n" + content + "\n\n"
  {
    var lines := Split(content);
    assert [""] + lines + [""] == [""] + (lines + [""]);
    UnlinesCons("", lines + [""]);
    UnlinesAppend(lines, [""]);
    UnlinesCons("", []);
    UnlinesSplit(content);
    PaddedText(content);
  }

  lemma PaddedText(content: string)
    ensures "" + "\n" + (content + "\n" + ("" + "\n" + "")) == "\n" + content + "\n\n"
  {
  }

  lemma ContentBlockWellFormed(name: string, content: string)
    requires '\n' !in name && Trim(name) == name
    requires HeaderFree(content) && CrlfFree(content)
    ensures WellFormed(ContentBlock(name, content))
  {
    var lines := Split(content);
    assert NoNewline(lines);
    PaddedBody(lines);
    assert ContentBlock(name, content).body == [""] + lines + [""];
  }

  /** Blank lines around header-free, newline-free lines keep them so. */
  lemma PaddedBody(lines: seq<string>)
    requires NoHeaders(lines) && NoNewline(lines) && NoCrEnds(lines)
    ensures NoHeaders([""] + lines + [""]) && NoNewline([""] + lines + [""]) && NoCrEnds([""] + lines + [""])
  {
    assert NoHeaders([""]) && NoNewline([""]);
    NoHeadersConcat([""], lines);
    NoHeadersConcat([""] + lines, [""]);
    NoNewlineConcat([""], lines);
    NoNewlineConcat([""] + lines, [""]);
    PaddedNoCr(lines);
  }

  lemma PaddedNoCr(lines: seq<string>)
    requires NoCrEnds(lines)
    ensures NoCrEnds([""] + lines + [""])
  {
    var p := [""] + lines + [""];
    forall i | 0 <= i < |p| ensures !EndsInCr(p[i]) {
      if 0 < i <= |lines| { assert p[i] == lines[i - 1]; }
    }
  }

  lemma HeaderLineName(name: string)
    requires Trim(name) == name
    ensures IsHeader(HeaderMark + name) && HeaderName(HeaderMark + name) == name
  {
    assert (HeaderMark + name)[..3] == HeaderMark;
    assert (HeaderMark + name)[3..] == name;
  }

  /** Each well-formed block becomes one entry of the section map, later blocks overwriting earlier ones. */
  lemma {:induction false} ScanBlocks(st: Scan, bs: seq<Block>)
    requires st.current.None? ==> st.body == ""
    requires AllWellFormed(bs)
    ensures Flush(ScanFrom(st, BlocksLines(bs))) == InsertAll(Flush(st), bs)
    decreases |bs|
  {
    if |bs| > 0 {
      var b := bs[0];
      ScanFromAppend(st, BlockLines(b), BlocksLines(bs[1..]));
      ScanOneBlock(st, b);
      var st2 := Scan(Flush(st), Some(b.name), Unlines(b.body));
      assert AllWellFormed(bs[1..]) by {
        forall i | 0 <= i < |bs[1..]| ensures WellFormed(bs[1..][i]) { assert bs[1..][i] == bs[i + 1]; }
      }
      ScanBlocks(st2, bs[1..]);
    }
  }

  /** One well-formed block opens its section and collects its body. */
  lemma ScanOneBlock(st: Scan, b: Block)
    requires st.current.None? ==> st.body == ""
    requires WellFormed(b)
    ensures ScanFrom(st, BlockLines(b)) == Scan(Flush(st), Some(b.name), Unlines(b.body))
  {
    var lines := BlockLines(b);
    assert lines[0] == HeaderMark + b.name && lines[1..] == b.body;
    HeaderStep(st, b.name);
    BodyAccumulates(Flush(st), b.name, "", b.body);
    assert "" + Unlines(b.body) == Unlines(b.body);
  }

  /** A header line closes the open section, if any, and opens its own with an empty body. */
  lemma HeaderStep(st: Scan, name: string)
    requires st.current.None? ==> st.body == ""
    requires Trim(name) == name
    ensures Step(st, HeaderMark + name) == Scan(Flush(st), Some(name), "")
  {
    HeaderLineName(name);
  }

  lemma {:induction false} CloseIndexAt(lines: seq<string>, i: nat, j: nat)
    requires i <= j < |lines|
    requires forall k :: i <= k < j ==> !IsFence(lines[k])
    requires IsFence(lines[j])
    ensures CloseIndex(lines, i) == j
    decreases j - i
  {
    if i < j {
      CloseIndexAt(lines, i + 1, j);
    }
  }

  predicate NoFences(lines: seq<string>) {
    forall i :: 0 <= i < |lines| ==> !IsFence(lines[i])
  }

  /** A full document: fence, frontmatter lines, fence, preamble, blocks. */
  function FramedLines(front: seq<string>, pre: seq<string>, bs: seq<Block>): seq<string> {
    [Fence] + front + [Fence] + pre + BlocksLines(bs)
  }

  /**
   * `parse` reads a framed document back: the metadata is that of the
   * frontmatter lines, the preamble is discarded, and each block becomes an
   * entry of the section map.
   */
  lemma ParseFramed(front: seq<string>, pre: seq<string>, bs: seq<Block>)
    requires NoFences(front)
    requires NoHeaders(pre)
    requires AllWellFormed(bs)
    ensures ParseLines(FramedLines(front, pre, bs))
         == Document(MetaFold(map[], front), InsertAll(map[], bs))
  {
    var rest := pre + BlocksLines(bs);
    var lines := [Fence] + front + [Fence] + rest;
    assert FramedLines(front, pre, bs) == lines;
    FramedShape(front, rest);
    assert ParseLines(lines).metadata == MetaFold(map[], front);
    assert ParseLines(lines).sections == SectionsOf(rest);
    PreambleDiscarded(pre, BlocksLines(bs));
    ScanBlocks(Start, bs);
    assert Flush(Start) == map[];
  }

  /** Where the frontmatter of a framed document ends and its body begins. */
  lemma FramedShape(front: seq<string>, rest: seq<string>)
    requires NoFences(front)
    ensures var lines := [Fence] + front + [Fence] + rest;
      && MetadataOf(lines) == MetaFold(map[], front)
      && lines[BodyStart(lines)..] == rest
  {
    var lines := [Fence] + front + [Fence] + rest;
    FenceIsFence();
    FramedClose(front, rest);
    assert lines[0] == Fence;
    assert IsFence(lines[0]);
    assert lines[1..CloseIndex(lines, 1)] == front;
    assert lines[2 + |front|..] == rest;
  }

  lemma FenceIsFence()
    ensures IsFence(Fence)
  {
    assert TrimStart(Fence) == Fence;
    assert TrimEnd(Fence) == Fence;
  }

  lemma FramedClose(front: seq<string>, rest: seq<string>)
    requires NoFences(front)
    ensures CloseIndex([Fence] + front + [Fence] + rest, 1) == 1 + |front|
  {
    var lines := [Fence] + front + [Fence] + rest;
    FenceIsFence();
    assert lines[1 + |front|] == Fence;
    forall k | 1 <= k < 1 + |front| ensures !IsFence(lines[k]) {
      assert lines[k] == front[k - 1];
    }
    CloseIndexAt(lines, 1, 1 + |front|);
  }

  /** The same without frontmatter: a first line that is not a fence gives empty metadata. */
  lemma ParseUnframed(pre: seq<string>, bs: seq<Block>)
    requires |pre| > 0 && !IsFence(pre[0])
    requires NoHeaders(pre)
    requires AllWellFormed(bs)
    ensures ParseLines(pre + BlocksLines(bs)) == Document(map[], InsertAll(map[], bs))
  {
    PreambleDiscarded(pre, BlocksLines(bs));
    ScanBlocks(Start, bs);
  }

  /** Text written as a preamble and blocks, without frontmatter, parses back to its blocks. */
  lemma ParseUnframedText(text: string, pre: seq<string>, bs: seq<Block>)
    requires text == Unlines(pre + BlocksLines(bs))
    requires |pre| > 0 && !IsFence(pre[0])
    requires NoHeaders(pre) && NoNewline(pre)
    requires AllWellFormed(bs)
    ensures Parse(text).value == Document(map[], InsertAll(map[], bs))
  {
    BlocksNoNewline(bs);
    NoNewlineConcat(pre, BlocksLines(bs));
    LinesUnlines(pre + BlocksLines(bs));
    BlocksNoCrEnds(bs);
    StripCrsAppend(pre, BlocksLines(bs));
    assert StripCrs(BlocksLines(bs)) == BlocksLines(bs);
    StrippedPreamble(pre);
    TrimStripCr(pre[0]);
    ParseUnframed(StripCrs(pre), bs);
  }

  /**
   * Why the round trip excludes `\r\n` inside a section: `lines` drops the
   * carriage return, so a section written as the two lines `x\r` and `y` is
   * read back as `x`, a newline and `y`.
   */
  lemma CrlfInSectionLost(name: string, x: string, y: string)
    requires '\n' !in name && Trim(name) == name
    requires |x| > 0 && '\n' !in x && !IsHeader(x) && !IsWhitespace(x[0]) && !EndsInCr(x)
    requires |y| > 0 && '\n' !in y && !IsHeader(y) && !IsWhitespace(y[|y| - 1])
    ensures Parse(HeaderMark + name + "\n\n" + x + "\r\n" + y + "\n").value
         == Document(map[], map[name := x + "\n" + y])
  {
    var b := Block(name, ["", x, y]);
    CrlfLines(name, x, y);
    TwoLineBlock(name, x, y);
    ParseBlocksOnly([b]);
    InsertOne(b);
    TwoLineValue(name, x, y);
  }

  /** Lines that are blocks only, the first one a header, parse to the blocks. */
  lemma ParseBlocksOnly(bs: seq<Block>)
    requires |bs| > 0 && AllWellFormed(bs)
    ensures ParseLines(BlocksLines(bs)) == Document(map[], InsertAll(map[], bs))
  {
    var lines := BlocksLines(bs);
    FirstNotFence(bs);
    ScanBlocks(Start, bs);
  }

  lemma FirstNotFence(bs: seq<Block>)
    requires |bs| > 0
    ensures |BlocksLines(bs)| > 0 && !IsFence(BlocksLines(bs)[0])
  {
    var lines := BlocksLines(bs);
    assert lines[0] == HeaderMark + bs[0].name;
    TrimKeepsHead(lines[0]);
    assert Fence[0] != '#';
  }

  lemma InsertOne(b: Block)
    ensures InsertAll(map[], [b]) == map[b.name := BlockValue(b)]
  {
    assert [b][1..] == [];
  }

  /** The text is four lines; `lines` gives them back without the carriage return. */
  lemma CrlfLines(name: string, x: string, y: string)
    requires '\n' !in name && Trim(name) == name
    requires '\n' !in x && '\n' !in y && !EndsInCr(y)
    ensures Lines(HeaderMark + name + "\n\n" + x + "\r\n" + y + "\n") == BlocksLines([Block(name, ["", x, y])])
  {
    CrlfWritten(name, x, y);
    CrlfRead(HeaderMark + name, x, y);
    CrlfBlock(name, x, y);
  }

  lemma CrlfBlock(name: string, x: string, y: string)
    ensures BlocksLines([Block(name, ["", x, y])]) == [HeaderMark + name, "", x, y]
  {
    OneBlockLines(Block(name, ["", x, y]));
    assert [HeaderMark + name] + ["", x, y] == [HeaderMark + name, "", x, y];
  }

  lemma CrlfRead(h: string, x: string, y: string)
    requires NoNewline([h, "", x + "\r", y]) && StripCrs([h, "", x + "\r", y]) == [h, "", x, y]
    ensures Lines(h + "\n\n" + x + "\r\n" + y + "\n") == [h, "", x, y]
  {
    CrlfText(h, x, y);
    LinesOf(h + "\n\n" + x + "\r\n" + y + "\n", [h, "", x + "\r", y], [h, "", x, y]);
  }

  lemma LinesOf(text: string, written: seq<string>, read: seq<string>)
    requires NoNewline(written) && Unlines(written) == text && StripCrs(written) == read
    ensures Lines(text) == read
  {
    LinesUnlines(written);
  }

  lemma CrlfWritten(name: string, x: string, y: string)
    requires '\n' !in name && Trim(name) == name
    requires '\n' !in x && '\n' !in y && !EndsInCr(y)
    ensures NoNewline([HeaderMark + name, "", x + "\r", y])
    ensures StripCrs([HeaderMark + name, "", x + "\r", y]) == [HeaderMark + name, "", x, y]
  {
    HeaderLineClean(name);
    CharNotInConcat('\n', x, "\r");
    FourLines(HeaderMark + name, "", x + "\r", y);
    FourStripped(HeaderMark + name, x, y);
  }

  /** The header line of a trimmed one-line name is one line and does not end in a carriage return. */
  lemma HeaderLineClean(name: string)
    requires '\n' !in name && Trim(name) == name
    ensures '\n' !in HeaderMark + name && !EndsInCr(HeaderMark + name)
  {
    CharNotInConcat('\n', HeaderMark, name);
    TrimmedNotCr(name);
    AppendNotCr(HeaderMark, name);
  }

  lemma FourLines(a: string, b: string, c: string, d: string)
    requires '\n' !in a && '\n' !in b && '\n' !in c && '\n' !in d
    ensures NoNewline([a, b, c, d])
  {
  }

  lemma FourStripped(h: string, x: string, y: string)
    requires !EndsInCr(h) && !EndsInCr(y)
    ensures StripCrs([h, "", x + "\r", y]) == [h, "", x, y]
  {
    assert StripCr(x + "\r") == x;
  }

  lemma OneBlockLines(b: Block)
    ensures BlocksLines([b]) == [HeaderMark + b.name] + b.body
  {
    assert [b][1..] == [];
  }

  lemma CrlfText(h: string, x: string, y: string)
    ensures Unlines([h, "", x + "\r", y]) == h + "\n\n" + x + "\r\n" + y + "\n"
  {
    UnlinesCons(h, ["", x + "\r", y]);
    UnlinesCons("", [x + "\r", y]);
    UnlinesCons(x + "\r", [y]);
    UnlinesCons(y, []);
  }

  lemma TwoLineBlock(name: string, x: string, y: string)
    requires '\n' !in name && Trim(name) == name
    requires '\n' !in x && !IsHeader(x) && !EndsInCr(x)
    requires '\n' !in y && !IsHeader(y) && !EndsInCr(y)
    ensures AllWellFormed([Block(name, ["", x, y])])
  {
    assert !IsHeader("") && !EndsInCr("");
    BodyThree("", x, y);
    assert WellFormed(Block(name, ["", x, y]));
  }

  /** Three body lines, none a header, none holding a newline or ending in a carriage return. */
  lemma BodyThree(a: string, b: string, c: string)
    requires '\n' !in a && !IsHeader(a) && !EndsInCr(a)
    requires '\n' !in b && !IsHeader(b) && !EndsInCr(b)
    requires '\n' !in c && !IsHeader(c) && !EndsInCr(c)
    ensures NoNewline([a, b, c]) && NoHeaders([a, b, c]) && NoCrEnds([a, b, c])
  {
    var ls := [a, b, c];
    assert ls[0] == a && ls[1] == b && ls[2] == c;
  }

  /** Trimming the block's text gives the two lines joined by a newline. */
  lemma TwoLineValue(name: string, x: string, y: string)
    requires |x| > 0 && !IsWhitespace(x[0]) && |y| > 0 && !IsWhitespace(y[|y| - 1])
    ensures BlockValue(Block(name, ["", x, y])) == x + "\n" + y
  {
    var c := x + "\n" + y;
    UnlinesCons("", [x, y]);
    UnlinesCons(x, [y]);
    UnlinesCons(y, []);
    assert Unlines(["", x, y]) == "\n" + c + "\n";
    assert c[0] == x[0] && c[|c| - 1] == y[|y| - 1];
    TrimmedWord(c);
    assert AllWhitespace("\n");
    TrimPadded("\n", c, "\n");
  }

  lemma TrimmedWord(w: string)
    requires |w| > 0 && !IsWhitespace(w[0]) && !IsWhitespace(w[|w| - 1])
    ensures Trim(w) == w
  {
    assert TrimStart(w) == w;
  }

  lemma HeaderLineNoNewline(name: string)
    requires '\n' !in name
    ensures NoNewline([HeaderMark + name])
  {
    assert '\n' !in HeaderMark + name;
  }

  lemma {:induction false} BlocksNoNewline(bs: seq<Block>)
    requires AllWellFormed(bs)
    ensures NoNewline(BlocksLines(bs))
    decreases |bs|
  {
    if |bs| > 0 {
      assert AllWellFormed(bs[1..]) by {
        forall i | 0 <= i < |bs[1..]| ensures WellFormed(bs[1..][i]) { assert bs[1..][i] == bs[i + 1]; }
      }
      BlocksNoNewline(bs[1..]);
      HeaderLineNoNewline(bs[0].name);
      NoNewlineConcat([HeaderMark + bs[0].name], bs[0].body);
      NoNewlineConcat(BlockLines(bs[0]), BlocksLines(bs[1..]));
    }
  }

  lemma {:induction false} InsertAllAppend(m: map<string, string>, a: seq<Block>, b: seq<Block>)
    ensures InsertAll(m, a + b) == InsertAll(InsertAll(m, a), b)
    decreases |a|
  {
    if |a| == 0 {
      assert a + b == b;
    } else {
      assert (a + b)[1..] == a[1..] + b;
      InsertAllAppend(m[a[0].name := BlockValue(a[0])], a[1..], b);
    }
  }

  /** Blocks with other names leave an entry as it was. */
  lemma {:induction false} InsertAllOthers(m: map<string, string>, bs: seq<Block>, n: string)
    requires n !in Names(bs)
    ensures n in InsertAll(m, bs) <==> n in m
    ensures n in m ==> InsertAll(m, bs)[n] == m[n]
    decreases |bs|
  {
    if |bs| > 0 {
      InsertAllOthers(m[bs[0].name := BlockValue(bs[0])], bs[1..], n);
    }
  }

  /**
   * Text written in the framed layout, on lines without newlines, parses
   * back to its frontmatter and blocks. A carriage return ending a
   * frontmatter or preamble line is lost to `lines`, which changes nothing:
   * frontmatter lines are trimmed and the preamble is skipped.
   */
  lemma ParseFramedText(text: string, front: seq<string>, pre: seq<string>, bs: seq<Block>)
    requires text == Unlines(FramedLines(front, pre, bs))
    requires NoFences(front) && NoNewline(front)
    requires NoHeaders(pre) && NoNewline(pre)
    requires AllWellFormed(bs)
    ensures Parse(text).value == Document(MetaFold(map[], front), InsertAll(map[], bs))
  {
    var lines := FramedLines(front, pre, bs);
    assert NoNewline(lines) by {
      assert NoNewline([Fence]);
      BlocksNoNewline(bs);
      NoNewlineConcat([Fence], front);
      NoNewlineConcat([Fence] + front, [Fence]);
      NoNewlineConcat([Fence] + front + [Fence], pre);
      NoNewlineConcat([Fence] + front + [Fence] + pre, BlocksLines(bs));
    }
    LinesUnlines(lines);
    FramedStripped(front, pre, bs);
    StrippedFront(map[], front);
    StrippedPreamble(pre);
    ParseFramed(StripCrs(front), StripCrs(pre), bs);
  }

  /** What `lines` makes of the framed layout: only frontmatter and preamble lines can lose a carriage return. */
  lemma FramedStripped(front: seq<string>, pre: seq<string>, bs: seq<Block>)
    requires AllWellFormed(bs)
    ensures StripCrs(FramedLines(front, pre, bs)) == FramedLines(StripCrs(front), StripCrs(pre), bs)
  {
    BlocksNoCrEnds(bs);
    StripCrsAppend([Fence] + front + [Fence] + pre, BlocksLines(bs));
    StripCrsAppend([Fence] + front + [Fence], pre);
    StripCrsAppend([Fence] + front, [Fence]);
    StripCrsAppend([Fence], front);
    assert StripCrs([Fence]) == [Fence];
    assert StripCrs(BlocksLines(bs)) == BlocksLines(bs);
  }

  /** Frontmatter lines are trimmed before use, so a lost carriage return changes no entry and makes no fence. */
  lemma {:induction false} StrippedFront(m: map<string, string>, front: seq<string>)
    requires NoFences(front)
    ensures NoFences(StripCrs(front)) && MetaFold(m, StripCrs(front)) == MetaFold(m, front)
    decreases |front|
  {
    forall i | 0 <= i < |front| ensures !IsFence(StripCrs(front)[i]) { TrimStripCr(front[i]); }
    if |front| > 0 {
      StrippedEntry(m, front[0]);
      assert StripCrs(front)[1..] == StripCrs(front[1..]);
      StrippedFront(MetaInsert(m, front[0]), front[1..]);
    }
  }

  /**
   * The metadata of a text that opens with a frontmatter block is read from
   * that block alone: the closing fence ends it, whatever text follows.
   */
  lemma FrontOnlyMetadata(front: seq<string>, rest: string)
    requires NoFences(front) && NoNewline(front)
    ensures Parse(Unlines([Fence] + front + [Fence]) + rest).value.metadata == MetaFold(map[], front)
  {
    var head := [Fence] + front + [Fence];
    assert NoNewline(head) by {
      assert NoNewline([Fence]);
      NoNewlineConcat([Fence], front);
      NoNewlineConcat([Fence] + front, [Fence]);
    }
    LinesPrefix(head, rest);
    StripCrsAppend([Fence] + front, [Fence]);
    StripCrsAppend([Fence], front);
    assert StripCrs([Fence]) == [Fence];
    StrippedFront(map[], front);
    FramedShape(StripCrs(front), Lines(rest));
  }

  lemma StrippedEntry(m: map<string, string>, line: string)
    ensures MetaInsert(m, StripCr(line)) == MetaInsert(m, line)
  {
    TrimStripCr(line);
    SameTrimSameEntry(StripCr(line), line);
    SameEntrySameInsert(m, StripCr(line), line);
  }

  lemma SameEntrySameInsert(m: map<string, string>, a: string, b: string)
    requires MetaEntry(a) == MetaEntry(b)
    ensures MetaInsert(m, a) == MetaInsert(m, b)
  {
  }

  /** A frontmatter line is read through its trim only. */
  lemma SameTrimSameEntry(a: string, b: string)
    requires Trim(a) == Trim(b)
    ensures MetaEntry(a) == MetaEntry(b)
  {
  }

  /** Dropping a final carriage return does not make a header. */
  lemma StrippedPreamble(pre: seq<string>)
    requires NoHeaders(pre)
    ensures NoHeaders(StripCrs(pre))
  {
    forall i | 0 <= i < |pre| ensures !IsHeader(StripCrs(pre)[i]) {
      assert !IsHeader(pre[i]);
    }
  }

  lemma HeaderLineNoCr(name: string)
    requires Trim(name) == name
    ensures NoCrEnds([HeaderMark + name])
  {
    TrimmedNotCr(name);
    AppendNotCr(HeaderMark, name);
    assert [HeaderMark + name][0] == HeaderMark + name;
  }

  lemma TrimmedNotCr(s: string)
    requires Trim(s) == s
    ensures !EndsInCr(s)
  {
    if |s| > 0 {
      assert !IsWhitespace(Trim(s)[|s| - 1]);
    }
  }

  lemma AppendNotCr(p: string, s: string)
    requires |p| > 0 && p[|p| - 1] != '\r' && !EndsInCr(s)
    ensures !EndsInCr(p + s)
  {
    if |s| > 0 {
      assert (p + s)[|p + s| - 1] == s[|s| - 1];
    } else {
      assert p + s == p;
    }
  }

  lemma {:induction false} BlocksNoCrEnds(bs: seq<Block>)
    requires AllWellFormed(bs)
    ensures NoCrEnds(BlocksLines(bs))
    decreases |bs|
  {
    if |bs| > 0 {
      assert AllWellFormed(bs[1..]) by {
        forall i | 0 <= i < |bs[1..]| ensures WellFormed(bs[1..][i]) { assert bs[1..][i] == bs[i + 1]; }
      }
      BlocksNoCrEnds(bs[1..]);
      HeaderLineNoCr(bs[0].name);
      NoCrEndsConcat([HeaderMark + bs[0].name], bs[0].body);
      NoCrEndsConcat(BlockLines(bs[0]), BlocksLines(bs[1..]));
    }
  }

  /** The keys after inserting blocks: the previous keys and the blocks' names. */
  lemma {:induction false} InsertAllKeys(m: map<string, string>, bs: seq<Block>)
    ensures InsertAll(m, bs).Keys == m.Keys + Names(bs)
    decreases |bs|
  {
    if |bs| > 0 {
      InsertAllKeys(m[bs[0].name := BlockValue(bs[0])], bs[1..]);
    }
  }
}

=== FILE: names.dfy ===
/**
 * The name utilities (src/utils.rs): the title-to-filename character
 * mapping and the two validators.
 */
module Names {
  import opened Outcomes
  import opened Strings

  /* ---------- title_to_filename ---------- */

  /** The characters a file name may not hold on common filesystems; each becomes `-`. */
  predicate IsSeparator(c: char) {
    c == '/' || c == '\\' || c == ':' || c == '*' || c == '?' || c == '"' || c == '<' || c == '>' || c == '|'
  }

  predicate IsAsciiAlphanumeric(c: char) {
    ('a' <= c <= 'z') || ('A' <= c <= 'Z') || ('0' <= c <= '9')
  }

  /**
   * `char::is_alphanumeric`: exact on ASCII; for every other character the
   * Unicode property table is the parameter `unicodeAlnum`.
   */
  predicate IsAlphanumeric(c: char, unicodeAlnum: char -> bool) {
    if c as int < 128 then IsAsciiAlphanumeric(c) else unicodeAlnum(c)
  }

  /** The per-character rule, before lowercasing. */
  function FileChar(c: char, unicodeAlnum: char -> bool): char {
    if c == ' ' then '_'
    else if IsSeparator(c) then '-'
    else if IsAlphanumeric(c, unicodeAlnum) || c == '-' || c == '_' || c == '.' then c
    else '_'
  }

  /** A character `title_to_filename` keeps, up to case. */
  predicate IsKept(c: char, unicodeAlnum: char -> bool) {
    c != ' ' && !IsSeparator(c) && (IsAlphanumeric(c, unicodeAlnum) || c == '-' || c == '_' || c == '.')
  }

  /**
   * `title_to_filename`: each character mapped on its own, then the whole
   * lowercased. The result has no space, no separator and no uppercase
   * letter; kept characters stay where they were, lowercased; every other
   * character becomes `_` or `-`.
   */
  function TitleToFilename(title: string, unicodeAlnum: char -> bool): (r: string)
    ensures |r| == |title|
    ensures forall i :: 0 <= i < |r| ==> r[i] != ' ' && !IsSeparator(r[i])
    ensures !HasUpper(r)
    ensures forall i :: 0 <= i < |title| ==>
              if IsKept(title[i], unicodeAlnum) then r[i] == LowerChar(title[i])
              else if IsSeparator(title[i]) then r[i] == '-'
              else r[i] == '_'
  {
    ToLower(seq(|title|, i requires 0 <= i < |title| => FileChar(title[i], unicodeAlnum)))
  }

  /** Lowercasing keeps a character kept. */
  lemma KeptAfterLower(c: char, unicodeAlnum: char -> bool)
    requires IsKept(c, unicodeAlnum)
    ensures IsKept(LowerChar(c), unicodeAlnum) && LowerChar(LowerChar(c)) == LowerChar(c)
  {
  }

  /** A file name made by `title_to_filename` is its own file name. */
  lemma TitleToFilenameIdempotent(title: string, unicodeAlnum: char -> bool)
    ensures TitleToFilename(TitleToFilename(title, unicodeAlnum), unicodeAlnum) == TitleToFilename(title, unicodeAlnum)
  {
    var r := TitleToFilename(title, unicodeAlnum);
    var rr := TitleToFilename(r, unicodeAlnum);
    forall i | 0 <= i < |r| ensures rr[i] == r[i] {
      if IsKept(title[i], unicodeAlnum) {
        KeptAfterLower(title[i], unicodeAlnum);
      }
    }
  }

  /** The examples the source's unit tests check. */
  lemma TitleToFilenameExamples(unicodeAlnum: char -> bool)
    ensures TitleToFilename("Simple Title", unicodeAlnum) == "simple_title"
    ensures TitleToFilename("Complex: " + "Title/With*" + "Special?Chars", unicodeAlnum)
         == "complex-_" + "title-with-" + "special-chars"
    ensures unicodeAlnum('你') && unicodeAlnum('好') ==> TitleToFilename("Unicode: 你好", unicodeAlnum) == "unicode-_你好"
  {
    ComplexExample(unicodeAlnum);
  }

  lemma ComplexExample(unicodeAlnum: char -> bool)
    ensures TitleToFilename("Complex: " + "Title/With*" + "Special?Chars", unicodeAlnum)
         == "complex-_" + "title-with-" + "special-chars"
  {
    TitleToFilenameAppend("Complex: " + "Title/With*", "Special?Chars", unicodeAlnum);
    TitleToFilenameAppend("Complex: ", "Title/With*", unicodeAlnum);
    ComplexPieces(unicodeAlnum);
  }

  lemma ComplexPieces(unicodeAlnum: char -> bool)
    ensures TitleToFilename("Complex: ", unicodeAlnum) == "complex-_"
    ensures TitleToFilename("Title/With*", unicodeAlnum) == "title-with-"
    ensures TitleToFilename("Special?Chars", unicodeAlnum) == "special-chars"
  {
  }

  /** The mapping works character by character, so it distributes over concatenation. */
  lemma TitleToFilenameAppend(a: string, b: string, unicodeAlnum: char -> bool)
    ensures TitleToFilename(a + b, unicodeAlnum) == TitleToFilename(a, unicodeAlnum) + TitleToFilename(b, unicodeAlnum)
  {
    var r, x, y := TitleToFilename(a + b, unicodeAlnum), TitleToFilename(a, unicodeAlnum), TitleToFilename(b, unicodeAlnum);
    forall i | 0 <= i < |r| ensures r[i] == (x + y)[i] {
      if i < |a| { assert (a + b)[i] == a[i]; } else { assert (a + b)[i] == b[i - |a|]; }
    }
  }

  /* ---------- validate_project_name ---------- */

  datatype NameError = EmptyName | PathSeparator | LeadingDot | TooLong

  /**
   * `validate_project_name`: a name is accepted exactly when it is
   * non-empty, has neither `/` nor `\`, and does not start with `.`; the
   * first failing check is the one reported.
   */
  function ValidateProjectName(name: string): (r: Outcome<NameError>)
    ensures r.Pass? <==> |name| > 0 && '/' !in name && '\\' !in name && name[0] != '.'
    ensures r == Fail(EmptyName) <==> |name| == 0
    ensures r == Fail(PathSeparator) <==> |name| > 0 && ('/' in name || '\\' in name)
    ensures r == Fail(LeadingDot) <==> |name| > 0 && '/' !in name && '\\' !in name && name[0] == '.'
  {
    if |name| == 0 then Fail(EmptyName)
    else if '/' in name || '\\' in name then Fail(PathSeparator)
    else if name[0] == '.' then Fail(LeadingDot)
    else Pass
  }

  lemma ValidateProjectNameExamples()
    ensures ValidateProjectName("valid-project").Pass?
    ensures ValidateProjectName("ValidProject123").Pass?
    ensures ValidateProjectName("").Fail?
    ensures ValidateProjectName("project/with/slash").Fail?
    ensures ValidateProjectName(".hidden").Fail?
  {
    assert "project/with/slash"[7] == '/';
  }

  /* ---------- validate_action_title ---------- */

  /** The number of bytes of a character's UTF-8 encoding. */
  function Utf8Width(c: char): (n: nat)
    ensures 1 <= n <= 4
    ensures n == 1 <==> c as int < 0x80
  {
    if c as int < 0x80 then 1
    else if c as int < 0x800 then 2
    else if c as int < 0x1_0000 then 3
    else 4
  }

  /** `str::len`: the length in UTF-8 bytes. */
  function Utf8Len(s: string): (n: nat)
    ensures |s| <= n <= 4 * |s|
    decreases |s|
  {
    if |s| == 0 then 0 else Utf8Width(s[0]) + Utf8Len(s[1..])
  }

  predicate IsAscii(s: string) {
    forall i :: 0 <= i < |s| ==> s[i] as int < 0x80
  }

  lemma {:induction false} AsciiLen(s: string)
    ensures Utf8Len(s) == |s| <==> IsAscii(s)
    decreases |s|
  {
    if |s| > 0 {
      AsciiLen(s[1..]);
      if IsAscii(s) {
        assert IsAscii(s[1..]) by {
          forall i | 0 <= i < |s[1..]| ensures s[1..][i] as int < 0x80 { assert s[1..][i] == s[i + 1]; }
        }
      }
      if IsAscii(s[1..]) && s[0] as int < 0x80 {
        forall i | 0 <= i < |s| ensures s[i] as int < 0x80 {
          if i > 0 { assert s[i] == s[1..][i - 1]; }
        }
      }
    }
  }

  const MaxTitleBytes: nat := 100

  /**
   * `validate_action_title`: a title is accepted exactly when it is
   * non-empty and at most 100 bytes long in UTF-8; emptiness is checked
   * first.
   */
  function ValidateActionTitle(title: string): (r: Outcome<NameError>)
    ensures r.Pass? <==> |title| > 0 && Utf8Len(title) <= MaxTitleBytes
    ensures r == Fail(EmptyName) <==> |title| == 0
    ensures r == Fail(TooLong) <==> |title| > 0 && Utf8Len(title) > MaxTitleBytes
  {
    if |title| == 0 then Fail(EmptyName)
    else if Utf8Len(title) > MaxTitleBytes then Fail(TooLong)
    else Pass
  }

  /** The byte bound is not a character bound: more than 100 characters always fail, fewer may fail too. */
  lemma TitleBoundIsBytes(title: string)
    ensures |title| > MaxTitleBytes ==> ValidateActionTitle(title) == Fail(TooLong)
    ensures IsAscii(title) && 0 < |title| <= MaxTitleBytes ==> ValidateActionTitle(title).Pass?
  {
    AsciiLen(title);
  }

  /** Thirty-four or more three-byte characters are well under 100 characters but over 100 bytes. */
  lemma WideTitleRejected(c: char, n: nat)
    requires 0x800 <= c as int < 0x1_0000 && 34 <= n
    ensures ValidateActionTitle(seq(n, _ => c)) == Fail(TooLong)
  {
    WideLen(c, n);
  }

  lemma {:induction false} WideLen(c: char, n: nat)
    requires 0x800 <= c as int < 0x1_0000
    ensures Utf8Len(seq(n, _ => c)) == 3 * n
    decreases n
  {
    if n > 0 {
      var s := seq(n, _ => c);
      assert s[1..] == seq(n - 1, _ => c);
      WideLen(c, n - 1);
    }
  }

  lemma ValidateActionTitleExamples()
    ensures ValidateActionTitle("Valid Title").Pass?
    ensures ValidateActionTitle("").Fail?
    ensures ValidateActionTitle(seq(101, _ => 'x')).Fail?
  {
    TitleBoundIsBytes("Valid Title");
    TitleBoundIsBytes(seq(101, _ => 'x'));
  }
}

=== FILE: outcomes.dfy ===
/** Failure-carrying datatypes shared by every module of the model. */
module Outcomes {

  /** An optional value, the model of Rust's `Option`. */
  datatype Option<+T> = None | Some(value: T)

  /** A value or an error, the model of Rust's `Result`. */
  datatype Result<+T, +E> = Ok(value: T) | Err(error: E)

  /** Success without a value, or an error: the model of `Result<()>`. */
  datatype Outcome<+E> = Pass | Fail(error: E)
}

=== FILE: parser.dfy ===
/**
 * The line-oriented document scanner (src/parser.rs, `MarkdownParser::parse`):
 * an optional `---`-fenced block of `key: value` lines, then `## `-titled
 * sections. It never fails; malformed input only yields fewer entries.
 */
module Parser {
  import opened Outcomes
  import opened Strings

  /** The two maps `parse` returns. */
  datatype Document = Document(metadata: map<string, string>, sections: map<string, string>)

  /** The scanner state of the section phase: finished sections, open section, its body so far. */
  datatype Scan = Scan(sections: map<string, string>, current: Option<string>, body: string)

  const Fence: string := "---"
  const HeaderMark: string := "## "

  /** `str::split_once`: the text before and after the first `sep`, if there is one. */
  function SplitOnce(s: string, sep: char): (r: Option<(string, string)>)
    ensures r.None? <==> sep !in s
    ensures r.Some? ==> sep !in r.value.0 && s == r.value.0 + [sep] + r.value.1
  {
    if sep in s then
      var k := FirstIndex(s, sep);
      assert s == s[..k] + [sep] + s[k + 1..];
      Some((s[..k], s[k + 1..]))
    else
      None
  }

  /** One frontmatter line: the trimmed line is split at its first colon, both halves trimmed. */
  function MetaEntry(line: string): Option<(string, string)> {
    match SplitOnce(Trim(line), ':')
    case None => None
    case Some((k, v)) => Some((Trim(k), Trim(v)))
  }

  function MetaInsert(m: map<string, string>, line: string): map<string, string> {
    match MetaEntry(line)
    case None => m
    case Some((k, v)) => m[k := v]
  }

  /** The metadata gathered from `lines`, in order, on top of `m`. */
  function MetaFold(m: map<string, string>, lines: seq<string>): map<string, string>
    decreases |lines|
  {
    if |lines| == 0 then m else MetaFold(MetaInsert(m, lines[0]), lines[1..])
  }

  predicate IsFence(line: string) {
    Trim(line) == Fence
  }

  /** The index of the first fence line at or after `i`, or the number of lines if there is none. */
  function CloseIndex(lines: seq<string>, i: nat): (j: nat)
    requires i <= |lines|
    ensures i <= j <= |lines|
    ensures forall k :: i <= k < j ==> !IsFence(lines[k])
    ensures j < |lines| ==> IsFence(lines[j])
    decreases |lines| - i
  {
    if i == |lines| || IsFence(lines[i]) then i else CloseIndex(lines, i + 1)
  }

  predicate IsHeader(line: string) {
    StartsWith(line, HeaderMark)
  }

  /** The name a header line opens: the rest of the line after `## `, trimmed. */
  function HeaderName(line: string): string
    requires IsHeader(line)
  {
    Trim(line[|HeaderMark|..])
  }

  const Start: Scan := Scan(map[], None, "")

  /** The open section, if any, is stored under its name with its body trimmed. */
  function Flush(st: Scan): map<string, string> {
    match st.current
    case None => st.sections
    case Some(n) => st.sections[n := Trim(st.body)]
  }

  /** One line of the section phase. */
  function Step(st: Scan, line: string): Scan {
    if IsHeader(line) then
      var saved := if st.current.Some? then Scan(Flush(st), None, "") else st;
      saved.(current := Some(HeaderName(line)))
    else if st.current.Some? then
      st.(body := st.body + line + "\n")
    else
      st
  }

  function ScanFrom(st: Scan, lines: seq<string>): Scan
    decreases |lines|
  {
    if |lines| == 0 then st else ScanFrom(Step(st, lines[0]), lines[1..])
  }

  /** The section map of a line sequence that holds no frontmatter. */
  function SectionsOf(lines: seq<string>): map<string, string> {
    Flush(ScanFrom(Start, lines))
  }

  /** Where the section phase starts: after the closing fence, or at the end when it is missing. */
  function BodyStart(lines: seq<string>): (i: nat)
    ensures i <= |lines|
  {
    if |lines| > 0 && IsFence(lines[0]) then
      var close := CloseIndex(lines, 1);
      if close < |lines| then close + 1 else close
    else
      0
  }

  function MetadataOf(lines: seq<string>): map<string, string> {
    if |lines| > 0 && IsFence(lines[0]) then MetaFold(map[], lines[1..CloseIndex(lines, 1)]) else map[]
  }

  function ParseLines(lines: seq<string>): Document {
    Document(MetadataOf(lines), SectionsOf(lines[BodyStart(lines)..]))
  }

  /** `parse`: total on every text; the error case of its Rust signature never arises. */
  function Parse(text: string): (r: Result<Document, string>)
    ensures r.Ok?
  {
    Ok(ParseLines(Lines(text)))
  }

  /* ---------- the scanning loop, as the source writes it ---------- */

  lemma {:induction false} MetaFoldSnoc(m: map<string, string>, lines: seq<string>, line: string)
    ensures MetaFold(m, lines + [line]) == MetaInsert(MetaFold(m, lines), line)
    decreases |lines|
  {
    if |lines| == 0 {
      assert [line][1..] == [];
    } else {
      assert (lines + [line])[1..] == lines[1..] + [line];
      MetaFoldSnoc(MetaInsert(m, lines[0]), lines[1..], line);
    }
  }

  lemma {:induction false} ScanFromSnoc(st: Scan, lines: seq<string>, line: string)
    ensures ScanFrom(st, lines + [line]) == Step(ScanFrom(st, lines), line)
    decreases |lines|
  {
    if |lines| == 0 {
      assert [line][1..] == [];
    } else {
      assert (lines + [line])[1..] == lines[1..] + [line];
      ScanFromSnoc(Step(st, lines[0]), lines[1..], line);
    }
  }

  lemma MetaFoldStep(lines: seq<string>, i: nat)
    requires 1 <= i < |lines|
    ensures MetaFold(map[], lines[1..i + 1]) == MetaInsert(MetaFold(map[], lines[1..i]), lines[i])
  {
    MetaFoldSnoc(map[], lines[1..i], lines[i]);
    assert lines[1..i + 1] == lines[1..i] + [lines[i]];
  }

  /** The frontmatter loop: from an opening fence at line 0 up to and past the closing fence. */
  method ScanFrontmatter(lines: seq<string>) returns (metadata: map<string, string>, i: nat)
    ensures metadata == MetadataOf(lines)
    ensures i == BodyStart(lines)
  {
    metadata := map[];
    i := 0;
    if i < |lines| && IsFence(lines[i]) {
      i := i + 1;
      while i < |lines| && !IsFence(lines[i])
        invariant 1 <= i <= |lines|
        invariant CloseIndex(lines, i) == CloseIndex(lines, 1)
        invariant metadata == MetaFold(map[], lines[1..i])
      {
        MetaFoldStep(lines, i);
        metadata := MetaInsert(metadata, lines[i]);
        i := i + 1;
      }
      if i < |lines| {
        i := i + 1;
      }
    }
  }

  /** The section loop: an open-section flag and a body buffer, flushed at each header and at the end. */
  method ScanSections(lines: seq<string>, start: nat) returns (sections: map<string, string>)
    requires start <= |lines|
    ensures sections == SectionsOf(lines[start..])
  {
    sections := map[];
    var current: Option<string> := None;
    var body := "";
    var i := start;
    while i < |lines|
      invariant start <= i <= |lines|
      invariant Scan(sections, current, body) == ScanFrom(Start, lines[start..i])
    {
      var line := lines[i];
      ghost var before := Scan(sections, current, body);
      ScanFromSnoc(Start, lines[start..i], line);
      assert lines[start..i + 1] == lines[start..i] + [line];
      if StartsWith(line, HeaderMark) {
        if current.Some? {
          sections := sections[current.value := Trim(body)];
          current := None;
          body := "";
        }
        current := Some(Trim(line[3..]));
      } else if current.Some? {
        body := body + line + "\n";
      }
      assert Scan(sections, current, body) == Step(before, line);
      i := i + 1;
    }
    assert lines[start..i] == lines[start..];
    if current.Some? {
      sections := sections[current.value := Trim(body)];
    }
  }

  /**
   * The scanner of src/parser.rs, with its index walking the lines through
   * both phases. It computes the same document as `Parse`.
   */
  method MarkdownParse(text: string) returns (r: Result<Document, string>)
    ensures r.Ok? && r.value == ParseLines(Lines(text))
  {
    var lines := Lines(text);
    var metadata, i := ScanFrontmatter(lines);
    var sections := ScanSections(lines, i);
    r := Ok(Document(metadata, sections));
  }
}

=== FILE: parser_laws.dfy ===
/** What `parse` promises about any text: the facts the source's callers rely on. */
module ParserLaws {
  import opened Outcomes
  import opened Strings
  import opened Parser

  /** Metadata can only come from a document whose first line is a lone `---`. */
  lemma MetadataNeedsOpeningFence(text: string)
    ensures Parse(text).value.metadata != map[] ==>
              |Lines(text)| > 0 && Trim(Lines(text)[0]) == "---"
  {
  }

  /** The keys a frontmatter line sequence defines, one per line that holds a colon. */
  function MetaKeys(lines: seq<string>): set<string>
    decreases |lines|
  {
    if |lines| == 0 then {}
    else (if MetaEntry(lines[0]).Some? then {MetaEntry(lines[0]).value.0} else {}) + MetaKeys(lines[1..])
  }

  /** Every frontmatter line with a colon defines its trimmed key, and no other key appears. */
  lemma {:induction false} MetaFoldKeys(m: map<string, string>, lines: seq<string>)
    ensures MetaFold(m, lines).Keys == m.Keys + MetaKeys(lines)
    decreases |lines|
  {
    if |lines| > 0 {
      MetaFoldKeys(MetaInsert(m, lines[0]), lines[1..]);
    }
  }

  /** A key that no later line defines keeps its value. */
  lemma {:induction false} MetaFoldUntouched(m: map<string, string>, lines: seq<string>, k: string)
    requires k in m && k !in MetaKeys(lines)
    ensures k in MetaFold(m, lines) && MetaFold(m, lines)[k] == m[k]
    decreases |lines|
  {
    if |lines| > 0 {
      MetaFoldUntouched(MetaInsert(m, lines[0]), lines[1..], k);
    }
  }

  lemma {:induction false} MetaFoldAppend(m: map<string, string>, a: seq<string>, b: seq<string>)
    ensures MetaFold(m, a + b) == MetaFold(MetaFold(m, a), b)
    decreases |a|
  {
    if |a| == 0 {
      assert a + b == b;
    } else {
      assert (a + b)[1..] == a[1..] + b;
      MetaFoldAppend(MetaInsert(m, a[0]), a[1..], b);
    }
  }

  /**
   * A repeated key keeps the value of its last line: a line defining `k`
   * followed only by lines that do not define `k` decides `k`'s value.
   */
  lemma LastKeyWins(m: map<string, string>, before: seq<string>, line: string, after: seq<string>)
    requires MetaEntry(line).Some?
    requires MetaEntry(line).value.0 !in MetaKeys(after)
    ensures var k := MetaEntry(line).value.0;
      k in MetaFold(m, before + [line] + after) && MetaFold(m, before + [line] + after)[k] == MetaEntry(line).value.1
  {
    MetaFoldAppend(m, before + [line], after);
    MetaFoldSnoc(m, before, line);
    MetaFoldUntouched(MetaFold(m, before + [line]), after, MetaEntry(line).value.0);
  }

  /**
   * Without a closing fence every line after the opening one is frontmatter,
   * and there are no sections.
   */
  lemma UnclosedFrontmatter(lines: seq<string>)
    requires |lines| > 0 && IsFence(lines[0])
    requires forall k :: 1 <= k < |lines| ==> !IsFence(lines[k])
    ensures ParseLines(lines).sections == map[]
    ensures ParseLines(lines).metadata == MetaFold(map[], lines[1..])
  {
    CloseIndexPast(lines, 1);
    assert BodyStart(lines) == |lines|;
    assert lines[1..CloseIndex(lines, 1)] == lines[1..];
    assert lines[|lines|..] == [];
    assert ScanFrom(Start, []) == Start;
  }

  lemma {:induction false} CloseIndexPast(lines: seq<string>, i: nat)
    requires 1 <= i <= |lines|
    requires forall k :: i <= k < |lines| ==> !IsFence(lines[k])
    ensures CloseIndex(lines, i) == |lines|
    decreases |lines| - i
  {
    if i < |lines| {
      CloseIndexPast(lines, i + 1);
    }
  }

  /** The names of the header lines of `lines`, in order. */
  function HeaderList(lines: seq<string>): seq<string>
    decreases |lines|
  {
    if |lines| == 0 then []
    else (if IsHeader(lines[0]) then [HeaderName(lines[0])] else []) + HeaderList(lines[1..])
  }

  /** The names the open section and the finished ones would be stored under. */
  function Pending(st: Scan): set<string> {
    st.sections.Keys + (if st.current.Some? then {st.current.value} else {})
  }

  /** Every header line opens a section and nothing else does. */
  lemma {:induction false} ScanKeys(st: Scan, lines: seq<string>)
    ensures Flush(ScanFrom(st, lines)).Keys == Pending(st) + set n | n in HeaderList(lines)
    decreases |lines|
  {
    if |lines| > 0 {
      var st' := Step(st, lines[0]);
      assert ScanFrom(st, lines) == ScanFrom(st', lines[1..]);
      ScanKeys(st', lines[1..]);
      PendingStep(st, lines[0]);
      HeaderSetCons(lines);
    } else {
      assert HeaderList(lines) == [];
    }
  }

  lemma PendingStep(st: Scan, line: string)
    ensures Pending(Step(st, line)) == Pending(st) + (if IsHeader(line) then {HeaderName(line)} else {})
  {
  }

  lemma HeaderSetCons(lines: seq<string>)
    requires |lines| > 0
    ensures (set n | n in HeaderList(lines))
         == (if IsHeader(lines[0]) then {HeaderName(lines[0])} else {}) + (set n | n in HeaderList(lines[1..]))
  {
  }

  lemma {:induction false} SetOfSeqSize(s: seq<string>)
    ensures |set x | x in s| <= |s|
    decreases |s|
  {
    if |s| > 0 {
      SetOfSeqSize(s[1..]);
      assert (set x | x in s) == (set x | x in s[1..]) + {s[0]};
    }
  }

  /**
   * The section map's keys are exactly the header names seen, so it has at
   * most as many entries as there are header lines.
   */
  lemma SectionKeysAreHeaders(lines: seq<string>)
    ensures SectionsOf(lines).Keys == set n | n in HeaderList(lines)
    ensures |SectionsOf(lines)| <= |HeaderList(lines)|
  {
    ScanKeys(Start, lines);
    SetOfSeqSize(HeaderList(lines));
  }

  predicate NoHeaders(lines: seq<string>) {
    forall i :: 0 <= i < |lines| ==> !IsHeader(lines[i])
  }

  lemma NoHeadersConcat(a: seq<string>, b: seq<string>)
    requires NoHeaders(a) && NoHeaders(b)
    ensures NoHeaders(a + b)
  {
    forall i | 0 <= i < |a + b| ensures !IsHeader((a + b)[i]) {
      if i >= |a| { assert (a + b)[i] == b[i - |a|]; }
    }
  }

  /** Lines before the first header are discarded. */
  lemma {:induction false} PreambleDiscarded(pre: seq<string>, rest: seq<string>)
    requires NoHeaders(pre)
    ensures SectionsOf(pre + rest) == SectionsOf(rest)
    decreases |pre|
  {
    if |pre| == 0 {
      assert pre + rest == rest;
    } else {
      assert (pre + rest)[1..] == pre[1..] + rest;
      assert Step(Start, pre[0]) == Start;
      PreambleDiscarded(pre[1..], rest);
    }
  }

  lemma {:induction false} ScanFromAppend(st: Scan, a: seq<string>, b: seq<string>)
    ensures ScanFrom(st, a + b) == ScanFrom(ScanFrom(st, a), b)
    decreases |a|
  {
    if |a| == 0 {
      assert a + b == b;
    } else {
      assert (a + b)[1..] == a[1..] + b;
      ScanFromAppend(Step(st, a[0]), a[1..], b);
    }
  }

  /** Inside an open section every non-header line is appended to the body, followed by a newline. */
  lemma {:induction false} BodyAccumulates(m: map<string, string>, n: string, b: string, lines: seq<string>)
    requires NoHeaders(lines)
    ensures ScanFrom(Scan(m, Some(n), b), lines) == Scan(m, Some(n), b + Unlines(lines))
    decreases |lines|
  {
    if |lines| > 0 {
      BodyAccumulates(m, n, b + lines[0] + "\n", lines[1..]);
      assert b + lines[0] + "\n" + Unlines(lines[1..]) == b + Unlines(lines);
    }
  }
}

=== FILE: project.dfy ===
/**
 * A project (src/project.rs): a directory of action files and the map from
 * title to action loaded from it. Every operation that touches the disk
 * takes the filesystem and returns the new one.
 */
module Projects {
  import opened Outcomes
  import opened Strings
  import opened StatusLifecycle
  import opened Parser
  import opened Host
  import opened Actions
  import opened ActionLaws
  import Names

  datatype Project = Project(name: string, path: Path, actions: map<string, Action>)

  /** `Project::new`: creates the directory when nothing is at the path; starts with no actions. */
  function NewProject(name: string, path: Path, fs: Fs): (r: Result<(Project, Fs), Error>)
    ensures r.Ok? <==> Exists(fs, path) || forall k :: 1 <= k <= |path| ==> path[..k] !in fs.files
    ensures r.Ok? ==> r.value.0 == Project(name, path, map[])
    ensures r.Ok? && Exists(fs, path) ==> r.value.1 == fs
    ensures r.Ok? && |path| > 0 ==> Exists(r.value.1, path)
    ensures r.Ok? ==> r.value.1.files == fs.files && fs.dirs <= r.value.1.dirs
    ensures r.Err? ==> r.error == IoFailure(path)
  {
    if Exists(fs, path) then Ok((Project(name, path, map[]), fs))
    else match CreateDirAll(fs, path)
      case Ok(fs') =>
        SelfAncestor(path);
        Ok((Project(name, path, map[]), fs'))
      case Err(e) => Err(e)
  }

  /** `create_dir_all` makes the directory itself, not only its ancestors. */
  lemma SelfAncestor(p: Path)
    ensures |p| > 0 ==> p in Ancestors(p)
  {
    if |p| > 0 { assert p[..|p|] == p; }
  }

  /* ---------- loading ---------- */

  /** The file names in `dir` that `load_actions` reads: files whose extension is `md`. */
  function MarkdownNames(fs: Fs, dir: Path): set<string> {
    set n | n in ChildFileNames(fs, dir) && SplitExtension(n).1 == Some("md")
  }

  /** A name whose extension is `md` is its stem followed by `.md`. */
  lemma MarkdownSplit(n: string)
    requires SplitExtension(n).1 == Some("md")
    ensures n == SplitExtension(n).0 + ".md"
  {
    var k := LastDot(n).value;
    assert n == n[..k] + "." + n[k + 1..];
  }

  /** Distinct markdown names have distinct stems, so the loaded map loses no file. */
  lemma StemsDistinct(n: string, m: string)
    requires SplitExtension(n).1 == Some("md") && SplitExtension(m).1 == Some("md")
    requires SplitExtension(n).0 == SplitExtension(m).0
    ensures n == m
  {
    MarkdownSplit(n);
    MarkdownSplit(m);
  }

  function StemOf(n: string): string {
    SplitExtension(n).0
  }

  function Stems(names: set<string>): set<string> {
    set n | n in names :: StemOf(n)
  }

  /** The action `from_file` builds from `dir/n`. */
  function LoadedAction(fs: Fs, dir: Path, n: string, env: Env): Action
    requires n in ChildFileNames(fs, dir)
  {
    var f :| f in fs.files && |f| == |dir| + 1 && f[..|dir|] == dir && f[|dir|] == n;
    assert f == dir + [n];
    FromParsed(Parse(fs.files[dir + [n]]).value, dir + [n], env)
  }

  /** The markdown file of `dir` with stem `t`. */
  function FileWithStem(fs: Fs, dir: Path, t: string): (n: string)
    requires t in Stems(MarkdownNames(fs, dir))
    ensures n in MarkdownNames(fs, dir) && StemOf(n) == t
  {
    var names := MarkdownNames(fs, dir);
    StemUnique(names);
    var n :| n in names && StemOf(n) == t; n
  }

  lemma StemUnique(names: set<string>)
    requires forall n :: n in names ==> SplitExtension(n).1 == Some("md")
    ensures forall n, m :: n in names && m in names && StemOf(n) == StemOf(m) ==> n == m
  {
    forall n, m | n in names && m in names && StemOf(n) == StemOf(m) ensures n == m {
      StemsDistinct(n, m);
    }
  }

  /** The actions of a directory, filed under their stems. */
  function LoadedMap(fs: Fs, dir: Path, env: Env): map<string, Action> {
    map t | t in Stems(MarkdownNames(fs, dir)) :: LoadedAction(fs, dir, FileWithStem(fs, dir, t), env)
  }

  /**
   * `load_actions`: nothing at the path loads nothing; a path that is a
   * file cannot be listed; otherwise every markdown file is read and filed
   * under its title, which is its stem.
   */
  function LoadActions(fs: Fs, dir: Path, env: Env): (r: Result<map<string, Action>, Error>)
    ensures r.Err? <==> Exists(fs, dir) && dir !in fs.dirs
    ensures r.Err? ==> r.error == IoFailure(dir)
    ensures !Exists(fs, dir) ==> r == Ok(map[])
    ensures r.Ok? && dir in fs.dirs ==> r.value.Keys == Stems(MarkdownNames(fs, dir))
  {
    if !Exists(fs, dir) then Ok(map[])
    else if dir !in fs.dirs then Err(IoFailure(dir))
    else Ok(LoadedMap(fs, dir, env))
  }

  /** Each markdown file is loaded under its stem, as the action `from_file` reads from it. */
  lemma LoadedUnderStem(fs: Fs, dir: Path, env: Env, n: string)
    requires dir in fs.dirs && n in MarkdownNames(fs, dir)
    ensures var r := LoadActions(fs, dir, env);
      && r.Ok? && StemOf(n) in r.value
      && Ok(r.value[StemOf(n)]) == FromFile(fs, dir + [n], env)
  {
    var names := MarkdownNames(fs, dir);
    var t := StemOf(n);
    assert t in Stems(names);
    var n' := FileWithStem(fs, dir, t);
    StemsDistinct(n, n');
    var f :| f in fs.files && |f| == |dir| + 1 && f[..|dir|] == dir && f[|dir|] == n;
    assert f == dir + [n];
    assert LoadedMap(fs, dir, env)[t] == LoadedAction(fs, dir, n, env);
  }

  /** `Project::load`: the name is the directory's last component, `unknown` without one. */
  function LoadProject(path: Path, fs: Fs, env: Env): (r: Result<Project, Error>)
    ensures r.Ok? <==> LoadActions(fs, path, env).Ok?
    ensures r.Ok? ==> r.value.path == path && r.value.actions == LoadActions(fs, path, env).value
    ensures r.Ok? ==> r.value.name == (if |path| == 0 then "unknown" else path[|path| - 1])
  {
    var name := match FileName(path) case Some(n) => n case None => "unknown";
    match LoadActions(fs, path, env)
    case Ok(m) => Ok(Project(name, path, m))
    case Err(e) => Err(e)
  }

  /* ---------- creating an action ---------- */

  const NotesText: string := "General notes on the task"

  const ActionText: string :=
    "The task to be performed, " + "more in depth than title, " + "may include why the action " + "is needed"

  const InputsText: string := "A list of .md links " + "to other markdown files"

  /** The stem of a new action's file: spaces become underscores, then lowercased. */
  function ActionStem(title: string): string {
    ToLower(ReplaceChar(title, ' ', '_'))
  }

  function ActionFile(p: Project, title: string): Path {
    p.path + [ActionStem(title) + ".md"]
  }

  /** The action `create_action` writes before saving it. */
  function Drafted(p: Project, title: string, priority: bool, env: Env): Action {
    NewAction(p.name, title, priority, env).(
      filePath := ActionFile(p, title),
      notes := Some(NotesText),
      statementOfAction := Some(ActionText),
      statementOfInputs := Some(InputsText))
  }

  /**
   * `create_action`: refuses a title whose file already exists, leaving
   * everything as it was; otherwise saves the drafted action and files it
   * under the title exactly as given. A failed save leaves the project
   * unchanged.
   */
  function CreateAction(p: Project, title: string, priority: bool, fs: Fs, env: Env): (r: Result<(Project, Fs, Action), Error>)
    ensures Exists(fs, ActionFile(p, title)) ==> r == Err(AlreadyExists(title, p.name))
    ensures !Exists(fs, ActionFile(p, title)) ==> (r.Ok? <==> p.path in fs.dirs)
    ensures r.Ok? ==>
      var a := r.value.2;
      && r.value.0 == p.(actions := p.actions[title := a])
      && a.title == title && a.project == p.name && a.priority == priority && a.status == Discovery
      && a.filePath == ActionFile(p, title) && a.createdAt == env.now && a.updatedAt == env.later
      && a.notes == Some(NotesText) && a.statementOfAction == Some(ActionText)
      && a.statementOfInputs == Some(InputsText)
      && a.statementOfDesign.None? && a.analysisOfImpact.None?
      && r.value.1.files == fs.files[a.filePath := ToMarkdown(a, env)] && r.value.1.dirs == fs.dirs
  {
    var file := ActionFile(p, title);
    if Exists(fs, file) then Err(AlreadyExists(title, p.name))
    else
      var draft := Drafted(p, title, priority, env);
      assert file[..|file| - 1] == p.path;
      var (saved, fs', outcome) := Save(draft, fs, Reread(env));
      match outcome
      case Pass => Ok((p.(actions := p.actions[title := saved]), fs', saved))
      case Fail(e) => Err(e)
  }

  /** The new action is found under the title it was created with. */
  lemma CreateThenGet(p: Project, title: string, priority: bool, fs: Fs, env: Env)
    requires CreateAction(p, title, priority, fs, env).Ok?
    ensures var (p', _, a) := CreateAction(p, title, priority, fs, env).value;
      GetAction(p', title) == Some(a) && forall t :: t != title ==> GetAction(p', t) == GetAction(p, t)
  {
  }

  /**
   * A created action is stored under its title, but a later load files it
   * under its file stem: the two keys agree only when the title has no
   * space and no uppercase letter. An empty title makes the file `.md`,
   * which has no extension and is never loaded again.
   */
  lemma CreatedFileKey(p: Project, title: string)
    ensures |title| > 0 ==> SplitExtension(ActionStem(title) + ".md") == (ActionStem(title), Some("md"))
    ensures ActionStem(title) == title <==> ' ' !in title && !HasUpper(title)
    ensures |title| == 0 ==> SplitExtension(ActionStem(title) + ".md").1 == None
  {
    if |title| > 0 {
      MarkdownName(ActionStem(title));
    } else {
      assert ActionStem(title) + ".md" == ".md";
      assert LastDot(".md") == Some(0) by { assert LastDot(".m") == LastDot("."); }
    }
    StemFixed(title);
  }

  lemma StemFixed(title: string)
    ensures ActionStem(title) == title <==> ' ' !in title && !HasUpper(title)
  {
    var s := ActionStem(title);
    if s == title {
      forall i | 0 <= i < |title| ensures title[i] != ' ' && !IsUpper(title[i]) {
        assert s[i] == title[i];
      }
    }
    if ' ' !in title && !HasUpper(title) {
      forall i | 0 <= i < |title| ensures s[i] == title[i] {
        assert !IsUpper(title[i]);
      }
    }
  }

  /** `create_action`'s file stem and `title_to_filename` agree exactly on titles of spaces and kept characters. */
  lemma StemMatchesFilename(title: string, unicodeAlnum: char -> bool)
    ensures ActionStem(title) == Names.TitleToFilename(title, unicodeAlnum)
        <==> forall i :: 0 <= i < |title| ==> title[i] == ' ' || Names.IsKept(title[i], unicodeAlnum)
  {
    var s, f := ActionStem(title), Names.TitleToFilename(title, unicodeAlnum);
    if s == f {
      forall i | 0 <= i < |title| ensures title[i] == ' ' || Names.IsKept(title[i], unicodeAlnum) {
        assert s[i] == f[i];
      }
    }
  }

  /* ---------- lookups and setters ---------- */

  /** `get_action`: the action filed under exactly this title. */
  function GetAction(p: Project, title: string): (r: Option<Action>)
    ensures r.Some? <==> title in p.actions
    ensures r.Some? ==> r.value == p.actions[title]
  {
    if title in p.actions then Some(p.actions[title]) else None
  }

  /**
   * `update_action_status`: an unknown title is an error that changes
   * nothing. Otherwise the action's status is set and it is saved; the
   * project keeps the change even when the save fails.
   */
  function UpdateActionStatus(p: Project, title: string, s: Status, fs: Fs, env: Env): (r: (Project, Fs, Outcome<Error>))
    ensures title !in p.actions ==> r == (p, fs, Fail(ActionNotFound(title, p.name)))
    ensures title in p.actions ==>
      var a := p.actions[title];
      && r.0 == p.(actions := p.actions[title := SetStatus(a, s, env.later)])
      && (r.1, r.2) == (Save(SetStatus(a, s, env.now), fs, Reread(env)).1, Save(SetStatus(a, s, env.now), fs, Reread(env)).2)
  {
    if title !in p.actions then (p, fs, Fail(ActionNotFound(title, p.name)))
    else
      var (saved, fs', outcome) := Save(SetStatus(p.actions[title], s, env.now), fs, Reread(env));
      (p.(actions := p.actions[title := saved]), fs', outcome)
  }

  /** `set_action_priority`: as `update_action_status`, for the priority flag. */
  function SetActionPriority(p: Project, title: string, priority: bool, fs: Fs, env: Env): (r: (Project, Fs, Outcome<Error>))
    ensures title !in p.actions ==> r == (p, fs, Fail(ActionNotFound(title, p.name)))
    ensures title in p.actions ==>
      var a := p.actions[title];
      && r.0 == p.(actions := p.actions[title := SetPriority(a, priority, env.later)])
      && (r.1, r.2) == (Save(SetPriority(a, priority, env.now), fs, Reread(env)).1, Save(SetPriority(a, priority, env.now), fs, Reread(env)).2)
  {
    if title !in p.actions then (p, fs, Fail(ActionNotFound(title, p.name)))
    else
      var (saved, fs', outcome) := Save(SetPriority(p.actions[title], priority, env.now), fs, Reread(env));
      (p.(actions := p.actions[title := saved]), fs', outcome)
  }

  /** After a status update only that action differs, and it differs only in status and update time. */
  lemma StatusUpdateIsLocal(p: Project, title: string, s: Status, fs: Fs, env: Env)
    requires title in p.actions
    ensures var p' := UpdateActionStatus(p, title, s, fs, env).0;
      && p'.name == p.name && p'.path == p.path && p'.actions.Keys == p.actions.Keys
      && GetAction(p', title).value.status == s
      && GetAction(p', title).value.(status := p.actions[title].status, updatedAt := p.actions[title].updatedAt) == p.actions[title]
      && forall t :: t in p.actions && t != title ==> p'.actions[t] == p.actions[t]
  {
  }

  /**
   * The status the project holds after an update is not what the file
   * records: the writer has no status line, so reading the file back gives
   * Discovery.
   */
  lemma StatusNotPersisted(p: Project, title: string, s: Status, fs: Fs, env: Env, env': Env)
    requires title in p.actions
    requires UpdateActionStatus(p, title, s, fs, env).2.Pass?
    requires FrontOk(SetStatus(p.actions[title], s, env.later), env)
    ensures var loaded := FromFile(UpdateActionStatus(p, title, s, fs, env).1, p.actions[title].filePath, env');
      loaded.Ok? && loaded.value.status == Discovery && !loaded.value.priority
  {
    var b := SetStatus(p.actions[title], s, env.now);
    assert b.(updatedAt := env.later) == SetStatus(p.actions[title], s, env.later);
    SavedFile(b, fs, Reread(env), env');
    ReloadForgetsStatus(b.(updatedAt := env.later), Reread(env), b.filePath, env');
  }

  /** The same for the priority flag: a reloaded action is never a priority. */
  lemma PriorityNotPersisted(p: Project, title: string, fs: Fs, env: Env, env': Env)
    requires title in p.actions
    requires SetActionPriority(p, title, true, fs, env).2.Pass?
    requires FrontOk(SetPriority(p.actions[title], true, env.later), env)
    ensures GetAction(SetActionPriority(p, title, true, fs, env).0, title).value.priority
    ensures var loaded := FromFile(SetActionPriority(p, title, true, fs, env).1, p.actions[title].filePath, env');
      loaded.Ok? && !loaded.value.priority
  {
    var b := SetPriority(p.actions[title], true, env.now);
    assert b.(updatedAt := env.later) == SetPriority(p.actions[title], true, env.later);
    SavedFile(b, fs, Reread(env), env');
    ReloadForgetsStatus(b.(updatedAt := env.later), Reread(env), b.filePath, env');
  }

  /* ---------- queries ---------- */

  /** `actions_by_status`: exactly the actions in that status, with their titles. */
  function ActionsByStatus(p: Project, s: Status): (r: map<string, Action>)
    ensures forall t :: t in r <==> t in p.actions && p.actions[t].status == s
    ensures forall t :: t in r ==> r[t] == p.actions[t]
  {
    map t | t in p.actions && p.actions[t].status == s :: p.actions[t]
  }

  /** `priority_actions`: exactly the actions flagged as priority. */
  function PriorityActions(p: Project): (r: map<string, Action>)
    ensures forall t :: t in r <==> t in p.actions && p.actions[t].priority
    ensures forall t :: t in r ==> r[t] == p.actions[t]
  {
    map t | t in p.actions && p.actions[t].priority :: p.actions[t]
  }

  /**
   * Setting the flag moves exactly that title into or out of the priority
   * list; every other title keeps its place and its action, whatever the
   * save did.
   */
  lemma PriorityAfterSet(p: Project, title: string, priority: bool, fs: Fs, env: Env)
    requires title in p.actions
    ensures var q := PriorityActions(SetActionPriority(p, title, priority, fs, env).0);
      && (title in q <==> priority)
      && (priority ==> q[title] == SetPriority(p.actions[title], priority, env.later))
      && forall t :: t != title ==> (t in q <==> t in PriorityActions(p)) && (t in q ==> q[t] == p.actions[t])
  {
  }

  /** Filtering by status partitions the project: every action is in exactly one status's list. */
  lemma StatusPartition(p: Project, s: Status, u: Status)
    ensures s != u ==> ActionsByStatus(p, s).Keys !! ActionsByStatus(p, u).Keys
    ensures forall t :: t in p.actions ==> t in ActionsByStatus(p, p.actions[t].status)
  {
  }

  /* ---------- meta-graphs ---------- */

  /**
   * `create_meta_graph`: the directory beside the action's file named by
   * its stem, created with its ancestors when nothing is there yet.
   */
  function CreateMetaGraph(p: Project, title: string, fs: Fs): (r: Result<(Path, Fs), Error>)
    ensures title !in p.actions ==> r == Err(ActionNotFound(title, p.name))
    ensures title in p.actions ==>
      var mg := MetaGraphPath(p.actions[title]);
      r.Ok? <==> Exists(fs, mg) || forall k :: 1 <= k <= |mg| ==> mg[..k] !in fs.files
    ensures r.Ok? ==> title in p.actions && r.value.0 == MetaGraphPath(p.actions[title])
    ensures r.Ok? && !Exists(fs, r.value.0) ==> r.value.1.dirs == fs.dirs + Ancestors(r.value.0)
    ensures r.Ok? && Exists(fs, r.value.0) ==> r.value.1 == fs
    ensures r.Ok? && |r.value.0| > 0 ==> Exists(r.value.1, r.value.0)
    ensures r.Ok? ==> r.value.1.files == fs.files && fs.dirs <= r.value.1.dirs
    ensures title in p.actions && r.Err? ==> r.error == IoFailure(MetaGraphPath(p.actions[title]))
  {
    if title !in p.actions then Err(ActionNotFound(title, p.name))
    else
      var mg := MetaGraphPath(p.actions[title]);
      if Exists(fs, mg) then Ok((mg, fs))
      else match CreateDirAll(fs, mg)
        case Ok(fs') =>
          SelfAncestor(mg);
          Ok((mg, fs'))
        case Err(e) => Err(e)
  }

  /** Creating a meta-graph twice is creating it once. */
  lemma CreateMetaGraphIdempotent(p: Project, title: string, fs: Fs)
    requires CreateMetaGraph(p, title, fs).Ok?
    requires |CreateMetaGraph(p, title, fs).value.0| > 0
    ensures var (mg, fs') := CreateMetaGraph(p, title, fs).value;
      CreateMetaGraph(p, title, fs') == Ok((mg, fs'))
  {
  }

  /** A created action's meta-graph directory is the project directory joined with the file stem. */
  lemma CreatedMetaGraph(p: Project, title: string, priority: bool, fs: Fs, env: Env)
    requires |title| > 0 && CreateAction(p, title, priority, fs, env).Ok?
    ensures var (p', _, _) := CreateAction(p, title, priority, fs, env).value;
      MetaGraphPath(p'.actions[title]) == p.path + [ActionStem(title)]
  {
    var a := CreateAction(p, title, priority, fs, env).value.2;
    MetaGraphOfMarkdownFile(a, p.path, ActionStem(title));
  }
}

=== FILE: status.dfy ===
/**
 * The seven-stage lifecycle of an action: parsing from text, display,
 * the `next`/`previous` partial functions and the per-stage list of
 * required outputs (src/status.rs).
 */
module StatusLifecycle {
  import opened Outcomes
  import opened Strings

  /** The stages, in declaration order. */
  datatype Status = Discovery | Design | Implement | Test | Document | Publish | Published

  datatype StatusError = InvalidStatus(input: string)

  /** Every stage, in lifecycle order. */
  const AllStatuses: seq<Status> := [Discovery, Design, Implement, Test, Document, Publish, Published]

  /** The position of a stage in the lifecycle. */
  function Rank(s: Status): (n: nat)
    ensures n < |AllStatuses| && AllStatuses[n] == s
  {
    match s
    case Discovery => 0
    case Design => 1
    case Implement => 2
    case Test => 3
    case Document => 4
    case Publish => 5
    case Published => 6
  }

  /** `Display`: the lowercase name of the stage. */
  function Display(s: Status): string {
    match s
    case Discovery => "discovery"
    case Design => "design"
    case Implement => "implement"
    case Test => "test"
    case Document => "document"
    case Publish => "publish"
    case Published => "published"
  }

  /** `Default`: a new or unreadable status is Discovery. */
  function DefaultStatus(): (s: Status)
    ensures Rank(s) == 0
  {
    Discovery
  }

  /**
   * `from_str`: the lowercased input must equal one stage's name; anything
   * else is an error that carries the input as it was given.
   */
  function FromStr(s: string): (r: Result<Status, StatusError>)
    ensures r.Ok? ==> ToLower(s) == Display(r.value)
    ensures r.Err? ==> r.error == InvalidStatus(s)
  {
    var l := ToLower(s);
    if l == "discovery" then Ok(Discovery)
    else if l == "design" then Ok(Design)
    else if l == "implement" then Ok(Implement)
    else if l == "test" then Ok(Test)
    else if l == "document" then Ok(Document)
    else if l == "publish" then Ok(Publish)
    else if l == "published" then Ok(Published)
    else Err(InvalidStatus(s))
  }

  /** `as_tag`: a hash sign before the lowercased display name. */
  function AsTag(s: Status): string {
    "#" + ToLower(Display(s))
  }

  function Next(s: Status): Option<Status> {
    match s
    case Discovery => Some(Design)
    case Design => Some(Implement)
    case Implement => Some(Test)
    case Test => Some(Document)
    case Document => Some(Publish)
    case Publish => Some(Published)
    case Published => None
  }

  function Previous(s: Status): Option<Status> {
    match s
    case Discovery => None
    case Design => Some(Discovery)
    case Implement => Some(Design)
    case Test => Some(Implement)
    case Document => Some(Test)
    case Publish => Some(Document)
    case Published => Some(Publish)
  }

  /** `required_outputs`: the section names a stage asks for. */
  function RequiredOutputs(s: Status): seq<string> {
    match s
    case Discovery =>
      ["Title", "Notes", "Statement of Action", "Statement of Inputs", "Statement of Specifications"]
    case Design => ["Statement of Design"]
    case Implement => []
    case Test => []
    case Document => ["Analysis of Impact"]
    case Publish => []
    case Published => []
  }

  /** The stages are listed once each and Rank is their index. */
  lemma RankIsIndex(s: Status, t: Status)
    ensures Rank(s) == Rank(t) <==> s == t
  {
  }

  /** Every display name is already lowercase, so `as_tag` is `#` before `Display`. */
  lemma DisplayIsLowercase(s: Status)
    ensures !HasUpper(Display(s))
    ensures AsTag(s) == "#" + Display(s)
  {
    assert !HasUpper(Display(s));
    ToLowerOfLower(Display(s));
  }

  /** Parsing a stage's display name gives the stage back. */
  lemma FromStrDisplay(s: Status)
    ensures FromStr(Display(s)) == Ok(s)
  {
    DisplayIsLowercase(s);
    assert ToLower(Display(s)) == Display(s);
    match s
    case Discovery =>
    case Design => assert "design" != "discovery" by { assert "design"[1] != "discovery"[1]; }
    case Implement =>
    case Test =>
    case Document => assert "document" != "discovery" by { assert "document"[1] != "discovery"[1]; }
    case Publish =>
    case Published => assert "published" != "publish" by { assert |"published"| != |"publish"|; }
  }

  /** Parsing succeeds exactly on the strings that lowercase to some stage's name. */
  lemma FromStrAccepts(s: string)
    ensures FromStr(s).Ok? <==> exists t :: ToLower(s) == Display(t)
  {
    if t :| ToLower(s) == Display(t) {
      FromStrDisplay(t);
      DisplayIsLowercase(t);
    }
  }

  /** Case does not matter: a string and its lowercase form parse to the same stage. */
  lemma FromStrCaseInsensitive(s: string)
    ensures FromStr(s).Ok? <==> FromStr(ToLower(s)).Ok?
    ensures FromStr(s).Ok? ==> FromStr(ToLower(s)) == FromStr(s)
    ensures FromStr(s).Err? ==> FromStr(s).error.input == s
  {
    ToLowerNoUpper(s);
  }

  /** `next` is undefined only at the end of the lifecycle, and then steps one rank up. */
  lemma NextStepsUp(s: Status)
    ensures Next(s).None? <==> s == Published
    ensures Next(s).Some? ==> Rank(Next(s).value) == Rank(s) + 1
  {
  }

  /** `previous` is undefined only at the start of the lifecycle, and then steps one rank down. */
  lemma PreviousStepsDown(s: Status)
    ensures Previous(s).None? <==> s == Discovery
    ensures Previous(s).Some? ==> Rank(Previous(s).value) + 1 == Rank(s)
  {
  }

  /** `next` and `previous` undo each other wherever they are defined. */
  lemma NextPreviousInverse(s: Status)
    ensures s != Discovery ==> Previous(s).Some? && Next(Previous(s).value) == Some(s)
    ensures s != Published ==> Next(s).Some? && Previous(Next(s).value) == Some(s)
  {
  }

  /** The stages visited by following `next` from `s` until it stops. */
  function Walk(s: Status): (w: seq<Status>)
    decreases |AllStatuses| - Rank(s)
  {
    match Next(s)
    case None => [s]
    case Some(t) =>
      NextStepsUp(s);
      [s] + Walk(t)
  }

  /** Following `next` from `s` visits the stages from `s` onwards, in declaration order. */
  lemma {:induction false} WalkIsSuffix(s: Status)
    ensures Walk(s) == AllStatuses[Rank(s)..]
    decreases |AllStatuses| - Rank(s)
  {
    match Next(s)
    case None =>
    case Some(t) =>
      NextStepsUp(s);
      WalkIsSuffix(t);
  }

  /** Following `next` from Discovery visits all seven stages once, in order, then stops. */
  lemma WalkFromDiscovery()
    ensures Walk(Discovery) == AllStatuses
    ensures |Walk(Discovery)| == 7
    ensures forall i, j :: 0 <= i < j < 7 ==> Walk(Discovery)[i] != Walk(Discovery)[j]
  {
    WalkIsSuffix(Discovery);
  }

  /** The required-outputs table, stated entry by entry. */
  lemma RequiredOutputsTable(s: Status)
    ensures s == Discovery ==> (
              && |RequiredOutputs(s)| == 5
              && "Title" in RequiredOutputs(s)
              && "Statement of Specifications" in RequiredOutputs(s)
              && "Notes" in RequiredOutputs(s)
              && "Statement of Action" in RequiredOutputs(s)
              && "Statement of Inputs" in RequiredOutputs(s))
    ensures s == Design ==> RequiredOutputs(s) == ["Statement of Design"]
    ensures s == Document ==> RequiredOutputs(s) == ["Analysis of Impact"]
    ensures s !in {Discovery, Design, Document} ==> RequiredOutputs(s) == []
  {
  }
}

=== FILE: strings.dfy ===
/**
 * The string operations the tracker borrows from Rust's `str`: `trim`,
 * `lines`, `starts_with`, `replace`, ASCII `to_lowercase`, and the byte-wise
 * ordering `cmp` uses. Strings are sequences of Unicode scalar values.
 */
module Strings {

  /** Rust's `char::is_whitespace`: the Unicode White_Space property. */
  predicate IsWhitespace(c: char) {
    || c == '\t' || c == '\n' || c == '\U{B}' || c == '\U{C}' || c == '\r' || c == ' '
    || c == '\U{85}' || c == '\U{A0}' || c == '\U{1680}'
    || ('\U{2000}' <= c <= '\U{200A}')
    || c == '\U{2028}' || c == '\U{2029}' || c == '\U{202F}' || c == '\U{205F}'
    || c == '\U{3000}'
  }

  predicate AllWhitespace(s: string) {
    forall i :: 0 <= i < |s| ==> IsWhitespace(s[i])
  }

  /** `str::trim_start`: drops the leading whitespace and nothing else. */
  function TrimStart(s: string): (r: string)
    ensures |r| <= |s| && r == s[|s| - |r|..]
    ensures AllWhitespace(s[..|s| - |r|])
    ensures |r| > 0 ==> !IsWhitespace(r[0])
  {
    if |s| > 0 && IsWhitespace(s[0]) then TrimStart(s[1..]) else s
  }

  /** `str::trim_end`: drops the trailing whitespace and nothing else. */
  function TrimEnd(s: string): (r: string)
    ensures |r| <= |s| && r == s[..|r|]
    ensures AllWhitespace(s[|r|..])
    ensures |r| > 0 ==> !IsWhitespace(r[|r| - 1])
  {
    if |s| > 0 && IsWhitespace(s[|s| - 1]) then TrimEnd(s[..|s| - 1]) else s
  }

  /** `str::trim`: the longest infix that neither starts nor ends with whitespace. */
  function Trim(s: string): (r: string)
    ensures |r| <= |s|
    ensures |r| > 0 ==> !IsWhitespace(r[0]) && !IsWhitespace(r[|r| - 1])
  {
    TrimEnd(TrimStart(s))
  }

  /** Trimming leaves nothing exactly when the string is all whitespace. */
  lemma TrimEmpty(s: string)
    ensures Trim(s) == "" <==> AllWhitespace(s)
  {
    var t := TrimStart(s);
    assert s == s[..|s| - |t|] + t;
    if Trim(s) == "" {
      assert t == t[0..];
    }
  }

  /** A string that starts with a non-whitespace character keeps that character first when trimmed. */
  lemma TrimKeepsHead(s: string)
    requires |s| > 0 && !IsWhitespace(s[0])
    ensures |Trim(s)| > 0 && Trim(s)[0] == s[0]
  {
    assert TrimStart(s) == s;
  }

  lemma {:induction false} TrimStartPadded(w: string, c: string)
    requires AllWhitespace(w)
    requires |c| == 0 || !IsWhitespace(c[0])
    ensures TrimStart(w + c) == c
    decreases |w|
  {
    if |w| == 0 {
      assert w + c == c;
    } else {
      assert (w + c)[1..] == w[1..] + c;
      TrimStartPadded(w[1..], c);
    }
  }

  lemma {:induction false} TrimEndPadded(c: string, w: string)
    requires AllWhitespace(w)
    requires |c| == 0 || !IsWhitespace(c[|c| - 1])
    ensures TrimEnd(c + w) == c
    decreases |w|
  {
    if |w| == 0 {
      assert c + w == c;
    } else {
      assert (c + w)[..|c + w| - 1] == c + w[..|w| - 1];
      TrimEndPadded(c, w[..|w| - 1]);
    }
  }

  /** Trimming undoes whitespace padding around an already trimmed string. */
  lemma TrimPadded(w1: string, c: string, w2: string)
    requires AllWhitespace(w1) && AllWhitespace(w2)
    requires Trim(c) == c
    ensures Trim(w1 + c + w2) == c
  {
    if |c| == 0 {
      assert AllWhitespace(w1 + c + w2);
      TrimEmpty(w1 + c + w2);
    } else {
      assert w1 + c + w2 == w1 + (c + w2);
      TrimStartPadded(w1, c + w2);
      TrimEndPadded(c, w2);
    }
  }

  lemma {:induction false} TrimStartSkip(w: string, c: string)
    requires AllWhitespace(w)
    ensures TrimStart(w + c) == TrimStart(c)
    decreases |w|
  {
    if |w| == 0 {
      assert w + c == c;
    } else {
      assert (w + c)[1..] == w[1..] + c;
      TrimStartSkip(w[1..], c);
    }
  }

  lemma {:induction false} TrimEndSkip(c: string, w: string)
    requires AllWhitespace(w)
    ensures TrimEnd(c + w) == TrimEnd(c)
    decreases |w|
  {
    if |w| == 0 {
      assert c + w == c;
    } else {
      assert (c + w)[..|c + w| - 1] == c + w[..|w| - 1];
      TrimEndSkip(c, w[..|w| - 1]);
    }
  }

  /** Whitespace around a string makes no difference to its trim. */
  lemma {:induction false} TrimAbsorbs(w1: string, c: string, w2: string)
    requires AllWhitespace(w1) && AllWhitespace(w2)
    ensures Trim(w1 + c + w2) == Trim(c)
  {
    assert w1 + c + w2 == w1 + (c + w2);
    TrimStartSkip(w1, c + w2);
    TrimTrailing(c, w2);
  }

  lemma {:induction false} TrimTrailing(c: string, w: string)
    requires AllWhitespace(w)
    ensures TrimEnd(TrimStart(c + w)) == TrimEnd(TrimStart(c))
  {
    var t := TrimStart(c);
    var u := c[..|c| - |t|];
    assert AllWhitespace(u);
    assert c + w == u + (t + w) by { assert c == u + t; }
    TrimStartSkip(u, t + w);
    if |t| == 0 {
      TrimTrailingBlank(t, w);
    } else {
      TrimTrailingWord(t, w);
    }
  }

  lemma TrimTrailingBlank(t: string, w: string)
    requires |t| == 0 && AllWhitespace(w)
    ensures TrimEnd(TrimStart(t + w)) == TrimEnd(t)
  {
    assert t + w == w + t;
    TrimStartSkip(w, t);
  }

  lemma {:induction false} TrimTrailingWord(t: string, w: string)
    requires |t| > 0 && !IsWhitespace(t[0]) && AllWhitespace(w)
    ensures TrimEnd(TrimStart(t + w)) == TrimEnd(t)
  {
    assert (t + w)[0] == t[0];
    assert TrimStart(t + w) == t + w;
    TrimEndSkip(t, w);
  }

  /** Trimming the end first changes nothing. */
  lemma TrimAfterTrimEnd(s: string)
    ensures Trim(TrimEnd(s)) == Trim(s)
  {
    var r := TrimEnd(s);
    assert s == "" + r + s[|r|..];
    TrimAbsorbs("", r, s[|r|..]);
  }

  /** Trimming stops at a non-whitespace character. */
  lemma {:induction false} TrimEndAfter(p: string, y: string)
    requires |p| > 0 && !IsWhitespace(p[|p| - 1])
    ensures TrimEnd(p + y) == p + TrimEnd(y)
    decreases |y|
  {
    if |y| == 0 {
      assert p + y == p;
    } else if IsWhitespace(y[|y| - 1]) {
      assert (p + y)[..|p + y| - 1] == p + y[..|y| - 1];
      TrimEndAfter(p, y[..|y| - 1]);
    }
  }

  predicate StartsWith(s: string, prefix: string) {
    |prefix| <= |s| && s[..|prefix|] == prefix
  }

  /** The index of the first occurrence of `c` in `s`. */
  function FirstIndex(s: string, c: char): (k: nat)
    requires c in s
    ensures k < |s| && s[k] == c && c !in s[..k]
  {
    if s[0] == c then 0 else
      assert c in s[1..] by { var j :| 0 <= j < |s| && s[j] == c; assert s[1..][j - 1] == c; }
      1 + FirstIndex(s[1..], c)
  }

  /**
   * The pieces of `s` between newline characters: one more piece than there
   * are newlines, each free of newlines.
   */
  function Split(s: string): (r: seq<string>)
    ensures |r| >= 1
    ensures forall i :: 0 <= i < |r| ==> '\n' !in r[i]
    decreases |s|
  {
    if '\n' in s then
      var k := FirstIndex(s, '\n');
      [s[..k]] + Split(s[k + 1..])
    else
      [s]
  }

  predicate NoNewline(ls: seq<string>) {
    forall i :: 0 <= i < |ls| ==> '\n' !in ls[i]
  }

  /** A character in neither part is not in their concatenation. */
  lemma CharNotInConcat(c: char, a: string, b: string)
    requires c !in a && c !in b
    ensures c !in a + b
  {
    forall i | 0 <= i < |a + b| ensures (a + b)[i] != c {
      if i < |a| { assert (a + b)[i] == a[i]; } else { assert (a + b)[i] == b[i - |a|]; }
    }
  }

  lemma NoNewlineConcat(a: seq<string>, b: seq<string>)
    requires NoNewline(a) && NoNewline(b)
    ensures NoNewline(a + b)
  {
    forall i | 0 <= i < |a + b| ensures '\n' !in (a + b)[i] {
      if i >= |a| { assert (a + b)[i] == b[i - |a|]; }
    }
  }

  predicate EndsInCr(x: string) {
    |x| > 0 && x[|x| - 1] == '\r'
  }

  /** The line terminator `\r\n` counts as one: a carriage return just before a newline is dropped. */
  function StripCr(x: string): (r: string)
    ensures !EndsInCr(x) ==> r == x
    ensures EndsInCr(x) ==> x == r + "\r"
  {
    if EndsInCr(x) then x[..|x| - 1] else x
  }

  function StripCrs(ls: seq<string>): (r: seq<string>)
    ensures |r| == |ls| && forall i :: 0 <= i < |ls| ==> r[i] == StripCr(ls[i])
  {
    seq(|ls|, i requires 0 <= i < |ls| => StripCr(ls[i]))
  }

  predicate NoCrEnds(ls: seq<string>) {
    forall i :: 0 <= i < |ls| ==> !EndsInCr(ls[i])
  }

  /**
   * Rust's `str::lines`: the pieces between newlines, each with a `\r` just
   * before its newline removed; the last piece keeps a trailing `\r` and is
   * no line at all when it is empty.
   */
  function Lines(s: string): (r: seq<string>)
    ensures NoNewline(r)
    decreases |s|
  {
    if '\n' in s then
      var k := FirstIndex(s, '\n');
      [StripCr(s[..k])] + Lines(s[k + 1..])
    else if s == "" then []
    else [s]
  }

  /** A newline-free first line is split off, losing a carriage return before its newline. */
  lemma LinesCons(x: string, y: string)
    requires '\n' !in x
    ensures Lines(x + "\n" + y) == [StripCr(x)] + Lines(y)
  {
    var s := x + "\n" + y;
    assert s[|x|] == '\n';
    var k := FirstIndex(s, '\n');
    assert k == |x|;
    assert s[..k] == x;
    assert s[k + 1..] == y;
  }

  /** Each line followed by a newline: the layout every serialiser here writes. */
  function Unlines(ls: seq<string>): string {
    if |ls| == 0 then "" else ls[0] + "\n" + Unlines(ls[1..])
  }

  lemma {:induction false} UnlinesAppend(a: seq<string>, b: seq<string>)
    ensures Unlines(a + b) == Unlines(a) + Unlines(b)
    decreases |a|
  {
    if |a| == 0 {
      assert a + b == b;
    } else {
      assert (a + b)[1..] == a[1..] + b;
      UnlinesAppend(a[1..], b);
    }
  }

  lemma SplitCons(x: string, y: string)
    requires '\n' !in x
    ensures Split(x + "\n" + y) == [x] + Split(y)
  {
    var s := x + "\n" + y;
    assert s[|x|] == '\n';
    var k := FirstIndex(s, '\n');
    assert k == |x|;
    assert s[..k] == x;
    assert s[k + 1..] == y;
  }

  /** Splitting text written by `Unlines` gives back its lines and one empty tail piece. */
  lemma {:induction false} SplitUnlines(ls: seq<string>)
    requires NoNewline(ls)
    ensures Split(Unlines(ls)) == ls + [""]
    decreases |ls|
  {
    if |ls| == 0 {
      assert '\n' !in "";
    } else {
      var t := ls[1..];
      NoNewlineTail(ls);
      SplitUnlines(t);
      assert [ls[0]] + t == ls;
      SplitStep(ls[0], Unlines(t), t);
    }
  }

  lemma NoNewlineTail(ls: seq<string>)
    requires |ls| > 0 && NoNewline(ls)
    ensures NoNewline(ls[1..]) && '\n' !in ls[0]
    ensures Unlines(ls) == ls[0] + "\n" + Unlines(ls[1..])
  {
    var t := ls[1..];
    forall i | 0 <= i < |t| ensures '\n' !in t[i] { assert t[i] == ls[i + 1]; }
  }

  lemma SplitStep(x: string, u: string, t: seq<string>)
    requires '\n' !in x && Split(u) == t + [""]
    ensures Split(x + "\n" + u) == [x] + t + [""]
  {
    SplitCons(x, u);
  }

  /** `lines` undoes writing each line followed by a newline, up to a carriage return at a line's end. */
  lemma {:induction false} LinesUnlines(ls: seq<string>)
    requires NoNewline(ls)
    ensures Lines(Unlines(ls)) == StripCrs(ls)
    decreases |ls|
  {
    if |ls| > 0 {
      NoNewlineTail(ls);
      LinesCons(ls[0], Unlines(ls[1..]));
      LinesUnlines(ls[1..]);
      StripCrsCons(ls);
    }
  }

  /** Lines written ahead of any text are read back before that text's own lines. */
  lemma {:induction false} LinesPrefix(ls: seq<string>, rest: string)
    requires NoNewline(ls)
    ensures Lines(Unlines(ls) + rest) == StripCrs(ls) + Lines(rest)
    decreases |ls|
  {
    if |ls| > 0 {
      var x, t := ls[0], ls[1..];
      NoNewlineTail(ls);
      ConsAppend(x, Unlines(t), rest);
      LinesCons(x, Unlines(t) + rest);
      LinesPrefix(t, rest);
      StripCrsCons(ls);
      ConsSeqAppend(StripCr(x), StripCrs(t), Lines(rest));
    } else {
      assert Unlines(ls) + rest == rest;
    }
  }

  lemma ConsAppend(x: string, u: string, rest: string)
    ensures x + "\n" + u + rest == x + "\n" + (u + rest)
  {
  }

  lemma ConsSeqAppend(x: string, t: seq<string>, u: seq<string>)
    ensures [x] + (t + u) == [x] + t + u
  {
  }

  lemma StripCrsCons(ls: seq<string>)
    requires |ls| > 0
    ensures StripCrs(ls) == [StripCr(ls[0])] + StripCrs(ls[1..])
  {
    var r := [StripCr(ls[0])] + StripCrs(ls[1..]);
    forall i | 0 <= i < |ls| ensures StripCrs(ls)[i] == r[i] {
      if i > 0 { assert r[i] == StripCrs(ls[1..])[i - 1]; }
    }
  }

  /** Without a carriage return at any line's end, `lines` gives back exactly the lines written. */
  lemma LinesUnlinesExact(ls: seq<string>)
    requires NoNewline(ls) && NoCrEnds(ls)
    ensures Lines(Unlines(ls)) == ls
  {
    LinesUnlines(ls);
  }

  lemma NoCrEndsConcat(a: seq<string>, b: seq<string>)
    requires NoCrEnds(a) && NoCrEnds(b)
    ensures NoCrEnds(a + b)
  {
    forall i | 0 <= i < |a + b| ensures !EndsInCr((a + b)[i]) {
      if i >= |a| { assert (a + b)[i] == b[i - |a|]; }
    }
  }

  lemma StripCrsAppend(a: seq<string>, b: seq<string>)
    ensures StripCrs(a + b) == StripCrs(a) + StripCrs(b)
  {
  }

  lemma TrimDropsLast(y: string, w: string)
    requires AllWhitespace(w)
    ensures Trim(y + w) == Trim(y)
  {
    assert AllWhitespace("");
    TrimAbsorbs("", y, w);
    assert "" + y + w == y + w;
  }

  /** A carriage return at the end is whitespace: trimming does not see it. */
  lemma TrimStripCr(x: string)
    ensures Trim(StripCr(x)) == Trim(x)
  {
    if EndsInCr(x) {
      TrimDropsLast(StripCr(x), "\r");
    }
  }

  /** Writing the pieces of `c` one per line reproduces `c` and a final newline. */
  lemma {:induction false} UnlinesSplit(c: string)
    ensures Unlines(Split(c)) == c + "\n"
    decreases |c|
  {
    if '\n' in c {
      var k := FirstIndex(c, '\n');
      var rest := Split(c[k + 1..]);
      var p := [c[..k]] + rest;
      assert Split(c) == p;
      assert p[0] == c[..k] && p[1..] == rest;
      assert Unlines(p) == c[..k] + "\n" + Unlines(rest);
      UnlinesSplit(c[k + 1..]);
      assert c == c[..k] + "\n" + c[k + 1..];
    } else {
      assert Split(c) == [c];
      assert [c][1..] == [];
    }
  }

  predicate IsUpper(c: char) { 'A' <= c <= 'Z' }

  /** ASCII lowercasing; every other character is left as it is. */
  function LowerChar(c: char): char {
    if IsUpper(c) then (c as int + 32) as char else c
  }

  function ToLower(s: string): (r: string)
    ensures |r| == |s|
    ensures forall i :: 0 <= i < |s| ==> r[i] == LowerChar(s[i])
  {
    seq(|s|, i requires 0 <= i < |s| => LowerChar(s[i]))
  }

  predicate HasUpper(s: string) {
    exists i :: 0 <= i < |s| && IsUpper(s[i])
  }

  lemma ToLowerNoUpper(s: string)
    ensures !HasUpper(ToLower(s))
    ensures ToLower(ToLower(s)) == ToLower(s)
  {
  }

  lemma ToLowerOfLower(s: string)
    requires !HasUpper(s)
    ensures ToLower(s) == s
  {
  }

  /** `str::replace` of one character by another. */
  function ReplaceChar(s: string, from: char, to: char): (r: string)
    ensures |r| == |s|
    ensures forall i :: 0 <= i < |s| ==> r[i] == (if s[i] == from then to else s[i])
  {
    seq(|s|, i requires 0 <= i < |s| => if s[i] == from then to else s[i])
  }

  /**
   * Rust's `Ord` on `str`: lexicographic on UTF-8 bytes, which is the same
   * as lexicographic on code points.
   */
  predicate LexLe(a: string, b: string) {
    |a| == 0 || (|b| > 0 && (a[0] < b[0] || (a[0] == b[0] && LexLe(a[1..], b[1..]))))
  }

  lemma {:induction false} LexLeTotal(a: string, b: string)
    ensures LexLe(a, b) || LexLe(b, a)
    decreases |a|
  {
    if |a| > 0 && |b| > 0 && a[0] == b[0] {
      LexLeTotal(a[1..], b[1..]);
    }
  }

  lemma {:induction false} LexLeTrans(a: string, b: string, c: string)
    requires LexLe(a, b) && LexLe(b, c)
    ensures LexLe(a, c)
    decreases |a|
  {
    if |a| > 0 && a[0] == b[0] && b[0] == c[0] {
      LexLeTrans(a[1..], b[1..], c[1..]);
    }
  }

  lemma {:induction false} LexLeAntisym(a: string, b: string)
    requires LexLe(a, b) && LexLe(b, a)
    ensures a == b
    decreases |a|
  {
    if |a| > 0 {
      LexLeAntisym(a[1..], b[1..]);
      assert a == [a[0]] + a[1..];
      assert b == [b[0]] + b[1..];
    }
  }
}

=== FILE: template.dfy ===
/**
 * The action template (src/template.rs): a fresh template is always in
 * Discovery, and its markdown carries a fixed set of hint sections that
 * grows with the status. The template's text is read back by the same
 * parser as an action's, through the framed layout.
 */
module Template {
  import opened Outcomes
  import opened Strings
  import opened StatusLifecycle
  import opened Parser
  import opened ParserLaws
  import opened Layout
  import opened Host
  import opened Actions
  import opened ActionLaws

  datatype ActionTemplate = ActionTemplate(
    id: string,
    title: string,
    project: string,
    status: Status,
    priority: bool,
    createdAt: nat)

  /** `ActionTemplate::new`: a fresh id, the current time, and always Discovery. */
  function NewTemplate(project: string, title: string, priority: bool, env: Env): (t: ActionTemplate)
    ensures t.status == Discovery
    ensures t.title == title && t.project == project && t.priority == priority
    ensures t.id == env.freshId && t.createdAt == env.now
  {
    ActionTemplate(env.freshId, title, project, Discovery, priority, env.now)
  }

  /* ---------- the hint texts ---------- */

  const NotesHint: string := "General notes on the task"
  const ActionHint: string :=
    "The task to be performed, " + "more in depth than title, " + "may include why the action " + "is needed"
  const InputsIntro: string := "A list of .md links " + "to other markdown files:"
  const InputsLink: string := "- [Related Action]" + "(../other-project/" + "related-action.md)"
  const DesignOutput: string := "The action produced " + "by the design"
  const DesignDetail: string := "A detailed design " + "for how to proceed"
  const ImpactHint: string := "Analysis of the impact " + "and outcomes of this action"

  /** The Inputs hint: an introduction, a blank line, an example link. */
  function InputsHint(): string {
    InputsIntro + "\n\n" + InputsLink
  }

  /** The Design hint: two `### ` sub-headings, each followed by a line of explanation. */
  function DesignHint(): string {
    "### Output" + "\n\n" + DesignOutput + "\n\n" + "### Design" + "\n\n" + DesignDetail
  }

  /** The Design section is written for every status but Discovery. */
  predicate HasDesign(s: Status) {
    s != Discovery
  }

  /** The Impact section is written from Document on. */
  predicate HasImpact(s: Status) {
    s == Status.Document || s == Publish || s == Published
  }

  /* ---------- the writer ---------- */

  /** The template's tag line: `#action` is inserted and the status comes before the project slug. */
  function TemplateTagLine(t: ActionTemplate): string {
    "#project #action #" + Display(t.status) + " #" + Slug(t.project) + (if t.priority then " #priority" else "")
  }

  /** `ActionTemplate::to_markdown`: `updated_at` is written from the creation time. */
  function TemplateMarkdown(t: ActionTemplate, env: Env): string {
    "---\n"
    + "id: " + t.id + "\n"
    + "created_at: " + env.rfc3339(t.createdAt) + "\n"
    + "updated_at: " + env.rfc3339(t.createdAt) + "\n"
    + "---\n\n"
    + "# " + t.title + "\n\n"
    + TemplateTagLine(t) + "\n\n"
    + "## Notes\n\n" + NotesHint + "\n\n"
    + "## Statement of Action\n\n" + ActionHint + "\n\n"
    + "## Statement of Inputs\n\n" + InputsHint() + "\n\n"
    + (if HasDesign(t.status) then "## Statement of Design\n\n" + DesignHint() + "\n\n" else "")
    + (if HasImpact(t.status) then "## Analysis of Impact\n\n" + ImpactHint + "\n\n" else "")
  }

  const ReadmeIntro: string := "This is a project directory " + "in the Action Lite workspace."
  const ReadmeActions: string :=
    "Actions for this project " + "are stored as markdown files " + "in this directory."
  const ReadmeMetaGraphs: string :=
    "Meta-graph directories " + "(if any) are stored " + "alongside their corresponding " + "action files."

  /** `get_project_readme`: a title line naming the project, an introduction and two sections. */
  function ProjectReadme(name: string): (r: string)
    ensures StartsWith(r, "# " + name + "\n\n")
  {
    "# " + name + "\n\n"
    + ReadmeIntro + "\n\n"
    + "## Actions" + "\n\n" + ReadmeActions + "\n\n"
    + "## Meta-graphs" + "\n\n" + ReadmeMetaGraphs + "\n"
  }

  /* ---------- the template as an action ---------- */

  /** The action whose fields and sections are exactly what the template writes. */
  function Prefilled(t: ActionTemplate): Action {
    Action(t.id, t.title, t.project, t.status, t.priority, t.createdAt, t.createdAt, [],
           Some(NotesHint), Some(ActionHint), Some(InputsHint()),
           if HasDesign(t.status) then Some(DesignHint()) else None,
           if HasImpact(t.status) then Some(ImpactHint) else None)
  }

  function TemplatePreamble(t: ActionTemplate): seq<string> {
    ["", "# " + t.title, "", TemplateTagLine(t), ""]
  }

  /* ---------- the hints read back verbatim ---------- */

  lemma HeaderFreeLine(x: string)
    requires '\n' !in x && !IsHeader(x)
    ensures HeaderFree(x)
  {
    assert Split(x) == [x];
  }

  lemma HeaderFreeCons(x: string, y: string)
    requires '\n' !in x && !IsHeader(x) && HeaderFree(y)
    ensures HeaderFree(x + "\n" + y)
  {
    SplitCons(x, y);
    assert NoHeaders([x]);
    NoHeadersConcat([x], Split(y));
  }

  /** A first paragraph line, a blank line, then header-free text: still header-free. */
  lemma HeaderFreePara(x: string, y: string)
    requires '\n' !in x && !IsHeader(x) && HeaderFree(y)
    ensures HeaderFree(x + "\n\n" + y)
  {
    assert !IsHeader("");
    HeaderFreeCons("", y);
    HeaderFreeCons(x, "" + "\n" + y);
    assert x + "\n\n" + y == x + "\n" + ("" + "\n" + y);
  }

  /** A single line the parser keeps as written: not a header, no surrounding whitespace. */
  predicate HintLine(x: string) {
    && |x| > 0 && '\n' !in x && !IsHeader(x)
    && !IsWhitespace(x[0]) && !IsWhitespace(x[|x| - 1])
  }

  /** Text the parser keeps as written: header-free, no `\r\n`, no surrounding whitespace. */
  predicate HintText(h: string) {
    |h| > 0 && HeaderFree(h) && CrlfFree(h) && !IsWhitespace(h[0]) && !IsWhitespace(h[|h| - 1])
  }

  lemma LineIsText(x: string)
    requires HintLine(x)
    ensures HintText(x)
  {
    HeaderFreeLine(x);
    CrlfFreePara(x, "");
  }

  lemma TextOk(h: string)
    requires HintText(h)
    ensures SectionOk(Some(h))
  {
    TrimmedEnds(h);
  }

  /** A hint line, a blank line, then hint text: again hint text. */
  lemma ParaText(x: string, y: string)
    requires HintLine(x) && HintText(y)
    ensures HintText(x + "\n\n" + y)
  {
    var h := x + "\n\n" + y;
    HeaderFreePara(x, y);
    CrlfFreePara(x, y);
    assert h[0] == x[0];
    assert h[|h| - 1] == y[|y| - 1];
  }

  lemma PlainLine(x: string)
    requires |x| >= 2 && x[1] != '#' && '\n' !in x
    requires !IsWhitespace(x[0]) && !IsWhitespace(x[|x| - 1])
    ensures HintLine(x)
  {
    NotHeader(x);
  }

  lemma SubHeading(x: string)
    requires |x| >= 3 && x[2] == '#' && '\n' !in x
    requires !IsWhitespace(x[0]) && !IsWhitespace(x[|x| - 1])
    ensures HintLine(x)
  {
    assert x[..3][2] == '#';
  }

  lemma NotesLine() ensures HintLine(NotesHint) { PlainLine(NotesHint); }
  lemma ActionLine() ensures HintLine(ActionHint) {
    ActionFirstHalf();
    ActionSecondHalf();
    LineConcat("The task to be performed, " + "more in depth than title, ", "may include why the action " + "is needed");
  }

  lemma ActionFirstHalf()
    ensures '\n' !in "The task to be performed, " + "more in depth than title, "
  {
    CharNotInConcat('\n', "The task to be performed, ", "more in depth than title, ");
  }

  lemma ActionSecondHalf()
    ensures '\n' !in "may include why the action " + "is needed"
  {
    CharNotInConcat('\n', "may include why the action ", "is needed");
  }

  /** Two header-free pieces, the first starting and the second ending in a visible character, make one hint line. */
  lemma LineConcat(a: string, b: string)
    requires |a| >= 2 && a[1] != '#' && '\n' !in a && !IsWhitespace(a[0])
    requires |b| > 0 && '\n' !in b && !IsWhitespace(b[|b| - 1])
    ensures HintLine(a + b)
  {
    CharNotInConcat('\n', a, b);
    assert (a + b)[1] == a[1] && (a + b)[0] == a[0] && (a + b)[|a + b| - 1] == b[|b| - 1];
    PlainLine(a + b);
  }
  lemma ImpactLine() ensures HintLine(ImpactHint) { PlainLine(ImpactHint); }
  lemma IntroLine() ensures HintLine(InputsIntro) { PlainLine(InputsIntro); }
  lemma LinkLine() ensures HintLine(InputsLink) { PlainLine(InputsLink); }
  lemma OutputLine() ensures HintLine(DesignOutput) { PlainLine(DesignOutput); }
  lemma DetailLine() ensures HintLine(DesignDetail) { PlainLine(DesignDetail); }

  lemma InputsHintOk()
    ensures SectionOk(Some(InputsHint()))
  {
    IntroLine();
    LinkLine();
    LineIsText(InputsLink);
    ParaText(InputsIntro, InputsLink);
    TextOk(InputsHint());
  }

  /** The `### ` sub-headings are not `## ` headers: the whole Design hint is one section body. */
  lemma DesignHintOk()
    ensures SectionOk(Some(DesignHint()))
  {
    var o, d := "### Output", "### Design";
    SubHeading(o);
    SubHeading(d);
    OutputLine();
    DetailLine();
    LineIsText(DesignDetail);
    ParaText(d, DesignDetail);
    ParaText(DesignOutput, d + "\n\n" + DesignDetail);
    ParaText(o, DesignOutput + "\n\n" + (d + "\n\n" + DesignDetail));
    Assoc4(o, DesignOutput, d, DesignDetail);
    TextOk(DesignHint());
  }

  lemma Assoc4(a: string, b: string, c: string, d: string)
    ensures a + "\n\n" + b + "\n\n" + c + "\n\n" + d == a + "\n\n" + (b + "\n\n" + (c + "\n\n" + d))
  {
  }

  lemma NotesHintOk()
    ensures SectionOk(Some(NotesHint))
  {
    NotesLine();
    LineIsText(NotesHint);
    TextOk(NotesHint);
  }

  lemma ActionHintOk()
    ensures SectionOk(Some(ActionHint))
  {
    ActionLine();
    LineIsText(ActionHint);
    TextOk(ActionHint);
  }

  lemma ImpactHintOk()
    ensures SectionOk(Some(ImpactHint))
  {
    ImpactLine();
    LineIsText(ImpactHint);
    TextOk(ImpactHint);
  }

  /** Every hint the template writes is trimmed and header-free, so the parser stores it unchanged. */
  lemma PrefilledSectionsOk(t: ActionTemplate)
    ensures SectionsOk(Prefilled(t))
  {
    var a := Prefilled(t);
    NotesHintOk();
    ActionHintOk();
    InputsHintOk();
    OptionalHintsOk(t);
  }

  lemma OptionalHintsOk(t: ActionTemplate)
    ensures SectionOk(Prefilled(t).statementOfDesign) && SectionOk(Prefilled(t).analysisOfImpact)
  {
    DesignFieldOk(t);
    ImpactFieldOk(t);
  }

  lemma DesignFieldOk(t: ActionTemplate)
    ensures SectionOk(Prefilled(t).statementOfDesign)
  {
    DesignHintOk();
    OptionalHintOk(HasDesign(t.status), DesignHint());
  }

  lemma ImpactFieldOk(t: ActionTemplate)
    ensures SectionOk(Prefilled(t).analysisOfImpact)
  {
    ImpactHintOk();
    OptionalHintOk(HasImpact(t.status), ImpactHint);
  }

  /** A section that is either absent or the hint `h` reads back when `h` does. */
  lemma OptionalHintOk(present: bool, h: string)
    requires SectionOk(Some(h))
    ensures SectionOk(if present then Some(h) else None)
  {
  }

  /* ---------- the template's text has the framed layout ---------- */

  lemma TemplateHead(t: ActionTemplate, env: Env)
    ensures Unlines([Fence] + FrontLines(Prefilled(t), env) + [Fence] + TemplatePreamble(t))
         == "---\n"
          + "id: " + t.id + "\n"
          + "created_at: " + env.rfc3339(t.createdAt) + "\n"
          + "updated_at: " + env.rfc3339(t.createdAt) + "\n"
          + "---\n\n"
          + "# " + t.title + "\n\n"
          + TemplateTagLine(t) + "\n\n"
  {
    var front := FrontLines(Prefilled(t), env);
    var pre := TemplatePreamble(t);
    HeadPieces(front, pre);
    Unlines3(front[0], front[1], front[2]);
    Unlines5(pre[0], pre[1], pre[2], pre[3], pre[4]);
    var c := env.rfc3339(t.createdAt);
    Regroup(t.id, c, c, t.title, TemplateTagLine(t));
  }

  lemma HintSection(name: string, c: string, header: string)
    requires header == HeaderMark + name + "\n\n"
    ensures SectionText(name, Some(c)) == header + c + "\n\n"
  {
  }

  lemma OptionalHintSection(name: string, c: string, header: string, present: bool)
    requires header == HeaderMark + name + "\n\n"
    ensures SectionText(name, if present then Some(c) else None) == (if present then header + c + "\n\n" else "")
  {
  }

  /** The sections of the prefilled action are written exactly as the template writes its hints. */
  lemma TemplateBody(t: ActionTemplate)
    ensures SectionsText(Prefilled(t), 0)
         == ("## Notes\n\n" + NotesHint + "\n\n")
          + ("## Statement of Action\n\n" + ActionHint + "\n\n")
          + ("## Statement of Inputs\n\n" + InputsHint() + "\n\n")
          + (if HasDesign(t.status) then "## Statement of Design\n\n" + DesignHint() + "\n\n" else "")
          + (if HasImpact(t.status) then "## Analysis of Impact\n\n" + ImpactHint + "\n\n" else "")
  {
    var a := Prefilled(t);
    var h1, h2, h3 := "## Notes\n\n", "## Statement of Action\n\n", "## Statement of Inputs\n\n";
    var h4, h5 := "## Statement of Design\n\n", "## Analysis of Impact\n\n";
    HeaderTexts();
    BodyOf(a, h1, h2, h3, h4, h5, NotesHint, ActionHint, InputsHint(), DesignHint(), ImpactHint,
      HasDesign(t.status), HasImpact(t.status));
  }

  /** The header lines the template spells out are the writer's headers of the five sections. */
  lemma HeaderTexts()
    ensures "## Notes\n\n" == HeaderMark + SectionNames[0] + "\n\n"
    ensures "## Statement of Action\n\n" == HeaderMark + SectionNames[1] + "\n\n"
    ensures "## Statement of Inputs\n\n" == HeaderMark + SectionNames[2] + "\n\n"
    ensures "## Statement of Design\n\n" == HeaderMark + SectionNames[3] + "\n\n"
    ensures "## Analysis of Impact\n\n" == HeaderMark + SectionNames[4] + "\n\n"
  {
    NotesHeader();
    ActionHeader();
    InputsHeader();
    DesignHeader();
    ImpactHeader();
  }

  lemma NotesHeader() ensures "## Notes\n\n" == HeaderMark + SectionNames[0] + "\n\n" { }
  lemma ActionHeader() ensures "## Statement of Action\n\n" == HeaderMark + SectionNames[1] + "\n\n" { }
  lemma InputsHeader() ensures "## Statement of Inputs\n\n" == HeaderMark + SectionNames[2] + "\n\n" { }
  lemma DesignHeader() ensures "## Statement of Design\n\n" == HeaderMark + SectionNames[3] + "\n\n" { }
  lemma ImpactHeader() ensures "## Analysis of Impact\n\n" == HeaderMark + SectionNames[4] + "\n\n" { }

  lemma BodyOf(a: Action, h1: string, h2: string, h3: string, h4: string, h5: string,
               x1: string, x2: string, x3: string, x4: string, x5: string, p4: bool, p5: bool)
    requires h1 == HeaderMark + SectionNames[0] + "\n\n" && h2 == HeaderMark + SectionNames[1] + "\n\n"
    requires h3 == HeaderMark + SectionNames[2] + "\n\n" && h4 == HeaderMark + SectionNames[3] + "\n\n"
    requires h5 == HeaderMark + SectionNames[4] + "\n\n"
    requires a.notes == Some(x1) && a.statementOfAction == Some(x2) && a.statementOfInputs == Some(x3)
    requires a.statementOfDesign == (if p4 then Some(x4) else None)
    requires a.analysisOfImpact == (if p5 then Some(x5) else None)
    ensures SectionsText(a, 0)
         == (h1 + x1 + "\n\n") + (h2 + x2 + "\n\n") + (h3 + x3 + "\n\n")
          + (if p4 then h4 + x4 + "\n\n" else "") + (if p5 then h5 + x5 + "\n\n" else "")
  {
    SectionsTextInOrder(a);
    HintSection(SectionNames[0], x1, h1);
    HintSection(SectionNames[1], x2, h2);
    HintSection(SectionNames[2], x3, h3);
    OptionalHintSection(SectionNames[3], x4, h4, p4);
    OptionalHintSection(SectionNames[4], x5, h5, p5);
  }

  lemma Regroup11(h: string, a1: string, b1: string, a2: string, b2: string, a3: string, b3: string,
                  s4: string, s5: string)
    ensures h + a1 + b1 + "\n\n" + a2 + b2 + "\n\n" + a3 + b3 + "\n\n" + s4 + s5
         == h + ((a1 + b1 + "\n\n") + (a2 + b2 + "\n\n") + (a3 + b3 + "\n\n") + s4 + s5)
  {
  }

  /**
   * The template's text is the framed layout of its prefilled action: the
   * same frontmatter (with `updated_at` from the creation time), the
   * template's own preamble, and one block per hint section.
   */
  lemma TemplateLayout(t: ActionTemplate, env: Env)
    ensures TemplateMarkdown(t, env)
         == Unlines(FramedLines(FrontLines(Prefilled(t), env), TemplatePreamble(t), SectionBlocks(Prefilled(t), 0)))
  {
    var a := Prefilled(t);
    var front, pre, bs := FrontLines(a, env), TemplatePreamble(t), SectionBlocks(a, 0);
    var head := [Fence] + front + [Fence] + pre;
    assert FramedLines(front, pre, bs) == head + BlocksLines(bs);
    UnlinesAppend(head, BlocksLines(bs));
    SectionsAsBlocks(a);
    TemplateText(t, env);
  }

  /** The template's text is its head lines followed by the prefilled action's section text. */
  lemma TemplateText(t: ActionTemplate, env: Env)
    ensures TemplateMarkdown(t, env)
         == Unlines([Fence] + FrontLines(Prefilled(t), env) + [Fence] + TemplatePreamble(t)) + SectionsText(Prefilled(t), 0)
  {
    TemplateHead(t, env);
    TemplateBody(t);
    var h := Unlines([Fence] + FrontLines(Prefilled(t), env) + [Fence] + TemplatePreamble(t));
    Regroup11(h, "## Notes\n\n", NotesHint, "## Statement of Action\n\n", ActionHint,
      "## Statement of Inputs\n\n", InputsHint(),
      if HasDesign(t.status) then "## Statement of Design\n\n" + DesignHint() + "\n\n" else "",
      if HasImpact(t.status) then "## Analysis of Impact\n\n" + ImpactHint + "\n\n" else "");
  }

  /* ---------- the template reads back ---------- */

  /** The single-line fields stay on one line, so the text splits back into the lines written. */
  predicate TemplateReadable(t: ActionTemplate, env: Env) {
    OneLine(t.id) && OneLine(t.title) && OneLine(t.project) && OneLine(env.rfc3339(t.createdAt))
  }

  lemma PrefilledReloadable(t: ActionTemplate, env: Env)
    requires TemplateReadable(t, env)
    ensures Reloadable(Prefilled(t), env)
  {
    PrefilledSectionsOk(t);
  }

  lemma TemplatePreambleShape(t: ActionTemplate)
    requires OneLine(t.title) && OneLine(t.project)
    ensures NoHeaders(TemplatePreamble(t)) && NoNewline(TemplatePreamble(t))
  {
    TemplateTagStart(t);
    TemplateTagOneLine(t);
    PreambleNoHeaders(t.title, TemplateTagLine(t));
    PreambleNoNewline(t.title, TemplateTagLine(t));
  }

  lemma TemplateTagStart(t: ActionTemplate)
    ensures |TemplateTagLine(t)| >= 2 && TemplateTagLine(t)[1] == 'p'
  {
    var head := "#project #action #";
    assert head[1] == 'p';
    assert TemplateTagLine(t)[..|head|] == head;
  }

  lemma TemplateTagOneLine(t: ActionTemplate)
    requires OneLine(t.project)
    ensures '\n' !in TemplateTagLine(t)
  {
    SlugShape(t.project);
    DisplayOneLine(t.status);
  }

  /**
   * The template's text parses to what its prefilled action's text parses
   * to: the two differ only in the tag line, which the parser discards.
   */
  lemma TemplateReadsAsAction(t: ActionTemplate, env: Env)
    requires TemplateReadable(t, env)
    ensures Parse(TemplateMarkdown(t, env)) == Parse(Actions.ToMarkdown(Prefilled(t), env))
  {
    var a := Prefilled(t);
    PrefilledReloadable(t, env);
    ParseMarkdown(a, env);
    TemplateParse(t, env);
  }

  lemma TemplateParse(t: ActionTemplate, env: Env)
    requires TemplateReadable(t, env)
    ensures Parse(TemplateMarkdown(t, env)).value
         == Parser.Document(MetaFold(map[], FrontLines(Prefilled(t), env)), InsertAll(map[], SectionBlocks(Prefilled(t), 0)))
  {
    var a := Prefilled(t);
    TemplateLayout(t, env);
    TemplateFramed(t, env);
    ParseFramedText(TemplateMarkdown(t, env), FrontLines(a, env), TemplatePreamble(t), SectionBlocks(a, 0));
  }

  /** The template's frontmatter, preamble and blocks meet the conditions under which `parse` reads a framed text back. */
  lemma TemplateFramed(t: ActionTemplate, env: Env)
    requires TemplateReadable(t, env)
    ensures NoFences(FrontLines(Prefilled(t), env)) && NoNewline(FrontLines(Prefilled(t), env))
    ensures NoHeaders(TemplatePreamble(t)) && NoNewline(TemplatePreamble(t))
    ensures AllWellFormed(SectionBlocks(Prefilled(t), 0))
  {
    var a := Prefilled(t);
    PrefilledReloadable(t, env);
    FrontNoFences(a, env);
    FrontOneLine(a, env);
    TemplatePreambleShape(t);
    SectionBlocksWellFormed(a, 0);
  }

  /** The section map parsed from the template's text. */
  function TemplateSectionMap(t: ActionTemplate, env: Env): map<string, string> {
    Parse(TemplateMarkdown(t, env)).value.sections
  }

  lemma TemplateSectionAt(t: ActionTemplate, env: Env, j: nat)
    requires TemplateReadable(t, env) && j < SectionCount
    ensures Get(TemplateSectionMap(t, env), SectionNames[j]) == Section(Prefilled(t), j)
  {
    TemplateParse(t, env);
    PrefilledSectionsOk(t);
    SectionOkAt(Prefilled(t), j);
    BlockReadBack(Prefilled(t), j);
  }

  /**
   * Parsing the template's text: Notes, Statement of Action and Statement of
   * Inputs always hold their hints; Statement of Design is there exactly
   * when the status is not Discovery, and keeps its `### ` sub-headings in
   * its body; Analysis of Impact is there exactly from Document on.
   */
  lemma TemplateSections(t: ActionTemplate, env: Env)
    requires TemplateReadable(t, env)
    ensures var s := TemplateSectionMap(t, env);
      && Get(s, "Notes") == Some(NotesHint)
      && Get(s, "Statement of Action") == Some(ActionHint)
      && Get(s, "Statement of Inputs") == Some(InputsHint())
      && ("Statement of Design" in s <==> HasDesign(t.status))
      && ("Analysis of Impact" in s <==> HasImpact(t.status))
      && (HasDesign(t.status) ==> StartsWith(s["Statement of Design"], "### Output\n\n"))
  {
    NotesRead(t, env);
    ActionRead(t, env);
    InputsRead(t, env);
    DesignRead(t, env);
    ImpactRead(t, env);
  }

  lemma NotesRead(t: ActionTemplate, env: Env)
    requires TemplateReadable(t, env)
    ensures Get(TemplateSectionMap(t, env), "Notes") == Some(NotesHint)
  {
    TemplateSectionAt(t, env, 0);
  }

  lemma ActionRead(t: ActionTemplate, env: Env)
    requires TemplateReadable(t, env)
    ensures Get(TemplateSectionMap(t, env), "Statement of Action") == Some(ActionHint)
  {
    TemplateSectionAt(t, env, 1);
    ActionFromGet(TemplateSectionMap(t, env), t);
  }

  lemma ActionFromGet(m: map<string, string>, t: ActionTemplate)
    requires Get(m, SectionNames[1]) == Section(Prefilled(t), 1)
    ensures Get(m, "Statement of Action") == Some(ActionHint)
  {
  }

  lemma InputsRead(t: ActionTemplate, env: Env)
    requires TemplateReadable(t, env)
    ensures Get(TemplateSectionMap(t, env), "Statement of Inputs") == Some(InputsHint())
  {
    TemplateSectionAt(t, env, 2);
  }

  lemma DesignRead(t: ActionTemplate, env: Env)
    requires TemplateReadable(t, env)
    ensures "Statement of Design" in TemplateSectionMap(t, env) <==> HasDesign(t.status)
    ensures HasDesign(t.status) ==> StartsWith(TemplateSectionMap(t, env)["Statement of Design"], "### Output\n\n")
  {
    TemplateSectionAt(t, env, 3);
    DesignFromGet(TemplateSectionMap(t, env), t);
  }

  lemma DesignFromGet(m: map<string, string>, t: ActionTemplate)
    requires Get(m, SectionNames[3]) == Section(Prefilled(t), 3)
    ensures "Statement of Design" in m <==> HasDesign(t.status)
    ensures HasDesign(t.status) ==> StartsWith(m["Statement of Design"], "### Output\n\n")
  {
    LaterFields(Prefilled(t));
    DesignStart();
  }

  lemma DesignStart()
    ensures StartsWith(DesignHint(), "### Output\n\n")
  {
    var o, r := "### Output", DesignOutput + "\n\n" + "### Design" + "\n\n" + DesignDetail;
    assert DesignHint() == o + "\n\n" + r;
  }

  lemma ImpactRead(t: ActionTemplate, env: Env)
    requires TemplateReadable(t, env)
    ensures "Analysis of Impact" in TemplateSectionMap(t, env) <==> HasImpact(t.status)
  {
    TemplateSectionAt(t, env, 4);
    ImpactFromGet(TemplateSectionMap(t, env), t);
  }

  lemma ImpactFromGet(m: map<string, string>, t: ActionTemplate)
    requires Get(m, SectionNames[4]) == Section(Prefilled(t), 4)
    ensures "Analysis of Impact" in m <==> HasImpact(t.status)
  {
    LaterFields(Prefilled(t));
  }

  lemma LaterFields(a: Action)
    ensures Section(a, 3) == a.statementOfDesign && Section(a, 4) == a.analysisOfImpact
  {
  }

  /** A fresh template's text has exactly the three always-present sections. */
  lemma NewTemplateSections(project: string, title: string, priority: bool, env: Env)
    requires TemplateReadable(NewTemplate(project, title, priority, env), env)
    ensures TemplateSectionMap(NewTemplate(project, title, priority, env), env).Keys
         == {"Notes", "Statement of Action", "Statement of Inputs"}
  {
    var t := NewTemplate(project, title, priority, env);
    NotesRead(t, env);
    ActionRead(t, env);
    InputsRead(t, env);
    DesignRead(t, env);
    ImpactRead(t, env);
    TemplateKeys(t, env);
    ThreeKeys(TemplateSectionMap(t, env));
  }

  lemma ThreeKeys(m: map<string, string>)
    requires forall n :: n in m ==> n in SectionNames
    requires "Notes" in m && "Statement of Action" in m && "Statement of Inputs" in m
    requires "Statement of Design" !in m && "Analysis of Impact" !in m
    ensures m.Keys == {"Notes", "Statement of Action", "Statement of Inputs"}
  {
  }

  lemma TemplateKeys(t: ActionTemplate, env: Env)
    requires TemplateReadable(t, env)
    ensures forall n :: n in TemplateSectionMap(t, env) ==> n in SectionNames
  {
    TemplateParse(t, env);
    BlockKeysKnown(Prefilled(t));
  }

  /** The template's frontmatter: its id, and the creation time under both timestamp keys. */
  lemma TemplateMetadata(t: ActionTemplate, env: Env)
    requires TemplateReadable(t, env)
    ensures Parse(TemplateMarkdown(t, env)).value.metadata
         == map["id" := Trim(t.id),
                "created_at" := Trim(env.rfc3339(t.createdAt)),
                "updated_at" := Trim(env.rfc3339(t.createdAt))]
  {
    TemplateReadsAsAction(t, env);
    PrefilledReloadable(t, env);
    WrittenMetadata(Prefilled(t), env);
  }

  /**
   * Loading a file written from a template: the sections are the template's
   * hints, the status is Discovery whatever the template's, priority is
   * off, and both timestamps are read from the same text: they agree when
   * that text parses, and otherwise only when the loader's two clock
   * readings do.
   */
  lemma TemplateReload(t: ActionTemplate, env: Env, path: Path, env': Env)
    requires TemplateReadable(t, env)
    ensures var b := FromParsed(Parse(TemplateMarkdown(t, env)).value, path, env');
      && (forall j :: 0 <= j < SectionCount ==> Section(b, j) == Section(Prefilled(t), j))
      && b.status == Discovery && !b.priority
      && (b.createdAt == b.updatedAt <==> env'.parseRfc3339(Trim(env.rfc3339(t.createdAt))).Some? || env'.now == env'.later)
  {
    var a := Prefilled(t);
    TemplateReadsAsAction(t, env);
    PrefilledReloadable(t, env);
    assert FromParsed(Parse(TemplateMarkdown(t, env)).value, path, env') == Reload(a, env, path, env');
    ReloadFacts(a, env, path, env');
    SameTimesReload(a, env, path, env');
  }

  /**
   * Equal creation and update times are written as the same text, so they
   * read back equal when the text parses; otherwise each falls back to its
   * own clock reading.
   */
  lemma SameTimesReload(a: Action, env: Env, path: Path, env': Env)
    requires FrontOk(a, env) && a.createdAt == a.updatedAt
    ensures Reload(a, env, path, env').createdAt == Reload(a, env, path, env').updatedAt
        <==> env'.parseRfc3339(Trim(env.rfc3339(a.createdAt))).Some? || env'.now == env'.later
  {
    var doc := Parse(ToMarkdown(a, env)).value;
    WrittenMetadata(a, env);
    FrontMapValues(a, env);
    assert Get(doc.metadata, "created_at") == Get(doc.metadata, "updated_at");
    SameTimeText(doc, path, env');
  }

  /** Two timestamps stored as the same text load equal exactly when it parses or the two clock readings agree. */
  lemma SameTimeText(doc: Parser.Document, path: Path, env: Env)
    requires Get(doc.metadata, "created_at") == Get(doc.metadata, "updated_at")
    ensures FromParsed(doc, path, env).createdAt == FromParsed(doc, path, env).updatedAt
        <==> StoredTime(doc.metadata, "created_at", env).Some? || env.now == env.later
  {
  }

  /** The template's tag line: the `#action` tag, the status, then the slug, and ` #priority` appended exactly when set. */
  lemma TemplateTagShape(t: ActionTemplate)
    ensures var base := "#project #action #" + Display(t.status) + " #" + Slug(t.project);
      && StartsWith(TemplateTagLine(t), base)
      && (t.priority <==> |TemplateTagLine(t)| == |base| + |" #priority"|)
      && (t.priority ==> TemplateTagLine(t)[|base|..] == " #priority")
  {
    var base := "#project #action #" + Display(t.status) + " #" + Slug(t.project);
    assert TemplateTagLine(t)[..|base|] == base;
  }

  /**
   * Because the slug comes last, the tag line alone does not tell whether
   * the flag is set: a project named `priority` ends it in ` #priority`
   * either way.
   */
  lemma PriorityProjectTag(t: ActionTemplate)
    requires t.project == "priority" && !t.priority
    ensures EndsWithPriority(TemplateTagLine(t))
  {
    var tag := TemplateTagLine(t);
    assert Slug("priority") == "priority";
    assert tag == "#project #action #" + Display(t.status) + " #priority";
  }

  predicate EndsWithPriority(line: string) {
    |line| >= 10 && line[|line| - 10..] == " #priority"
  }

  /** For the same project, status and priority, the template's tag line is longer than the action's: the two never coincide. */
  lemma TagLinesDiffer(t: ActionTemplate, a: Action)
    requires a.project == t.project && a.status == t.status && a.priority == t.priority
    ensures |TemplateTagLine(t)| == |TagLine(a)| + |"#action "|
    ensures TemplateTagLine(t) != TagLine(a)
  {
  }

  /* ---------- the project README ---------- */

  function ReadmePreamble(name: string): seq<string> {
    ["# " + name, "", ReadmeIntro, ""]
  }

  function ReadmeBlocks(): seq<Block> {
    [ContentBlock("Actions", ReadmeActions), Block("Meta-graphs", ["", ReadmeMetaGraphs])]
  }

  lemma ReadmeLinesOk()
    ensures HintLine(ReadmeIntro) && HintLine(ReadmeActions) && HintLine(ReadmeMetaGraphs)
  {
    ReadmeIntroLine();
    ReadmeActionsLine();
    ReadmeMetaGraphsLine();
  }

  lemma ReadmeIntroLine() ensures HintLine(ReadmeIntro) { PlainLine(ReadmeIntro); }
  lemma ReadmeActionsLine() ensures HintLine(ReadmeActions) { PlainLine(ReadmeActions); }
  lemma ReadmeMetaGraphsLine() ensures HintLine(ReadmeMetaGraphs) { PlainLine(ReadmeMetaGraphs); }

  lemma ReadmeLayout(name: string)
    ensures ProjectReadme(name) == Unlines(ReadmePreamble(name) + BlocksLines(ReadmeBlocks()))
  {
    var pre, bs := ReadmePreamble(name), ReadmeBlocks();
    ReadmeLinesOk();
    ReadmeBlockLines();
    var p, i, h1, a, h2, m := "# " + name, ReadmeIntro, "## Actions", ReadmeActions, "## Meta-graphs", ReadmeMetaGraphs;
    var lines := pre + BlocksLines(bs);
    assert lines == [p, ""] + ([i, ""] + ([h1, ""] + ([a, ""] + ([h2, ""] + [m]))));
    Blank(p, [i, ""] + ([h1, ""] + ([a, ""] + ([h2, ""] + [m]))));
    Blank(i, [h1, ""] + ([a, ""] + ([h2, ""] + [m])));
    Blank(h1, [a, ""] + ([h2, ""] + [m]));
    Blank(a, [h2, ""] + [m]);
    Blank(h2, [m]);
    assert Unlines([m]) == m + "\n" + Unlines([]);
    Assoc6(p, i, h1, a, h2, m);
  }

  lemma ReadmeBlockLines()
    requires HintLine(ReadmeActions)
    ensures BlocksLines(ReadmeBlocks()) == ["## Actions", "", ReadmeActions, "", "## Meta-graphs", "", ReadmeMetaGraphs]
  {
    var bs := ReadmeBlocks();
    assert Split(ReadmeActions) == [ReadmeActions];
    assert HeaderMark + "Actions" == "## Actions";
    assert HeaderMark + "Meta-graphs" == "## Meta-graphs";
    assert bs[0].body == ["", ReadmeActions, ""];
    assert BlockLines(bs[0]) == ["## Actions", "", ReadmeActions, ""];
    assert bs[1] == Block("Meta-graphs", ["", ReadmeMetaGraphs]);
    assert BlockLines(bs[1]) == ["## Meta-graphs"] + ["", ReadmeMetaGraphs];
    assert bs[1..][1..] == [];
    assert BlocksLines(bs[1..]) == BlockLines(bs[1]) + BlocksLines([]);
    assert BlocksLines(bs) == BlockLines(bs[0]) + BlocksLines(bs[1..]);
  }

  /** A line followed by a blank line. */
  lemma Blank(x: string, rest: seq<string>)
    ensures Unlines([x, ""] + rest) == x + "\n\n" + Unlines(rest)
  {
    var l := [x, ""] + rest;
    assert l[1..] == [""] + rest;
    assert ([""] + rest)[1..] == rest;
  }

  lemma Assoc6(p: string, i: string, h1: string, a: string, h2: string, m: string)
    ensures p + "\n\n" + (i + "\n\n" + (h1 + "\n\n" + (a + "\n\n" + (h2 + "\n\n" + (m + "\n" + "")))))
         == p + "\n\n" + i + "\n\n" + h1 + "\n\n" + a + "\n\n" + h2 + "\n\n" + m + "\n"
  {
  }

  lemma ReadmeBlocksWellFormed()
    ensures AllWellFormed(ReadmeBlocks())
  {
    var bs := ReadmeBlocks();
    ActionsBlockOk();
    MetaGraphsBlockOk();
    PairWellFormed(bs[0], bs[1]);
  }

  lemma ActionsBlockOk()
    ensures WellFormed(ContentBlock("Actions", ReadmeActions))
  {
    ReadmeLinesOk();
    LineIsText(ReadmeActions);
    PlainNameByEnds("Actions");
    ContentBlockWellFormed("Actions", ReadmeActions);
  }

  lemma MetaGraphsBlockOk()
    ensures WellFormed(Block("Meta-graphs", ["", ReadmeMetaGraphs]))
  {
    ReadmeLinesOk();
    PlainNameByEnds("Meta-graphs");
    LastBlockWellFormed("Meta-graphs", ReadmeMetaGraphs);
  }

  lemma PairWellFormed(b0: Block, b1: Block)
    requires WellFormed(b0) && WellFormed(b1)
    ensures AllWellFormed([b0, b1])
  {
  }

  /** A block holding a blank line and one sentence, with no blank line after it. */
  lemma LastBlockWellFormed(n: string, m: string)
    requires PlainName(n) && HintLine(m)
    ensures WellFormed(Block(n, ["", m]))
  {
    var l := ["", m];
    assert NoHeaders(l) by {
      forall i | 0 <= i < |l| ensures !IsHeader(l[i]) {
        if i == 0 { assert !IsHeader(""); } else { assert l[i] == m; }
      }
    }
    assert NoNewline(l) by {
      forall i | 0 <= i < |l| ensures '\n' !in l[i] {
        if i == 1 { assert l[i] == m; }
      }
    }
    LastBlockNoCr(m);
  }

  lemma LastBlockNoCr(m: string)
    requires |m| > 0 && !IsWhitespace(m[|m| - 1])
    ensures NoCrEnds(["", m])
  {
  }

  lemma LastBlockValue(n: string, m: string)
    requires Trim(m) == m
    ensures BlockValue(Block(n, ["", m])) == m
  {
    LastBlockText(m);
    assert AllWhitespace("\n");
    TrimPadded("\n", m, "\n");
  }

  lemma LastBlockText(m: string)
    ensures Unlines(["", m]) == "\n" + m + "\n"
  {
    var l := ["", m];
    assert l[1..] == [m];
    assert [m][1..] == [];
    assert Unlines([m]) == m + "\n" + Unlines([]);
    assert Unlines(l) == "" + "\n" + Unlines([m]);
  }

  lemma ReadmePreambleShape(name: string)
    requires OneLine(name)
    ensures NoHeaders(ReadmePreamble(name)) && NoNewline(ReadmePreamble(name))
    ensures !IsFence(ReadmePreamble(name)[0])
  {
    var pre := ReadmePreamble(name);
    ReadmeLinesOk();
    NotHeader(pre[0]);
    assert '\n' !in pre[0];
    TrimKeepsHead(pre[0]);
  }

  lemma ReadmeValues()
    ensures InsertAll(map[], ReadmeBlocks()) == map["Actions" := ReadmeActions, "Meta-graphs" := ReadmeMetaGraphs]
  {
    var bs := ReadmeBlocks();
    ReadmeLinesOk();
    PlainNameByEnds("Meta-graphs");
    TrimmedEnds(ReadmeActions);
    ContentBlockValue("Actions", ReadmeActions);
    TrimmedEnds(ReadmeMetaGraphs);
    LastBlockValue("Meta-graphs", ReadmeMetaGraphs);
    InsertTwo(bs[0], bs[1]);
  }

  lemma InsertTwo(b0: Block, b1: Block)
    ensures InsertAll(map[], [b0, b1]) == map[b0.name := BlockValue(b0), b1.name := BlockValue(b1)]
  {
    var m1 := map[][b0.name := BlockValue(b0)];
    var m2 := m1[b1.name := BlockValue(b1)];
    assert [b0, b1][1..] == [b1];
    assert [b1][1..] == [];
    assert InsertAll(m1, [b1]) == InsertAll(m2, []);
    assert InsertAll(map[], [b0, b1]) == InsertAll(m1, [b1]);
  }

  /**
   * The project README parses to no metadata and two sections, Actions and
   * Meta-graphs, holding their sentences; the title and introduction lines
   * are discarded as preamble.
   */
  lemma ReadmeParse(name: string)
    requires OneLine(name)
    ensures Parse(ProjectReadme(name)).value
         == Parser.Document(map[], map["Actions" := ReadmeActions, "Meta-graphs" := ReadmeMetaGraphs])
  {
    var pre, bs := ReadmePreamble(name), ReadmeBlocks();
    ReadmeLayout(name);
    ReadmeBlocksWellFormed();
    ReadmePreambleShape(name);
    ParseUnframedText(ProjectReadme(name), pre, bs);
    ReadmeValues();
  }
}

=== FILE: workspace.dfy ===
/**
 * The workspace (src/workspace.rs): a root directory marked by an
 * `.action-lite` file, holding one directory per project. The operations
 * resolve a project by name and hand the rest to it.
 */
module Workspaces {
  import opened Outcomes
  import opened Host
  import opened Actions
  import opened Projects
  import opened StatusLifecycle
  import Names

  datatype Workspace = Workspace(root: Path, projects: map<string, Project>)

  const MarkerName: string := ".action-lite"
  const MarkerText: string := "# Action Lite Workspace\n"
  const ReadmeName: string := "README.md"

  function MarkerFile(root: Path): Path {
    root + [MarkerName]
  }

  function ReadmeFile(root: Path): Path {
    root + [ReadmeName]
  }

  /** Whether `init` can put the root directory in place: it is one already, or nothing blocks creating it. */
  predicate RootReady(fs: Fs, root: Path) {
    if Exists(fs, root) then root in fs.dirs
    else |root| > 0 && forall k :: 1 <= k <= |root| ==> root[..k] !in fs.files
  }

  /** The root directory, created with its ancestors when nothing is there. */
  function EnsureRoot(fs: Fs, root: Path): (r: Result<Fs, Error>)
    ensures r.Ok? ==> r.value.files == fs.files && fs.dirs <= r.value.dirs
    ensures r.Ok? && RootReady(fs, root) ==> root in r.value.dirs
    ensures r.Ok? && Exists(fs, root) ==> r.value == fs
    ensures !Exists(fs, root) ==> (r.Ok? <==> forall k :: 1 <= k <= |root| ==> root[..k] !in fs.files)
    ensures r.Err? ==> r.error == IoFailure(root)
  {
    if Exists(fs, root) then Ok(fs)
    else
      SelfAncestor(root);
      CreateDirAll(fs, root)
  }

  /**
   * `init`: makes the root if needed, (over)writes the marker, and writes
   * the README only when nothing is at its path. The README text is the
   * file bundled with the program, a parameter here.
   */
  function Init(root: Path, fs: Fs, readmeText: string): (r: Result<(Workspace, Fs), Error>)
    ensures r.Ok? <==> RootReady(fs, root) && MarkerFile(root) !in fs.dirs
    ensures r.Ok? ==>
      var fs' := r.value.1;
      && r.value.0 == Workspace(root, map[])
      && root in fs'.dirs && fs.dirs <= fs'.dirs
      && MarkerFile(root) in fs'.files && fs'.files[MarkerFile(root)] == MarkerText
      && (ReadmeFile(root) in fs.files ==> ReadmeFile(root) in fs'.files && fs'.files[ReadmeFile(root)] == fs.files[ReadmeFile(root)])
      && (!Exists(fs, ReadmeFile(root)) ==> ReadmeFile(root) in fs'.files && fs'.files[ReadmeFile(root)] == readmeText)
    ensures r.Ok? ==>
      var fs' := r.value.1;
      var marked := fs.files[MarkerFile(root) := MarkerText];
      && fs'.files == (if Exists(fs, ReadmeFile(root)) then marked else marked[ReadmeFile(root) := readmeText])
      && fs'.dirs == (if Exists(fs, root) then fs.dirs else fs.dirs + Ancestors(root))
  {
    var marker, readme := MarkerFile(root), ReadmeFile(root);
    assert marker[..|marker| - 1] == root && readme[..|readme| - 1] == root;
    match EnsureRoot(fs, root)
    case Err(e) => Err(e)
    case Ok(fs1) =>
      match WriteFile(fs1, marker, MarkerText)
      case Err(e) => Err(e)
      case Ok(fs2) =>
        if Exists(fs2, readme) then Ok((Workspace(root, map[]), fs2))
        else
          match WriteFile(fs2, readme, readmeText)
          case Err(e) => Err(e)
          case Ok(fs3) => Ok((Workspace(root, map[]), fs3))
  }

  /* ---------- loading ---------- */

  /** The directories under the root that are projects: those whose name does not start with `.`. */
  function ProjectDirNames(fs: Fs, root: Path): set<string> {
    set d | d in ChildDirNames(fs, root) && !(|d| > 0 && d[0] == '.')
  }

  /**
   * The name rules and the loader agree: a directory under the root is
   * loaded as a project exactly when its name does not start with `.`, so
   * every accepted project name is loaded once its directory exists, and a
   * name refused for its leading dot never is.
   */
  lemma AcceptedNameLoads(fs: Fs, root: Path, name: string)
    requires root + [name] in fs.dirs
    ensures Names.ValidateProjectName(name).Pass? ==> name in ProjectDirNames(fs, root)
    ensures Names.ValidateProjectName(name) == Fail(Names.LeadingDot) ==> name !in ProjectDirNames(fs, root)
  {
    var d := root + [name];
    assert |d| == |root| + 1 && d[..|root|] == root && d[|root|] == name;
    assert name in ChildDirNames(fs, root);
  }

  /** `Project::load` of `root/d`, which cannot fail since it is a directory. */
  function LoadedProject(fs: Fs, root: Path, d: string, env: Env): (p: Project)
    requires d in ChildDirNames(fs, root)
    ensures root + [d] in fs.dirs
    ensures p.name == d && p.path == root + [d]
    ensures p.actions == LoadActions(fs, root + [d], env).value
  {
    var e :| e in fs.dirs && |e| == |root| + 1 && e[..|root|] == root && e[|root|] == d;
    assert e == root + [d];
    LoadProject(root + [d], fs, env).value
  }

  /**
   * `load`: a root without the marker is not a workspace; a root that is
   * not a directory cannot be listed; otherwise every visible directory is
   * loaded as a project under its own name.
   */
  function Load(root: Path, fs: Fs, env: Env): (r: Result<Workspace, Error>)
    ensures !Exists(fs, MarkerFile(root)) ==> r == Err(NotAWorkspace(root))
    ensures Exists(fs, MarkerFile(root)) ==> (r.Ok? <==> root in fs.dirs)
    ensures r.Ok? ==> r.value.root == root && r.value.projects.Keys == ProjectDirNames(fs, root)
    ensures r.Ok? ==> forall d :: d in r.value.projects ==>
              r.value.projects[d].path == root + [d] && r.value.projects[d].name == d
  {
    if !Exists(fs, MarkerFile(root)) then Err(NotAWorkspace(root))
    else if root !in fs.dirs then Err(IoFailure(root))
    else Ok(Workspace(root, map d | d in ProjectDirNames(fs, root) :: LoadedProject(fs, root, d, env)))
  }

  /** A workspace just initialised loads. */
  lemma InitThenLoad(root: Path, fs: Fs, readmeText: string, env: Env)
    requires Init(root, fs, readmeText).Ok?
    ensures Load(root, Init(root, fs, readmeText).value.1, env).Ok?
  {
  }

  /** The project loaded from `root/d` holds every markdown file of that directory under its stem. */
  lemma LoadedActionFile(root: Path, fs: Fs, env: Env, d: string, n: string)
    requires Load(root, fs, env).Ok? && d in Load(root, fs, env).value.projects
    requires n in MarkdownNames(fs, root + [d])
    ensures var p := Load(root, fs, env).value.projects[d];
      StemOf(n) in p.actions && Ok(p.actions[StemOf(n)]) == FromFile(fs, root + [d, n], env)
  {
    LoadedProjectAt(root, fs, env, d);
    ActionAtPath(fs, root + [d], env, n, root + [d, n]);
  }

  lemma ActionAtPath(fs: Fs, dir: Path, env: Env, n: string, path: Path)
    requires dir in fs.dirs && n in MarkdownNames(fs, dir) && path == dir + [n]
    ensures var r := LoadActions(fs, dir, env);
      && r.Ok? && StemOf(n) in r.value
      && Ok(r.value[StemOf(n)]) == FromFile(fs, path, env)
  {
    LoadedUnderStem(fs, dir, env, n);
  }

  lemma LoadedProjectAt(root: Path, fs: Fs, env: Env, d: string)
    requires Load(root, fs, env).Ok? && d in Load(root, fs, env).value.projects
    ensures root + [d] in fs.dirs
    ensures Load(root, fs, env).value.projects[d].actions == LoadActions(fs, root + [d], env).value
  {
    assert d in ChildDirNames(fs, root);
    assert Load(root, fs, env).value.projects[d] == LoadedProject(fs, root, d, env);
  }

  /* ---------- actions through the workspace ---------- */

  /** Files `p` under `name` and runs `create_action` in it; the project stays filed when the creation fails. */
  function CreateIn(w: Workspace, name: string, p: Project, title: string, priority: bool, fs: Fs, env: Env)
    : (r: (Workspace, Fs, Result<Action, Error>))
    ensures r.2.Ok? ==> name in r.0.projects && r.0.projects == w.projects[name := r.0.projects[name]]
    ensures r.2.Ok? ==> Ok((r.0.projects[name], r.1, r.2.value)) == Projects.CreateAction(p, title, priority, fs, env)
    ensures r.2.Err? ==> r.0 == w.(projects := w.projects[name := p]) && r.1 == fs
    ensures r.2.Err? ==> Projects.CreateAction(p, title, priority, fs, env).Err?
    ensures r.2.Err? ==> r.2 == Err(Projects.CreateAction(p, title, priority, fs, env).error)
    ensures forall q :: q != name ==> (q in r.0.projects <==> q in w.projects)
    ensures forall q :: q != name && q in w.projects ==> r.0.projects[q] == w.projects[q]
    ensures r.0.root == w.root
  {
    match Projects.CreateAction(p, title, priority, fs, env)
    case Ok((p', fs', a)) => (w.(projects := w.projects[name := p']), fs', Ok(a))
    case Err(e) => (w.(projects := w.projects[name := p]), fs, Err(e))
  }

  /** What a successful `CreateIn` files is found again under its title. */
  lemma CreateInFound(w: Workspace, name: string, p: Project, title: string, priority: bool, fs: Fs, env: Env)
    requires CreateIn(w, name, p, title, priority, fs, env).2.Ok?
    ensures var r := CreateIn(w, name, p, title, priority, fs, env);
      && GetAction(r.0, name, title) == Ok(r.2.value)
      && r.2.value.title == title && r.2.value.status == Discovery && r.2.value.priority == priority
  {
    var r := CreateIn(w, name, p, title, priority, fs, env);
    var c := Projects.CreateAction(p, title, priority, fs, env);
    assert c.value.0 == r.0.projects[name];
    assert c.value.2 == r.2.value;
  }

  /**
   * `create_action`: the project is looked up by name, and created as
   * `root/name` when missing; a project created this way stays in the
   * workspace even when the action cannot be created.
   */
  function CreateAction(w: Workspace, name: string, title: string, priority: bool, fs: Fs, env: Env)
    : (r: (Workspace, Fs, Result<Action, Error>))
    ensures r.2.Ok? ==> GetAction(r.0, name, title) == Ok(r.2.value)
    ensures r.2.Ok? ==> r.2.value.title == title && r.2.value.status == Discovery && r.2.value.priority == priority
    ensures name in w.projects && r.2.Err? ==> r.0 == w && r.1 == fs
    ensures name in w.projects ==>
      var c := Projects.CreateAction(w.projects[name], title, priority, fs, env);
      && (r.2.Ok? <==> c.Ok?)
      && (r.2.Ok? ==> Ok((r.0.projects[name], r.1, r.2.value)) == c)
      && (r.2.Err? ==> r.2 == Err(c.error))
    ensures name !in w.projects && NewProject(name, w.root + [name], fs).Ok? ==> name in r.0.projects
    ensures name !in w.projects && NewProject(name, w.root + [name], fs).Ok? ==>
      var (p, fs1) := NewProject(name, w.root + [name], fs).value;
      var c := Projects.CreateAction(p, title, priority, fs1, env);
      && (r.2.Ok? <==> c.Ok?)
      && (r.2.Ok? ==> Ok((r.0.projects[name], r.1, r.2.value)) == c)
      && (r.2.Err? ==> r.0.projects[name] == p && r.1 == fs1 && r.2 == Err(c.error))
    ensures name !in w.projects && NewProject(name, w.root + [name], fs).Err? ==> r == (w, fs, Err(IoFailure(w.root + [name])))
    ensures forall q :: q != name ==> (q in r.0.projects <==> q in w.projects)
    ensures forall q :: q != name && q in w.projects ==> r.0.projects[q] == w.projects[q]
    ensures r.0.root == w.root
  {
    if name in w.projects then
      assert w.projects[name := w.projects[name]] == w.projects;
      var r := CreateIn(w, name, w.projects[name], title, priority, fs, env);
      if r.2.Ok? then CreateInFound(w, name, w.projects[name], title, priority, fs, env); r else r
    else
      match NewProject(name, w.root + [name], fs)
      case Err(e) => (w, fs, Err(e))
      case Ok((p, fs1)) =>
        var r := CreateIn(w, name, p, title, priority, fs1, env);
        if r.2.Ok? then CreateInFound(w, name, p, title, priority, fs1, env); r else r
  }

  /** `get_action`: a missing project and a missing action are told apart. */
  function GetAction(w: Workspace, name: string, title: string): (r: Result<Action, Error>)
    ensures name !in w.projects ==> r == Err(ProjectNotFound(name))
    ensures name in w.projects && title !in w.projects[name].actions ==> r == Err(ActionNotFound(title, name))
    ensures r.Ok? <==> name in w.projects && title in w.projects[name].actions
    ensures r.Ok? ==> r.value == w.projects[name].actions[title]
  {
    if name !in w.projects then Err(ProjectNotFound(name))
    else match Projects.GetAction(w.projects[name], title)
      case None => Err(ActionNotFound(title, name))
      case Some(a) => Ok(a)
  }

  /** `update_action_status`: a missing project changes nothing; otherwise the project's own update. */
  function UpdateActionStatus(w: Workspace, name: string, title: string, s: Status, fs: Fs, env: Env)
    : (r: (Workspace, Fs, Outcome<Error>))
    ensures name !in w.projects ==> r == (w, fs, Fail(ProjectNotFound(name)))
    ensures name in w.projects ==>
      var (p', fs', o) := Projects.UpdateActionStatus(w.projects[name], title, s, fs, env);
      r == (w.(projects := w.projects[name := p']), fs', o)
  {
    if name !in w.projects then (w, fs, Fail(ProjectNotFound(name)))
    else
      var (p', fs', o) := Projects.UpdateActionStatus(w.projects[name], title, s, fs, env);
      (w.(projects := w.projects[name := p']), fs', o)
  }

  /** `set_action_priority`: as `update_action_status`, for the priority flag. */
  function SetActionPriority(w: Workspace, name: string, title: string, priority: bool, fs: Fs, env: Env)
    : (r: (Workspace, Fs, Outcome<Error>))
    ensures name !in w.projects ==> r == (w, fs, Fail(ProjectNotFound(name)))
    ensures name in w.projects ==>
      var (p', fs', o) := Projects.SetActionPriority(w.projects[name], title, priority, fs, env);
      r == (w.(projects := w.projects[name := p']), fs', o)
  {
    if name !in w.projects then (w, fs, Fail(ProjectNotFound(name)))
    else
      var (p', fs', o) := Projects.SetActionPriority(w.projects[name], title, priority, fs, env);
      (w.(projects := w.projects[name := p']), fs', o)
  }

  /**
   * Once the action is found, the new status is what `get_action` reports
   * afterwards, whether or not the file could be written.
   */
  lemma UpdateThenGet(w: Workspace, name: string, title: string, s: Status, fs: Fs, env: Env)
    requires GetAction(w, name, title).Ok?
    ensures var w' := UpdateActionStatus(w, name, title, s, fs, env).0;
      && GetAction(w', name, title).Ok? && GetAction(w', name, title).value.status == s
      && forall q, t :: (q, t) != (name, title) ==> GetAction(w', q, t) == GetAction(w, q, t)
  {
  }

  /** The same for the priority flag. */
  lemma SetPriorityThenGet(w: Workspace, name: string, title: string, priority: bool, fs: Fs, env: Env)
    requires GetAction(w, name, title).Ok?
    ensures var w' := SetActionPriority(w, name, title, priority, fs, env).0;
      && GetAction(w', name, title).Ok? && GetAction(w', name, title).value.priority == priority
      && forall q, t :: (q, t) != (name, title) ==> GetAction(w', q, t) == GetAction(w, q, t)
  {
  }

  /** `create_meta_graph`: a missing project is an error; otherwise the project's own. */
  function CreateMetaGraph(w: Workspace, name: string, title: string, fs: Fs): (r: Result<(Path, Fs), Error>)
    ensures name !in w.projects ==> r == Err(ProjectNotFound(name))
    ensures name in w.projects ==> r == Projects.CreateMetaGraph(w.projects[name], title, fs)
    ensures r.Ok? ==> GetAction(w, name, title).Ok? && r.value.0 == MetaGraphPath(GetAction(w, name, title).value)
  {
    if name !in w.projects then Err(ProjectNotFound(name))
    else Projects.CreateMetaGraph(w.projects[name], title, fs)
  }
}

=== FILE: workspace_queries.dfy ===
/**
 * The two workspace-wide queries of src/workspace.rs: the filtered, sorted
 * action listing and the consistency check. Both walk the project and
 * action maps in hash order, which the source leaves unspecified; here
 * that order is an explicit parameter, and the results are shown to
 * depend on it only where the source's do.
 */
module WorkspaceQueries {
  import opened Outcomes
  import opened Strings
  import opened StatusLifecycle
  import opened Host
  import opened Actions
  import opened Projects
  import opened Workspaces

  /* ---------- walking the maps ---------- */

  /** `order` lists the keys of a map, each exactly once. */
  predicate Lists(keys: set<string>, order: seq<string>) {
    && (forall i, j :: 0 <= i < j < |order| ==> order[i] != order[j])
    && (forall k :: k in keys ==> k in order)
    && (forall i :: 0 <= i < |order| ==> order[i] in keys)
  }

  /** An iteration order: the project names, and for each project its action titles. */
  datatype Order = Order(projects: seq<string>, titles: map<string, seq<string>>)

  /** `o` is one way of iterating the workspace's hash maps. */
  predicate Walks(w: Workspace, o: Order) {
    && Lists(w.projects.Keys, o.projects)
    && forall n :: n in w.projects ==> n in o.titles && Lists(w.projects[n].actions.Keys, o.titles[n])
  }

  /* ---------- list_actions ---------- */

  /** The project filter: none, or one project name. */
  predicate InProject(filter: Option<string>, name: string) {
    filter.None? || filter.value == name
  }

  /** The status and priority filters, once the status text has been read. */
  predicate Selected(a: Action, status: Option<Status>, priorityOnly: bool) {
    (status.None? || a.status == status.value) && (!priorityOnly || a.priority)
  }

  /** The selected actions of one project, in the order of `titles`. */
  function CollectTitles(p: Project, titles: seq<string>, status: Option<Status>, priorityOnly: bool): (r: seq<Action>)
    requires forall t :: t in titles ==> t in p.actions
    ensures forall a :: a in r <==> exists t :: t in titles && p.actions[t] == a && Selected(a, status, priorityOnly)
    decreases |titles|
  {
    if |titles| == 0 then []
    else
      var rest := CollectTitles(p, titles[1..], status, priorityOnly);
      assert forall t :: t in titles <==> t == titles[0] || t in titles[1..];
      var a := p.actions[titles[0]];
      if Selected(a, status, priorityOnly) then [a] + rest else rest
  }

  /** The selected actions of the projects `names` passing the project filter, project by project. */
  function Collect(w: Workspace, o: Order, names: seq<string>, project: Option<string>, status: Option<Status>, priorityOnly: bool)
    : (r: seq<Action>)
    requires Walks(w, o) && forall n :: n in names ==> n in w.projects
    ensures forall a :: a in r <==> exists n :: n in names && InProject(project, n) && a in CollectTitles(w.projects[n], o.titles[n], status, priorityOnly)
    decreases |names|
  {
    if |names| == 0 then []
    else
      var rest := Collect(w, o, names[1..], project, status, priorityOnly);
      assert forall n :: n in names <==> n == names[0] || n in names[1..];
      var n := names[0];
      if InProject(project, n) then CollectTitles(w.projects[n], o.titles[n], status, priorityOnly) + rest else rest
  }

  /** The listing order: by project, then by title, both compared as strings. */
  predicate ActionLe(a: Action, b: Action) {
    if a.project == b.project then LexLe(a.title, b.title) else LexLe(a.project, b.project)
  }

  lemma ActionLeTotal(a: Action, b: Action)
    ensures ActionLe(a, b) || ActionLe(b, a)
  {
    LexLeTotal(a.title, b.title);
    LexLeTotal(a.project, b.project);
  }

  lemma ActionLeTrans(a: Action, b: Action, c: Action)
    requires ActionLe(a, b) && ActionLe(b, c)
    ensures ActionLe(a, c)
  {
    if a.project == b.project == c.project {
      LexLeTrans(a.title, b.title, c.title);
    } else if a.project == b.project {
      assert LexLe(b.project, c.project);
    } else if b.project == c.project {
      assert LexLe(a.project, b.project);
    } else {
      LexLeTrans(a.project, b.project, c.project);
      if a.project == c.project {
        LexLeAntisym(a.project, b.project);
      }
    }
  }

  predicate SortedActions(s: seq<Action>) {
    forall i, j :: 0 <= i < j < |s| ==> ActionLe(s[i], s[j])
  }

  /** `x` goes before the first element it does not follow. */
  function Insert(x: Action, s: seq<Action>): (r: seq<Action>)
    requires SortedActions(s)
    ensures SortedActions(r)
    ensures multiset(r) == multiset(s) + multiset{x}
    decreases |s|
  {
    if |s| == 0 then [x]
    else if ActionLe(x, s[0]) then
      InsertFront(x, s);
      [x] + s
    else
      ActionLeTotal(x, s[0]);
      var rest := Insert(x, s[1..]);
      InsertBehind(x, s, rest);
      [s[0]] + rest
  }

  lemma InsertFront(x: Action, s: seq<Action>)
    requires SortedActions(s) && |s| > 0 && ActionLe(x, s[0])
    ensures SortedActions([x] + s)
  {
    var r := [x] + s;
    forall i, j | 0 <= i < j < |r| ensures ActionLe(r[i], r[j]) {
      assert r[j] == s[j - 1];
      if i > 0 { assert r[i] == s[i - 1]; }
      else if j > 1 { ActionLeTrans(x, s[0], s[j - 1]); }
    }
  }

  lemma InsertBehind(x: Action, s: seq<Action>, rest: seq<Action>)
    requires SortedActions(s) && |s| > 0 && ActionLe(s[0], x)
    requires SortedActions(rest) && multiset(rest) == multiset(s[1..]) + multiset{x}
    ensures SortedActions([s[0]] + rest)
    ensures multiset([s[0]] + rest) == multiset(s) + multiset{x}
  {
    assert s == [s[0]] + s[1..];
    forall j | 0 <= j < |rest| ensures ActionLe(s[0], rest[j]) {
      assert rest[j] in multiset(rest);
      if rest[j] != x {
        assert rest[j] in multiset(s[1..]);
        var k :| 0 <= k < |s[1..]| && s[1..][k] == rest[j];
        assert s[k + 1] == rest[j];
      }
    }
    var r := [s[0]] + rest;
    forall i, j | 0 <= i < j < |r| ensures ActionLe(r[i], r[j]) {
      if i > 0 { assert r[i] == rest[i - 1] && r[j] == rest[j - 1]; }
      else { assert r[j] == rest[j - 1]; }
    }
  }

  /** The sort by project then title, as an insertion sort. */
  function SortActions(s: seq<Action>): (r: seq<Action>)
    ensures SortedActions(r) && multiset(r) == multiset(s)
    decreases |s|
  {
    if |s| == 0 then []
    else
      assert s == [s[0]] + s[1..];
      Insert(s[0], SortActions(s[1..]))
  }

  /** Some project passing the filter has an action: only then is a bad status text ever read. */
  predicate HasCandidate(w: Workspace, project: Option<string>) {
    exists n :: n in w.projects && InProject(project, n) && |w.projects[n].actions| > 0
  }

  /** The action `list_actions` reports: filed in a project that passes, and selected. */
  predicate Listed(w: Workspace, project: Option<string>, status: Option<Status>, priorityOnly: bool, a: Action) {
    exists n, t :: n in w.projects && InProject(project, n) && t in w.projects[n].actions
                   && w.projects[n].actions[t] == a && Selected(a, status, priorityOnly)
  }

  /** Listing one project with only the priority filter lists exactly that project's priority actions. */
  lemma PriorityListing(w: Workspace, n: string, a: Action)
    requires n in w.projects
    ensures Listed(w, Some(n), None, true, a) <==> a in PriorityActions(w.projects[n]).Values
  {
    var q := PriorityActions(w.projects[n]);
    if a in q.Values {
      var t :| t in q && q[t] == a;
      assert InProject(Some(n), n) && Selected(a, None, true);
    }
  }

  /**
   * `list_actions`: the actions of the chosen projects that pass the
   * status and priority filters, sorted by project and title. A status
   * text that names no stage is an error, but only once some action is
   * about to be filtered by it.
   */
  function ListActions(w: Workspace, o: Order, project: Option<string>, status: Option<string>, priorityOnly: bool)
    : (r: Result<seq<Action>, Error>)
    requires Walks(w, o)
    ensures r.Err? <==> status.Some? && FromStr(status.value).Err? && HasCandidate(w, project)
    ensures r.Err? ==> r.error == BadStatus(status.value)
    ensures r.Ok? ==> SortedActions(r.value)
    ensures r.Ok? && status.Some? && FromStr(status.value).Err? ==> r.value == []
    ensures r.Ok? && (status.None? || FromStr(status.value).Ok?) ==>
              var sel := if status.None? then None else Some(FromStr(status.value).value);
              && (forall a :: a in r.value <==> Listed(w, project, sel, priorityOnly, a))
              && (forall a :: multiset(r.value)[a] == |Sources(w, w.projects.Keys, project, sel, priorityOnly, a)|)
  {
    if status.Some? && FromStr(status.value).Err? then
      if HasCandidate(w, project) then Err(BadStatus(status.value)) else Ok([])
    else
      var sel := if status.None? then None else Some(FromStr(status.value).value);
      var found := Collect(w, o, o.projects, project, sel, priorityOnly);
      var r := SortActions(found);
      CollectListed(w, o, project, sel, priorityOnly);
      forall a ensures multiset(r)[a] == |Sources(w, w.projects.Keys, project, sel, priorityOnly, a)| {
        CollectCount(w, o, o.projects, project, sel, priorityOnly, a);
        assert Elems(o.projects) == w.projects.Keys;
      }
      assert forall a :: a in r <==> a in multiset(r);
      assert forall a :: a in found <==> a in multiset(found);
      Ok(r)
  }

  /** Whatever the iteration order, the collected actions are exactly the listed ones. */
  lemma CollectListed(w: Workspace, o: Order, project: Option<string>, status: Option<Status>, priorityOnly: bool)
    requires Walks(w, o)
    ensures forall a :: a in Collect(w, o, o.projects, project, status, priorityOnly) <==> Listed(w, project, status, priorityOnly, a)
  {
    var found := Collect(w, o, o.projects, project, status, priorityOnly);
    forall a | Listed(w, project, status, priorityOnly, a) ensures a in found {
      var n, t :| n in w.projects && InProject(project, n) && t in w.projects[n].actions
                 && w.projects[n].actions[t] == a && Selected(a, status, priorityOnly);
      assert t in o.titles[n];
      assert a in CollectTitles(w.projects[n], o.titles[n], status, priorityOnly);
    }
  }

  /**
   * Where the listing's copies of an action come from: the keys, a project
   * name among `names` and a title, under which that action is filed and
   * passes the filters.
   */
  ghost function Sources(w: Workspace, names: set<string>, project: Option<string>, status: Option<Status>, priorityOnly: bool, a: Action)
    : set<(string, string)>
  {
    set n, t | n in names && n in w.projects && InProject(project, n) && t in w.projects[n].actions
                 && w.projects[n].actions[t] == a && Selected(a, status, priorityOnly) :: (n, t)
  }

  /** The keys of one project's titles under which `a` is filed and selected. */
  ghost function TitleSources(n: string, p: Project, titles: seq<string>, status: Option<Status>, priorityOnly: bool, a: Action)
    : set<(string, string)>
  {
    set t | t in titles && t in p.actions && p.actions[t] == a && Selected(a, status, priorityOnly) :: (n, t)
  }

  function Elems(s: seq<string>): set<string> {
    set x | x in s
  }

  predicate Distinct(s: seq<string>) {
    forall i, j :: 0 <= i < j < |s| ==> s[i] != s[j]
  }

  lemma DistinctTail(s: seq<string>)
    requires |s| > 0 && Distinct(s)
    ensures Distinct(s[1..]) && s[0] !in s[1..]
  {
    forall k | 0 <= k < |s| - 1 ensures s[1..][k] != s[0] {
      assert s[1..][k] == s[k + 1];
    }
  }

  /** One project's collected list holds `a` once per title filing it. */
  lemma {:induction false} CollectTitlesCount(n: string, p: Project, titles: seq<string>, status: Option<Status>, priorityOnly: bool, a: Action)
    requires Distinct(titles) && forall t :: t in titles ==> t in p.actions
    ensures multiset(CollectTitles(p, titles, status, priorityOnly))[a] == |TitleSources(n, p, titles, status, priorityOnly, a)|
    decreases |titles|
  {
    var src := TitleSources(n, p, titles, status, priorityOnly, a);
    if |titles| == 0 {
      assert src == {};
    } else {
      var t0 := titles[0];
      DistinctTail(titles);
      CollectTitlesCount(n, p, titles[1..], status, priorityOnly, a);
      var rest := TitleSources(n, p, titles[1..], status, priorityOnly, a);
      assert (n, t0) !in rest;
      if p.actions[t0] == a && Selected(a, status, priorityOnly) {
        assert src == {(n, t0)} + rest;
      } else {
        assert src == rest;
      }
    }
  }

  /** The keys a single project contributes, once its titles are walked in some order. */
  lemma ProjectSources(w: Workspace, o: Order, n: string, project: Option<string>, status: Option<Status>, priorityOnly: bool, a: Action)
    requires Walks(w, o) && n in w.projects
    ensures Sources(w, {n}, project, status, priorityOnly, a)
         == if InProject(project, n) then TitleSources(n, w.projects[n], o.titles[n], status, priorityOnly, a) else {}
  {
  }

  /** The collected list holds `a` once per key filing it in the projects walked. */
  lemma {:induction false} CollectCount(w: Workspace, o: Order, names: seq<string>, project: Option<string>, status: Option<Status>, priorityOnly: bool, a: Action)
    requires Walks(w, o) && Distinct(names) && forall n :: n in names ==> n in w.projects
    ensures multiset(Collect(w, o, names, project, status, priorityOnly))[a] == |Sources(w, Elems(names), project, status, priorityOnly, a)|
    decreases |names|
  {
    if |names| == 0 {
      assert Sources(w, Elems(names), project, status, priorityOnly, a) == {};
    } else {
      var n := names[0];
      DistinctTail(names);
      CollectCount(w, o, names[1..], project, status, priorityOnly, a);
      ProjectSources(w, o, n, project, status, priorityOnly, a);
      assert Lists(w.projects[n].actions.Keys, o.titles[n]);
      CollectTitlesCount(n, w.projects[n], o.titles[n], status, priorityOnly, a);
      SourcesSplit(w, n, names, project, status, priorityOnly, a);
    }
  }

  lemma SourcesSplit(w: Workspace, n: string, names: seq<string>, project: Option<string>, status: Option<Status>, priorityOnly: bool, a: Action)
    requires |names| > 0 && n == names[0] && n !in names[1..]
    ensures |Sources(w, Elems(names), project, status, priorityOnly, a)|
         == |Sources(w, {n}, project, status, priorityOnly, a)| + |Sources(w, Elems(names[1..]), project, status, priorityOnly, a)|
  {
    assert Elems(names) == {n} + Elems(names[1..]);
    SourcesUnion(w, {n}, Elems(names[1..]), project, status, priorityOnly, a);
  }

  /** Keys from disjoint sets of projects are disjoint, so their counts add. */
  lemma SourcesUnion(w: Workspace, xs: set<string>, ys: set<string>, project: Option<string>, status: Option<Status>, priorityOnly: bool, a: Action)
    requires xs !! ys
    ensures |Sources(w, xs + ys, project, status, priorityOnly, a)|
         == |Sources(w, xs, project, status, priorityOnly, a)| + |Sources(w, ys, project, status, priorityOnly, a)|
  {
    var sx := Sources(w, xs, project, status, priorityOnly, a);
    var sy := Sources(w, ys, project, status, priorityOnly, a);
    assert Sources(w, xs + ys, project, status, priorityOnly, a) == sx + sy;
    assert sx !! sy;
  }

  /** Two iteration orders list the same actions: the order is visible only among equal keys. */
  lemma ListingIgnoresOrder(w: Workspace, o: Order, o': Order, project: Option<string>, status: Option<string>, priorityOnly: bool)
    requires Walks(w, o) && Walks(w, o')
    ensures var r, r' := ListActions(w, o, project, status, priorityOnly), ListActions(w, o', project, status, priorityOnly);
      && r.Ok? == r'.Ok?
      && (r.Ok? ==> multiset(r.value) == multiset(r'.value))
  {
    var r, r' := ListActions(w, o, project, status, priorityOnly), ListActions(w, o', project, status, priorityOnly);
    if r.Ok? && (status.None? || FromStr(status.value).Ok?) {
      var sel := if status.None? then None else Some(FromStr(status.value).value);
      SameCounts(r.value, r'.value, w, project, sel, priorityOnly);
    }
  }

  /** Two lists that each hold every action as often as it has sources are permutations of each other. */
  lemma SameCounts(x: seq<Action>, y: seq<Action>, w: Workspace, project: Option<string>, status: Option<Status>, priorityOnly: bool)
    requires forall a :: multiset(x)[a] == |Sources(w, w.projects.Keys, project, status, priorityOnly, a)|
    requires forall a :: multiset(y)[a] == |Sources(w, w.projects.Keys, project, status, priorityOnly, a)|
    ensures multiset(x) == multiset(y)
  {
    assert forall a :: multiset(x)[a] == multiset(y)[a];
  }

  /* ---------- validate ---------- */

  /** The position of a content section's name, if the name is one. */
  function SectionIndex(name: string): (r: Option<nat>)
    ensures r.Some? ==> r.value < SectionCount && SectionNames[r.value] == name
    ensures r.None? ==> name !in SectionNames
  {
    if name == "Notes" then Some(0)
    else if name == "Statement of Action" then Some(1)
    else if name == "Statement of Inputs" then Some(2)
    else if name == "Statement of Design" then Some(3)
    else if name == "Analysis of Impact" then Some(4)
    else None
  }

  /** A required output the action lacks: a content section's name whose section is absent. */
  predicate Lacks(a: Action, name: string) {
    SectionIndex(name).Some? && Section(a, SectionIndex(name).value).None?
  }

  /** The first of `names` the action lacks. */
  function FirstLacking(a: Action, names: seq<string>): (r: Option<string>)
    ensures r.None? <==> forall k :: 0 <= k < |names| ==> !Lacks(a, names[k])
    ensures r.Some? ==> r.value in names && Lacks(a, r.value)
    decreases |names|
  {
    if |names| == 0 then None
    else if Lacks(a, names[0]) then Some(names[0])
    else
      var r := FirstLacking(a, names[1..]);
      assert forall k :: 1 <= k < |names| ==> names[k] == names[1..][k - 1];
      r
  }

  /** One action's check: its file is there, then every required output it has a section for is present. */
  function CheckAction(name: string, a: Action, fs: Fs): Outcome<Error> {
    if !Exists(fs, a.filePath) then Fail(ValidationFailure(MissingActionFile(a.filePath)))
    else match FirstLacking(a, RequiredOutputs(a.status))
      case Some(s) => Fail(ValidationFailure(MissingSection(name, a.title, s)))
      case None => Pass
  }

  function CheckTitles(name: string, p: Project, titles: seq<string>, fs: Fs): Outcome<Error>
    requires forall t :: t in titles ==> t in p.actions
    decreases |titles|
  {
    if |titles| == 0 then Pass
    else match CheckAction(name, p.actions[titles[0]], fs)
      case Fail(e) => Fail(e)
      case Pass => CheckTitles(name, p, titles[1..], fs)
  }

  function CheckProjects(w: Workspace, o: Order, names: seq<string>, fs: Fs): Outcome<Error>
    requires Walks(w, o) && forall n :: n in names ==> n in w.projects
    decreases |names|
  {
    if |names| == 0 then Pass
    else
      var p := w.projects[names[0]];
      if !Exists(fs, p.path) then Fail(ValidationFailure(MissingProjectDir(p.path)))
      else match CheckTitles(names[0], p, o.titles[names[0]], fs)
        case Fail(e) => Fail(e)
        case Pass => CheckProjects(w, o, names[1..], fs)
  }

  /** The action meets its stage: its file exists and no required content section is absent. */
  predicate ActionOk(a: Action, fs: Fs) {
    Exists(fs, a.filePath) && forall s :: s in RequiredOutputs(a.status) ==> !Lacks(a, s)
  }

  /** A section the action's stage requires and the action lacks. */
  predicate LacksRequired(a: Action, s: string) {
    s in RequiredOutputs(a.status) && Lacks(a, s)
  }

  /** What `validate` demands of the whole workspace. */
  predicate WorkspaceOk(w: Workspace, fs: Fs) {
    && Exists(fs, MarkerFile(w.root))
    && forall n :: n in w.projects ==>
         Exists(fs, w.projects[n].path)
         && forall t :: t in w.projects[n].actions ==> ActionOk(w.projects[n].actions[t], fs)
  }

  /** A reported violation is real. */
  predicate Holds(w: Workspace, fs: Fs, v: Violation) {
    match v
    case MissingMarker => !Exists(fs, MarkerFile(w.root))
    case MissingProjectDir(d) => exists n :: n in w.projects && w.projects[n].path == d && !Exists(fs, d)
    case MissingActionFile(f) =>
      exists n, t :: n in w.projects && t in w.projects[n].actions
                     && w.projects[n].actions[t].filePath == f && !Exists(fs, f)
    case MissingSection(n, title, s) =>
      n in w.projects
      && exists t :: t in w.projects[n].actions && w.projects[n].actions[t].title == title && LacksRequired(w.projects[n].actions[t], s)
  }

  /**
   * `validate`: the marker first, then project by project the directory,
   * then action by action the file and the required sections; the first
   * violation met is reported. A workspace passes exactly when it meets
   * `WorkspaceOk`, and a reported violation always holds.
   */
  function Validate(w: Workspace, o: Order, fs: Fs): (r: Outcome<Error>)
    requires Walks(w, o)
    ensures r.Pass? <==> WorkspaceOk(w, fs)
    ensures r.Fail? ==> r.error.ValidationFailure? && Holds(w, fs, r.error.violation)
    ensures !Exists(fs, MarkerFile(w.root)) ==> r == Fail(ValidationFailure(MissingMarker))
  {
    if !Exists(fs, MarkerFile(w.root)) then Fail(ValidationFailure(MissingMarker))
    else
      CheckProjectsSound(w, o, o.projects, fs);
      CheckProjectsComplete(w, o, o.projects, fs);
      CheckProjects(w, o, o.projects, fs)
  }

  lemma ActionCheck(name: string, a: Action, fs: Fs)
    ensures CheckAction(name, a, fs).Pass? <==> ActionOk(a, fs)
  {
    var req := RequiredOutputs(a.status);
    if Exists(fs, a.filePath) && FirstLacking(a, req).None? {
      forall s | s in req ensures !Lacks(a, s) {
        var k :| 0 <= k < |req| && req[k] == s;
      }
    }
  }

  lemma {:induction false} TitlesCheck(name: string, p: Project, titles: seq<string>, fs: Fs)
    requires forall t :: t in titles ==> t in p.actions
    ensures CheckTitles(name, p, titles, fs).Pass? <==> forall t :: t in titles ==> ActionOk(p.actions[t], fs)
    ensures CheckTitles(name, p, titles, fs).Fail? ==>
              var e := CheckTitles(name, p, titles, fs).error;
              e.ValidationFailure?
              && ((e.violation.MissingActionFile?
                   && exists t :: t in titles && p.actions[t].filePath == e.violation.file && !Exists(fs, e.violation.file))
               || (e.violation.MissingSection? && e.violation.project == name
                   && exists t :: t in titles && p.actions[t].title == e.violation.title && LacksRequired(p.actions[t], e.violation.section)))
    decreases |titles|
  {
    if |titles| > 0 {
      var a := p.actions[titles[0]];
      ActionCheck(name, a, fs);
      TitlesCheck(name, p, titles[1..], fs);
      assert forall t :: t in titles <==> t == titles[0] || t in titles[1..];
    }
  }

  lemma {:induction false} CheckProjectsSound(w: Workspace, o: Order, names: seq<string>, fs: Fs)
    requires Walks(w, o) && forall n :: n in names ==> n in w.projects
    ensures CheckProjects(w, o, names, fs).Fail? ==>
              CheckProjects(w, o, names, fs).error.ValidationFailure?
              && Holds(w, fs, CheckProjects(w, o, names, fs).error.violation)
    decreases |names|
  {
    if |names| > 0 {
      var n := names[0];
      var p := w.projects[n];
      TitlesCheck(n, p, o.titles[n], fs);
      CheckProjectsSound(w, o, names[1..], fs);
    }
  }

  lemma {:induction false} CheckProjectsComplete(w: Workspace, o: Order, names: seq<string>, fs: Fs)
    requires Walks(w, o) && forall n :: n in names ==> n in w.projects
    ensures CheckProjects(w, o, names, fs).Pass? <==>
              forall n :: n in names ==>
                Exists(fs, w.projects[n].path)
                && forall t :: t in w.projects[n].actions ==> ActionOk(w.projects[n].actions[t], fs)
    decreases |names|
  {
    if |names| > 0 {
      var n := names[0];
      TitlesCheck(n, w.projects[n], o.titles[n], fs);
      CheckProjectsComplete(w, o, names[1..], fs);
      assert forall m :: m in names <==> m == n || m in names[1..];
    }
  }

  /**
   * A Discovery action asks for five outputs, but only three of them are
   * content sections: "Title" and "Statement of Specifications" are never
   * checked.
   */
  lemma DiscoveryChecksThree(a: Action, fs: Fs)
    requires a.status == Discovery
    ensures ActionOk(a, fs) <==>
              Exists(fs, a.filePath) && a.notes.Some? && a.statementOfAction.Some? && a.statementOfInputs.Some?
  {
    var req := RequiredOutputs(a.status);
    assert req == ["Title", "Notes", "Statement of Action", "Statement of Inputs", "Statement of Specifications"];
    assert req[1] == "Notes" && req[2] == "Statement of Action" && req[3] == "Statement of Inputs";
    assert SectionIndex("Title").None? && SectionIndex("Statement of Specifications").None?;
    if Exists(fs, a.filePath) && a.notes.Some? && a.statementOfAction.Some? && a.statementOfInputs.Some? {
      forall s | s in req ensures !Lacks(a, s) {
        var k :| 0 <= k < |req| && req[k] == s;
      }
    }
    if ActionOk(a, fs) {
      assert !Lacks(a, req[1]) && !Lacks(a, req[2]) && !Lacks(a, req[3]);
    }
  }

  /** An action just created by a project passes its own check in the filesystem that results. */
  lemma CreatedActionOk(p: Project, title: string, priority: bool, fs: Fs, env: Env)
    requires Projects.CreateAction(p, title, priority, fs, env).Ok?
    ensures var (_, fs', a) := Projects.CreateAction(p, title, priority, fs, env).value;
      ActionOk(a, fs')
  {
    var (_, fs', a) := Projects.CreateAction(p, title, priority, fs, env).value;
    DiscoveryChecksThree(a, fs');
  }

  /** A marked workspace without projects passes, whatever else is on disk. */
  lemma EmptyWorkspaceValid(root: Path, o: Order, fs: Fs)
    requires Walks(Workspace(root, map[]), o) && Exists(fs, MarkerFile(root))
    ensures Validate(Workspace(root, map[]), o, fs).Pass?
  {
  }

  /**
   * Only absence fails a requirement: with its file present, an action
   * whose five sections are all present passes, even when some hold empty
   * text.
   */
  lemma PresentSectionsPass(a: Action, fs: Fs)
    requires Exists(fs, a.filePath)
    requires forall i :: 0 <= i < SectionCount ==> Section(a, i).Some?
    ensures ActionOk(a, fs)
  {
  }
}
